=== FILE: README.md ===
# Filesystem and memory servers: a Dafny model

This project models the logic of two small HTTP servers and proves what
their endpoints promise.

**The filesystem server.** It confines every request to a list of allowed
directories. A path is admitted when its resolved, lower-cased string starts
with the lower-cased string of an allowed directory. Deletion takes two
steps:

- A request without a token mints a five-digit confirmation token. The token
  lives for 60 seconds in a file-backed store.
- A request that carries the token, with the same path string and recursive
  flag, consumes the token and then deletes.

The server also edits text files by an ordered list of first-occurrence
replacements, all or nothing. It lists and walks directories, and it searches
entry names and file contents.

**The memory server.** It keeps a knowledge graph: named, typed entities with
observations, and typed relations between entity names. The graph is stored
as a JSON-lines file. Every write endpoint reads the whole file, updates the
graph and rewrites the file.

## How the model is built

Everything is immutable data and pure functions. What the servers get from
the host becomes a parameter of the model:

- the clock, in two readings: the load time and the request time;
- the three random bytes behind the token;
- whether the confirmation file can be written, or unlinked at startup;
- path resolution (`expanduser` plus `resolve`);
- `glob`/`rglob`, `Path.match`, and the host move primitive.

The filesystem is a tree of `File`, `Dir` and `Special` nodes. A resolved
path is a sequence of components.

Both stores are modelled at record level:

- The confirmation file is a decoded JSON object: tokens mapped to entries,
  each with an expiry that parses or does not.
- The memory file is a sequence of lines, each already decoded: blank, an
  entity record, a relation record, another tag, or undecodable.

Modules follow the servers' files:

- `PathGuard`: `dependencies.py`.
- `Confirmations`: `confirmations.py`.
- `PathOps`: `path_ops.py`.
- `FileEdit`: `files.py`.
- `Directories`: `directories.py`.
- `GraphStorage`: `storage.py`.
- `Entities`, `Relations` and `Queries`: the three routers.
- `MemoryServer`: the endpoints put together.
- Shared helpers:
  - `Basics`: option, result and order-preserving filters;
  - `Text`: Python string methods;
  - `FsTree`: the tree, with lookup and replacement;
  - `KnowledgeGraph`: graph records and name lookup.

Behaviour of the code that the model keeps, and that a reader might not
expect:

- **Errors raised inside a `try` become 500.** `edit_file` raises 400 for a
  missing `oldText` inside a `try` whose `except Exception` turns it into a
  500. The deletion step does the same with its 404 for a vanished target and
  its 400 for a non-empty directory or a special entry, and `move_path` with
  its 404 for a missing source (`DeleteStatus`, `EditStatus`, `MoveStatus`).
- **A mismatch keeps the token.** `delete_path` answers a live token presented
  with another path string or recursive flag with a 400 and leaves the store
  as it was, so the token still works with the parameters it was issued for
  (`PathOps.MismatchRetainsToken`, `PathOps.MismatchThenRetry`).
- **A replayed token gets 400.** A token is deleted from the store before the
  deletion runs, so a second use finds no entry and gets the 400 "Invalid or
  expired confirmation token" (`PathOps.ReplayRejected`).
- **Expired tokens have their own error.** A loaded token whose expiry is
  earlier than the request time is removed from the store and answered with
  the 400 "Confirmation token has expired" (`PathOps.ExpiredTokenRemoved`).
- **Some failures are not caught.** `directory_tree` on a path that is not a
  directory, and reading a memory file with a corrupt line, raise exceptions
  that no handler catches, so the framework answers 500
  (`Directories.TreeFailed`, `MemoryServer.StorageFailed`).
- **Edits see translated line ends.** `read_text` reads in text mode, so
  "\r\n" and a lone "\r" reach the edit loop as "\n"; an `oldText` holding
  "\r\n" is never found, and a written edit stores the translated text
  (`FileEdit.CrlfFileEditedAsLf`). `search_content` reads the same way.
- **An empty token is no token.** A confirmation token that is the empty
  string is falsy in Python, so the request takes the no-token branch
  (`PathOps.TokenGiven`).
- **Deleting the root recursively empties it.** `shutil.rmtree("/")` removes
  everything below the root before it fails to remove the root itself; the
  failure is answered as a 500 (`PathOps.RootDeleteEmptiesRoot`).

Behaviour that is easy to miss and is stated as proved lemmas:

- The path gate compares case-insensitively. The `search_files` result
  filter compares case-sensitively, so a case-variant request passes the gate
  and then reports nothing (`Directories.CaseVariantSearchFindsNothing`).
- `add_observations` lower-cases the requested entity name and compares it
  exactly with the stored names. An entity created with a capital letter can
  therefore never receive observations
  (`MemoryServer.CapitalisedEntityUnreachable`).

## Model

| member | source | states |
|---|---|---|
| PathGuard.Admits | servers/filesystem/app/dependencies.py:13-15 | the loop over the allowed directories succeeds iff some directory's lower-cased string is a prefix of the lower-cased resolved string |
| PathGuard.NormalizePath | servers/filesystem/app/dependencies.py:10-24 | a path is accepted iff some allowed directory is a case-insensitive string prefix of the resolved path; on acceptance the value is the resolved path itself; otherwise the denial carries "Access Denied", the resolved path string, the fixed message and the whole allow-list |
| PathGuard.EmptyAllowListDeniesAll | servers/filesystem/app/dependencies.py:13-16 | with no allowed directories every path is denied |
| PathGuard.CaseVariantsSameVerdict | servers/filesystem/app/dependencies.py:14 | two requests resolving to case variants of one string get the same verdict |
| PathGuard.PrefixIgnoresComponentBoundary | servers/filesystem/app/dependencies.py:14 | the root "/data" admits "/database/x": the test is a string prefix, not a path-component test |
| Confirmations.Load | servers/filesystem/app/confirmations.py:11-29 | the loaded map holds exactly the well-formed stored entries whose expiry is later than now, decoded unchanged, under their own tokens; a missing or undecodable file loads as the empty map; malformed entries are dropped without affecting the others |
| Confirmations.Save | servers/filesystem/app/confirmations.py:32-42 | a successful save stores every entry under its token with only the expiry re-encoded; a failure to open the file leaves the previous file in place; a failure while dumping, after the open truncated the file, leaves an undecodable file |
| Confirmations.Cleanup | servers/filesystem/app/confirmations.py:45-51 | the startup hook leaves no file when the unlink succeeds and the file as it was when it fails |
| Confirmations.LoadAfterSave | servers/filesystem/app/confirmations.py:11-42 | loading what was saved gives back exactly the saved entries still live at load time |
| Confirmations.LoadAfterSaveLive | servers/filesystem/app/confirmations.py:11-42 | saving entries that are all live and loading them again is the identity |
| Confirmations.DumpFailureLosesAll | servers/filesystem/app/confirmations.py:39-42 | after a save that fails while dumping, every pending confirmation is lost: the next load finds none |
| Confirmations.CleanupForgetsAll | servers/filesystem/app/confirmations.py:45-51 | after a successful startup cleanup nothing is pending |
| Confirmations.LoadMonotone | servers/filesystem/app/confirmations.py:23-24 | an entry kept by a load at some time is kept by a load at any earlier time |
| Confirmations.ToHex | servers/filesystem/app/routers/path_ops.py:97 | the hex text of n bytes has 2n characters, all lower-case hex digits |
| Confirmations.FromHexToHex | servers/filesystem/app/routers/path_ops.py:97 | hex encoding loses nothing: decoding it gives back the bytes |
| Confirmations.NewToken | servers/filesystem/app/routers/path_ops.py:97 | a token is exactly five lower-case hex digits |
| Confirmations.NewTokenCollision | servers/filesystem/app/routers/path_ops.py:97 | two draws give the same token iff they agree on the first two bytes and on the high nibble of the third: the truncation keeps 20 of the 24 random bits |
| PathOps.Execute | servers/filesystem/app/routers/path_ops.py:65-91 | the deletion step succeeds iff the path is not the root and is a file, or a directory that is empty or deleted recursively; it then removes exactly the node at the path. A missing target, a non-empty directory without the flag and a special entry each give their own failure and change nothing. On the root, a non-recursive delete fails as not empty and changes nothing, and a recursive one fails after emptying the root |
| PathOps.RootDeleteEmptiesRoot | servers/filesystem/app/routers/path_ops.py:72-91 | a recursive delete of the root fails, leaves the root directory itself in place, and leaves nothing below it |
| PathOps.DeleteStatus | servers/filesystem/app/routers/path_ops.py:46-95 | 403 iff the gate denies; 400 iff the token is unknown, expired or mismatched; 404 iff the path is missing on a request without a token; 500 iff the deletion step failed, including the 400 and 404 raised inside its `try` |
| PathOps.DeletePath | servers/filesystem/app/routers/path_ops.py:35-110 | a denial changes nothing; the filesystem changes only for a token that was loaded, is live at request time and is bound to the request's own path string and flag; a confirmation-required reply comes only without a token, leaves the filesystem alone and expires 60 s after the request; a deletion reply comes only with a token |
| PathOps.DeleteDeniedFirst | servers/filesystem/app/routers/path_ops.py:42-46 | a denied path is answered with the gate's denial, and the store and the filesystem are unchanged |
| PathOps.IssueMissingPath | servers/filesystem/app/routers/path_ops.py:93-95 | without a token, a missing path is a 404 and nothing is stored |
| PathOps.IssueConfirmation | servers/filesystem/app/routers/path_ops.py:93-110 | without a token, an existing path gets a fresh token expiring 60 s after the request; the store then binds it to the request's own path string and flag, keeps every other live entry, overwrites a colliding token and holds nothing else; the filesystem is untouched |
| PathOps.UnknownTokenRejected | servers/filesystem/app/routers/path_ops.py:46-48 | a token that is not among the loaded entries is rejected, and nothing changes |
| PathOps.ExpiredTokenRemoved | servers/filesystem/app/routers/path_ops.py:50-54 | a token past its expiry at request time is rejected and is gone from the store afterwards; the filesystem is untouched |
| PathOps.ExpiredNeedsClockAdvance | servers/filesystem/app/routers/path_ops.py:42-54 | the expired-token branch can only be reached when the clock moves between the load and the request |
| PathOps.MismatchRetainsToken | servers/filesystem/app/routers/path_ops.py:56-60 | a live token presented with another path string or flag is rejected, and the store is left exactly as it was |
| PathOps.MismatchThenRetry | servers/filesystem/app/routers/path_ops.py:56-63 | after a mismatch the same token still reaches the deletion step with the parameters it was issued for |
| PathOps.MatchingTokenConsumed | servers/filesystem/app/routers/path_ops.py:62-91 | a matching token is removed from the store whether or not the deletion succeeds; the reply follows the deletion step, and only the filesystem changes |
| PathOps.ReplayRejected | servers/filesystem/app/routers/path_ops.py:47-48 | a consumed token presented again is rejected as unknown |
| PathOps.ExecuteEffect | servers/filesystem/app/routers/path_ops.py:69-79 | a successful deletion removes the target and its whole subtree, and every path neither above nor below it is unchanged |
| PathOps.ConfirmationCycle | servers/filesystem/app/routers/path_ops.py:35-110 | mint, then confirm within the lifetime, then replay: the confirmation runs the deletion step on the unchanged filesystem and the replay is rejected |
| PathOps.TokenAfterTtlIsUnknown | servers/filesystem/app/routers/path_ops.py:47-48 | a token loaded 60 s or more after it was minted fails like one never issued |
| PathOps.RestartInvalidatesTokens | servers/filesystem/app/main.py:11-14 | after the startup cleanup every token is rejected |
| PathOps.TokenGiven | servers/filesystem/app/routers/path_ops.py:46 | a token is acted on iff it is present and non-empty, so `None` and "" both take the first-call branch |
| PathOps.MoveGatesBothPathsFirst | servers/filesystem/app/routers/path_ops.py:116-117 | a denial of either path, source first, is answered before anything else: the filesystem is unchanged and the move primitive is never consulted |
| PathOps.MoveMissingSource | servers/filesystem/app/routers/path_ops.py:119-121 | a missing source is reported, as a 500, before the move primitive runs |
| PathOps.MoveStatus | servers/filesystem/app/routers/path_ops.py:116-135 | 403 iff the gate denies a path or the move raises a permission error; 500 iff the move failed otherwise, including the missing source whose 404 is raised inside the `try` |
| PathOps.MovePath | servers/filesystem/app/routers/path_ops.py:113-135 | a denial of either path, the source's first, is answered with that denial and changes nothing. After both paths pass the gate, a missing source is a 500 that changes nothing; once the move primitive runs, the filesystem is whatever it left, on failure too, and the request succeeds iff the primitive did, a permission failure being a 403 and any other a 500 |
| PathOps.MoveChangesOnlyThroughPrimitive | servers/filesystem/app/routers/path_ops.py:116-124 | a changed filesystem means both paths passed the gate, the source existed and the tree is what the move primitive left |
| Text.ReplaceFirst | servers/filesystem/app/routers/files.py:71-76 | the result is absent iff `oldText` does not occur; otherwise the text before the first occurrence is kept, the occurrence becomes `newText` and the rest is kept |
| FileEdit.Snippet | servers/filesystem/app/routers/files.py:74 | the quoted part of `oldText` is its prefix: the whole text when it has at most 50 characters, its first 50 otherwise |
| FileEdit.ApplyEdits | servers/filesystem/app/routers/files.py:68-76 | a failure names an edit index within the list and quotes its `oldText` snippet; a success changes the length by the sum of the differences between each `newText` and `oldText` |
| FileEdit.ApplyEditsAppend | servers/filesystem/app/routers/files.py:70-76 | edits run in list order: applying a + b is applying a and then b to its output, with b's failures reported at their index in the whole list |
| FileEdit.ApplyEditsFailure | servers/filesystem/app/routers/files.py:70-75 | a failure is reported at the first edit whose `oldText` is absent from the text the earlier edits produced, all of which applied |
| FileEdit.ApplySingleEdit | servers/filesystem/app/routers/files.py:71-76 | one edit is one `replace(old, new, 1)` guarded by `old in text` |
| FileEdit.ReplacesFirstOccurrenceOnly | servers/filesystem/app/routers/files.py:76 | ("foo", "bar") turns "foo baz foo" into "bar baz foo" |
| FileEdit.LaterEditSeesEarlierOutput | servers/filesystem/app/routers/files.py:71-76 | a later edit can target text an earlier one inserted: "a" with a→b then b→c gives "c" |
| FileEdit.ReadText | servers/filesystem/app/routers/files.py:59-66 | the read succeeds iff the path is a regular file with read permission whose bytes are UTF-8, and gives its text with every "\r\n" and lone "\r" read as "\n"; it reports "missing" iff some directory on the path lacks the next name; a path through a non-directory, a permission error and undecodable bytes are each reported as such |
| FsTree.LookupMissingCases | servers/filesystem/app/routers/files.py:59-62 | a path denotes nothing iff it passes through a non-directory or some directory on it lacks the next name, and never for both reasons |
| FileEdit.EditFileReadErrors | servers/filesystem/app/routers/files.py:59-66 | after the gate, the 404 is answered iff a directory on the path lacks the next name, the 403 iff the read has no permission, and the 500 for every other read failure, including a path through a regular file |
| FileEdit.EditStatus | servers/filesystem/app/routers/files.py:58-93 | 403 iff the gate denies or the read raises a permission error; 404 iff the file is missing; 500 iff the read fails otherwise or an `oldText` is absent, whose 400 is raised inside the `try` |
| FileEdit.EditFile | servers/filesystem/app/routers/files.py:56-93 | a denial is answered first and changes nothing; a success needs an admitted path, a readable file and edits that all apply; a preview comes only from a dry run and changes nothing; the filesystem changes only on a success that is not a dry run |
| FileEdit.EditFileOutcome | servers/filesystem/app/routers/files.py:68-88 | after a good read: an absent `oldText` aborts without writing; a dry run previews the original against the final text without writing; otherwise the reply is the success message |
| FileEdit.EditFileWritesFinalText | servers/filesystem/app/routers/files.py:87-88 | a written edit stores exactly the final text at the path, which reads back with its line ends translated (so unchanged when it holds no "\r"); every path neither above nor below it is unchanged |
| FileEdit.CrlfFileEditedAsLf | servers/filesystem/app/routers/files.py:60-76 | in a file holding "a\r\nb" the edit sees "a\nb": the old text "a\nb" applies and "a\r\nb" is not found |
| Text.UniversalKeepsPlain | servers/filesystem/app/routers/files.py:60 | the newline translation changes a text iff it holds a "\r", and translating twice is translating once |
| Text.UniversalExamples | servers/filesystem/app/routers/files.py:60 | "a\r\nb" reads as "a\nb" and "a\rb\r" as "a\nb\n" |
| FileEdit.EditFileFailureWritesNothing | servers/filesystem/app/routers/files.py:56-93 | any error reply (denial, failed read, absent `oldText`) leaves the filesystem unchanged |
| Text.SplitLines | servers/filesystem/app/routers/directories.py:110-111 | iterating a text gives non-empty lines; every line but the last ends with its newline, and no line holds a newline before its end |
| Text.ConcatSplitLines | servers/filesystem/app/routers/directories.py:110-111 | the lines glue back into the whole text |
| Text.StripIsTrim | servers/filesystem/app/routers/directories.py:117 | `strip` keeps a slice whose removed ends are all whitespace and whose own ends are not |
| Directories.ListEntries | servers/filesystem/app/routers/directories.py:44-47 | one entry per child, in listing order, with its name, tagged directory iff the child is a directory |
| Directories.ListDirectory | servers/filesystem/app/routers/directories.py:37-48 | a denied path gives the gate's denial; otherwise the listing succeeds iff the path is an existing directory, with the entries of its children, and is a 400 otherwise |
| Directories.DirStatus | servers/filesystem/app/routers/directories.py:40-42 | 403 iff the gate denies, 400 iff the path is not a directory |
| Directories.BuildEntry | servers/filesystem/app/routers/directories.py:59-64 | a tree entry keeps the node's name and carries children iff the node is a directory |
| Directories.BuildTree | servers/filesystem/app/routers/directories.py:56-66 | one tree entry per child, in listing order |
| Directories.DirectoryTree | servers/filesystem/app/routers/directories.py:51-68 | a denied path gives the gate's denial; otherwise the tree is answered iff the path is a directory, and fails otherwise |
| Directories.TreeStatus | servers/filesystem/app/routers/directories.py:54-68 | 403 iff the gate denies, 500 iff building the tree raised |
| Directories.FindEntryBuildTree | servers/filesystem/app/routers/directories.py:56-66 | finding a name in the built tree is finding it among the nodes and building its entry |
| Directories.TreeMirrorsFilesystem | servers/filesystem/app/routers/directories.py:56-66 | every path below the listed directory denotes, in the answer, the entry built from the node it denotes on disk, and nothing where nothing is |
| Directories.TreeTopLevelIsListing | servers/filesystem/app/routers/directories.py:37-66 | when the listing succeeds the tree does too, and its first level has the listing's names and directory tags |
| Directories.DirNames | servers/filesystem/app/routers/directories.py:77 | the `dirs` of a walk step are exactly the names of the subdirectories |
| Directories.FileNames | servers/filesystem/app/routers/directories.py:77 | the `files` of a walk step are exactly the names of the other entries |
| Directories.Walk | servers/filesystem/app/routers/directories.py:77 | every walked directory lies at or below the top |
| Directories.WalkAll | servers/filesystem/app/routers/directories.py:77 | the walks of a directory's children lie strictly below it |
| Directories.WalkAllIncludesChild | servers/filesystem/app/routers/directories.py:77 | every step of a child's walk is a step of the parent's walk |
| Directories.WalkVisitsEveryDirectory | servers/filesystem/app/routers/directories.py:77 | the walk visits every directory below its top, with the names of its own entries |
| Directories.WalkSound | servers/filesystem/app/routers/directories.py:77 | every step of the walk is some directory reachable from the top, at its own path, listed with its own entries |
| Directories.WalkAllSound | servers/filesystem/app/routers/directories.py:77 | every step of the children's walks is a directory reachable through one of the children, at its own path, listed with its own entries |
| Directories.WalkStepIsDirectory | servers/filesystem/app/routers/directories.py:77 | when sibling names are distinct, every step's root denotes a directory and the step lists that directory's entries |
| Directories.AnyPrefix | servers/filesystem/app/routers/directories.py:89 | the result filter holds iff some allowed directory is a case-sensitive prefix of the result path |
| Directories.ItemMatches | servers/filesystem/app/routers/directories.py:86-90 | a directory contributes `root/item` iff the item's name contains the pattern up to case and the path passes the allow-list filter |
| Directories.StepsMatches | servers/filesystem/app/routers/directories.py:77-90 | the matches of a walk are exactly the matches of its steps whose own root is not excluded |
| Directories.SearchFiles | servers/filesystem/app/routers/directories.py:71-92 | the search fails iff the gate denies, with its denial; an answer is never empty |
| Directories.MatchIsNotPlaceholder | servers/filesystem/app/routers/directories.py:88-92 | no match is the placeholder string: every match is a path string starting with "/" |
| Directories.StepsMatchesEmpty | servers/filesystem/app/routers/directories.py:77-92 | the walk yields no match iff no non-excluded directory yields one |
| Directories.SearchFilesPlaceholder | servers/filesystem/app/routers/directories.py:92 | the placeholder is answered iff no non-excluded walked directory has a matching entry that passes the filter, and it is then the whole answer |
| Directories.SearchFilesSound | servers/filesystem/app/routers/directories.py:77-90 | every reported path is `root/item` for a walked, non-excluded directory whose entry name matches, and passes the allow-list filter |
| Directories.SearchFilesComplete | servers/filesystem/app/routers/directories.py:77-90 | every matching entry of every directory below the searched one whose own path is not excluded is reported, even when a directory above it is excluded |
| Directories.MatchesUnderBase | servers/filesystem/app/routers/directories.py:77-90 | every match starts with the string of the searched directory and passes the allow-list filter |
| Directories.ItemMatchesNoneAllowed | servers/filesystem/app/routers/directories.py:86-90 | one directory contributes nothing when no path below the base passes the filter |
| Directories.StepsMatchesNoneAllowed | servers/filesystem/app/routers/directories.py:77-90 | a walk contributes nothing when no path below the base passes the filter |
| Directories.CaseVariantSearchFindsNothing | servers/filesystem/app/routers/directories.py:89-92 | with allowed directory "/Data" and a request resolving to "/data", the search passes the gate and answers only the placeholder |
| Directories.MatchingLines | servers/filesystem/app/routers/directories.py:111-112 | the matching line numbers are exactly the numbers of the lines containing the query up to case, in increasing order |
| Directories.LineHits | servers/filesystem/app/routers/directories.py:111-119 | a file's hits are exactly its matching lines, numbered from 1, each with its stripped text, in line order |
| Directories.LenientText | servers/filesystem/app/routers/directories.py:108-110 | a candidate is read iff it is a regular file with read permission; undecodable bytes are dropped rather than failing, line ends are translated as in the strict read, and where the strict read succeeds both reads give the same text |
| Directories.FileHits | servers/filesystem/app/routers/directories.py:107-121 | a hit is reported for a candidate iff the candidate is read leniently and the hit is one of its line hits; a candidate that is not read contributes nothing |
| Directories.AllHits | servers/filesystem/app/routers/directories.py:107-121 | the hits of the candidates are exactly the line hits of readable candidate files |
| Directories.AllHitsAppend | servers/filesystem/app/routers/directories.py:107-119 | the hits of two candidate lists one after the other are the first list's hits followed by the second's, so hits come candidate by candidate in glob order |
| Directories.AllHitsSingle | servers/filesystem/app/routers/directories.py:107-119 | one candidate contributes exactly its own hits, which are in line order |
| Directories.SearchContent | servers/filesystem/app/routers/directories.py:95-123 | a denied path gives the gate's denial; otherwise the search succeeds iff the base is a directory, and is a 400 otherwise; an answer is never empty |
| Directories.SearchContentHits | servers/filesystem/app/routers/directories.py:105-119 | a hit is reported iff it is a line hit of some readable candidate file |
| Directories.SearchContentOrder | servers/filesystem/app/routers/directories.py:105-123 | unless the answer is the placeholder alone, it is exactly the candidates' hits in glob order, each candidate's in line order, with no placeholder among them |
| Directories.SearchContentPlaceholder | servers/filesystem/app/routers/directories.py:123 | the placeholder is answered iff no candidate has a hit |
| Directories.AllHitsEmpty | servers/filesystem/app/routers/directories.py:107-123 | there are no hits at all iff no candidate has a hit |
| Directories.NonReadableCandidatesSkipped | servers/filesystem/app/routers/directories.py:108-121 | files without read permission, directories, special entries and missing candidates contribute no hits and do not abort the search; a file whose bytes are not UTF-8 is scanned in its leniently decoded text |
| KnowledgeGraph.Names | servers/memory/app/routers/entities.py:21 | the name set holds exactly the names of the entities |
| KnowledgeGraph.FindEntity | servers/memory/app/routers/entities.py:36 | the lookup finds the first entity with exactly the name, and fails iff no entity has it |
| KnowledgeGraph.SameNamesFind | servers/memory/app/routers/entities.py:36-40 | updating observations keeps the names, so later lookups find the same entity |
| GraphStorage.EntityLines | servers/memory/app/storage.py:39 | one entity record per entity, in order |
| GraphStorage.RelationLines | servers/memory/app/storage.py:39-42 | one relation record per relation, in order |
| GraphStorage.Save | servers/memory/app/storage.py:38-44 | the saved file exists and holds every entity record, then every relation record, one per line, in order |
| GraphStorage.ReadLines | servers/memory/app/storage.py:20-35 | the read succeeds iff no line is undecodable; it then holds exactly the entities and the relations recorded in the lines |
| GraphStorage.Read | servers/memory/app/storage.py:16-18 | a missing file reads as the empty graph |
| GraphStorage.ReadLinesAppend | servers/memory/app/storage.py:20-34 | reading keeps each kind in file order: two runs of lines read as the first run's records followed by the second's |
| GraphStorage.ReadEntityLines | servers/memory/app/storage.py:23-28 | entity records read back as exactly those entities |
| GraphStorage.ReadRelationLines | servers/memory/app/storage.py:29-30 | relation records read back as exactly those relations |
| GraphStorage.ReadAfterSave | servers/memory/app/storage.py:16-44 | reading what was saved gives back the same entities and relations in the same order |
| GraphStorage.EmptyGraphRoundTrip | servers/memory/app/storage.py:17-20 | the empty graph is saved as a file with no lines, which reads back as the empty graph, like a missing file |
| GraphStorage.SkippedLinesIgnored | servers/memory/app/storage.py:20-34 | a blank line or a record with an unknown tag anywhere in the file changes nothing |
| GraphStorage.CorruptLineFailsRead | servers/memory/app/storage.py:24 | a single undecodable line makes the whole read fail |
| Entities.CreateEntities | servers/memory/app/routers/entities.py:18-25 | the new entities are exactly the requested ones whose name was not already present; they are appended after the existing ones and returned, and relations are unchanged |
| Entities.CreateEntitiesInOrder | servers/memory/app/routers/entities.py:22 | the created entities keep request order |
| Entities.CreateEntitiesKeepsRequestDuplicates | servers/memory/app/routers/entities.py:21-23 | two requested entities with the same new name are both created |
| Entities.CreateEntitiesTwice | servers/memory/app/routers/entities.py:21-23 | repeating a creation creates nothing and changes nothing |
| Entities.AppendObservations | servers/memory/app/routers/entities.py:40 | the entity's observations are extended at the end; its type, the other entities, the names and the relations are unchanged |
| Entities.NewContents | servers/memory/app/routers/entities.py:39 | the added contents are exactly the item's contents that the entity did not hold |
| Entities.AddObservations | servers/memory/app/routers/entities.py:33-41 | a success keeps the relations and the names, and reports one item per request item, named by the lower-cased entity name |
| Entities.AddObservationsCons | servers/memory/app/routers/entities.py:33-41 | a request is its first item applied to the graph, then the rest applied to the result, with the first report in front; an unknown first name aborts with that name |
| Entities.FirstMissing | servers/memory/app/routers/entities.py:34-38 | the first request item whose lower-cased name is not among the stored names, if any |
| Entities.AddObservationsFailure | servers/memory/app/routers/entities.py:34-38 | the request fails iff some item names no entity, and the error is the lower-cased name of the first such item |
| Entities.AddObservationsSingle | servers/memory/app/routers/entities.py:36-41 | one item extends the first entity with its lower-cased name by exactly the new contents, and reports exactly those |
| Entities.AddObservationsHoldsAll | servers/memory/app/routers/entities.py:33-41 | after a success, every content of every item is held by the entity the item names, and every entity keeps what it held |
| Entities.AddObservationsTwice | servers/memory/app/routers/entities.py:39-41 | repeating a successful request adds nothing and reports nothing added |
| Entities.AddNothingNew | servers/memory/app/routers/entities.py:39-41 | items whose contents are already held leave the graph as it is and report empty additions |
| Entities.AddObservationsFrameAt | servers/memory/app/routers/entities.py:33-41 | after a success an entity keeps its name and type, and its observations are the old ones followed by what the reports of the items naming it added, in request order |
| Entities.AddObservationsFrame | servers/memory/app/routers/entities.py:33-41 | the same for every entity at once; an entity no item names is unchanged |
| Entities.AddObservationsReports | servers/memory/app/routers/entities.py:36-41 | the report of each item holds exactly its contents that its entity held neither before the request nor from the earlier items, in item order with repeats kept |
| Entities.DeleteEntities | servers/memory/app/routers/entities.py:47-55 | an entity is kept iff its name is not listed; a relation is kept iff neither endpoint is listed |
| Entities.DeleteEntitiesInOrder | servers/memory/app/routers/entities.py:50-55 | what is kept keeps stored order |
| Entities.DeleteEntitiesIdempotent | servers/memory/app/routers/entities.py:50-55 | deleting the same names again changes nothing |
| Entities.DeleteEntitiesKeepsClosed | servers/memory/app/routers/entities.py:50-55 | the cascade keeps every relation joined to existing entities when it was so before |
| Entities.DeleteFrom | servers/memory/app/routers/entities.py:65-71 | one deletion item removes every listed observation from the entity it targets and nothing else; names, types and relations are unchanged |
| Entities.DeleteObservations | servers/memory/app/routers/entities.py:60-73 | names, types and relations are unchanged |
| Entities.SparesCons | servers/memory/app/routers/entities.py:64-71 | whether any item removes an observation splits into the first item and the rest, since earlier items do not change which entity a name targets |
| Entities.DeleteObservationsExact | servers/memory/app/routers/entities.py:64-71 | an observation survives iff it was held and no item targeting its entity lists it |
| Entities.DeleteObservationsMissingIgnored | servers/memory/app/routers/entities.py:67-68 | an item naming no entity is silently ignored |
| Relations.CreateRelations | servers/memory/app/routers/relations.py:13-20 | the new relations are exactly the requested triples not already stored, appended and returned; entities are unchanged |
| Relations.CreateRelationsInOrder | servers/memory/app/routers/relations.py:17 | the created relations keep request order |
| Relations.CreateRelationsKeepsRequestDuplicates | servers/memory/app/routers/relations.py:16-18 | a new triple requested twice in one request is stored twice |
| Relations.CreateRelationsTwice | servers/memory/app/routers/relations.py:16-18 | repeating a creation creates nothing and changes nothing |
| Relations.CreateRelationsAllowsDangling | servers/memory/app/routers/relations.py:13-20 | endpoints are not checked: a relation between absent entities is created and leaves the graph without referential integrity |
| Relations.DeleteRelations | servers/memory/app/routers/relations.py:23-29 | a relation is kept iff its triple is not in the request; entities are unchanged |
| Relations.DeleteRelationsInOrder | servers/memory/app/routers/relations.py:27-29 | what is kept keeps stored order |
| Relations.DeleteRelationsIdempotent | servers/memory/app/routers/relations.py:27-29 | deleting the same triples again changes nothing |
| Relations.DeleteAfterCreate | servers/memory/app/routers/relations.py:13-29 | deleting what was just created leaves what deleting alone would |
| Relations.DeleteRelationsKeepsClosed | servers/memory/app/routers/relations.py:27-29 | deleting relations keeps referential integrity |
| Queries.Induced | servers/memory/app/routers/graph.py:32-33 | the returned relations are exactly the stored ones with both endpoints among the names |
| Queries.SearchNodes | servers/memory/app/routers/graph.py:23-34 | an entity is returned iff the lower-cased query occurs in its lower-cased name, type or some observation; a relation is returned iff both endpoints are returned names |
| Queries.OpenNodes | servers/memory/app/routers/graph.py:40-45 | an entity is returned iff its name is exactly one of the requested names; a relation is returned iff both endpoints are returned names |
| Queries.QueriesAreClosed | servers/memory/app/routers/graph.py:32-33 | both queries return a graph with referential integrity, whatever is stored |
| Queries.QueriesInOrder | servers/memory/app/routers/graph.py:25-44 | the returned entities and relations keep stored order |
| Queries.SearchIgnoresQueryCase | servers/memory/app/routers/graph.py:28-30 | queries with the same lower-case form give the same answer |
| Queries.EmptyQueryReturnsAll | servers/memory/app/routers/graph.py:25-33 | the empty query returns every stored entity in stored order; a graph with referential integrity is returned whole |
| Queries.OpenAllNamesReturnsAll | servers/memory/app/routers/graph.py:42-44 | opening every stored name returns a graph with referential integrity whole |
| Queries.OpenNodesIsCaseSensitive | servers/memory/app/routers/graph.py:28-42 | "alice" opens nothing when the entity is "Alice", although the search for "alice" finds it |
| MemoryServer.NotFoundDetail | servers/memory/app/routers/entities.py:38 | the 404 detail is "Entity ", the lower-cased name and " not found" |
| MemoryServer.MemoryStatus | servers/memory/app/routers/entities.py:37-38 | a failed read is a 500, an unknown entity a 404 |
| MemoryServer.CreateEntitiesEndpoint | servers/memory/app/routers/entities.py:18-25 | a corrupt store is a 500 and is left as it was; otherwise the reply is the created entities, the file is rewritten as exactly the saved records of the updated graph, and it reads back as that graph |
| MemoryServer.AddObservationsEndpoint | servers/memory/app/routers/entities.py:28-44 | a corrupt store is a 500; after a good read, the request succeeds iff the operation does, replies with its reports and rewrites the file as exactly the saved records of the updated graph; an unknown name is answered with that name and every error leaves the store as it was |
| MemoryServer.DeleteEntitiesEndpoint | servers/memory/app/routers/entities.py:47-57 | a corrupt store is a 500 and is left as it was; otherwise the fixed message is returned, the file is rewritten as exactly the saved records of the updated graph, and it reads back as that graph |
| MemoryServer.DeleteObservationsEndpoint | servers/memory/app/routers/entities.py:60-74 | a corrupt store is a 500 and is left as it was; otherwise the fixed message is returned, the file is rewritten as exactly the saved records of the updated graph, and it reads back as that graph |
| MemoryServer.CreateRelationsEndpoint | servers/memory/app/routers/relations.py:13-20 | a corrupt store is a 500 and is left as it was; otherwise the reply is the created relations, the file is rewritten as exactly the saved records of the updated graph, and it reads back as that graph |
| MemoryServer.DeleteRelationsEndpoint | servers/memory/app/routers/relations.py:23-31 | a corrupt store is a 500 and is left as it was; otherwise the fixed message is returned, the file is rewritten as exactly the saved records of the updated graph, and it reads back as that graph |
| MemoryServer.ReadGraphEndpoint | servers/memory/app/routers/graph.py:13-15 | the answer succeeds iff the store reads, and is the stored graph unchanged |
| MemoryServer.SearchNodesEndpoint | servers/memory/app/routers/graph.py:23-34 | the answer succeeds iff the store reads, and is the search of the stored graph |
| MemoryServer.OpenNodesEndpoint | servers/memory/app/routers/graph.py:40-45 | the answer succeeds iff the store reads, and is the opening of the stored graph |
| MemoryServer.AddObservationsEndpointOutcome | servers/memory/app/routers/entities.py:33-43 | after a good read, the first item naming no entity gives a 404 whose detail quotes its lower-cased name, and nothing is saved, even for earlier items; otherwise the store reads back as the updated graph |
| MemoryServer.WriteRewritesWholeFile | servers/memory/app/storage.py:38-44 | whatever the request, every write endpoint replaces a file holding a blank line or an unknown tag by exactly the saved records of the updated graph, so skipped lines disappear; a missing file is created |
| MemoryServer.CapitalisedEntityUnreachable | servers/memory/app/routers/entities.py:34-38 | an entity stored as "Alice" cannot receive observations: the request for "Alice" fails with the 404 for "alice" and nothing is saved |

## Left out

- The time server and the Wiki.js proxy: clock, time-zone parsing, floating point and network code.
- The `main.py` files: CORS and router registration. Only the effect of the filesystem server's startup hook, an emptied store, is modelled.
- `read_file`, `write_file`, `create_directory`, `get_metadata` and `list_allowed_directories`: thin I/O wrappers over stat, read, write and mkdir.
- Path resolution, `~` expansion and symlinks: the resolver is an opaque function in the environment, and the tree has no links.
- `Path.match`, `glob` and `rglob`: these are parameters. The walk does not follow symlinks.
- Unreadable directories during `iterdir`, `os.walk` and `rglob`: directories are always listable in the model.
- The difflib unified diff: a dry run returns the pair of texts the diff compares.
- JSON and ISO-8601 text: the confirmation file and the memory file are modelled as decoded records. A confirmation file whose top level is valid JSON but not an object is not distinguished from a well-formed one.
- Confirmations.Load: an entry whose expiry parses but whose `path` or `recursive` field is mistyped or missing is kept by the code and only fails when used. The model treats every entry with a parsable expiry as well-formed.
- Unicode case mapping: `lower()` is modelled on ASCII letters only. Which bytes `errors="ignore"` drops is not modelled: an undecodable file carries its leniently decoded text as given.
- FileEdit.EditFile: write failures are not modelled. The code answers 403 for a permission error when writing and 500 for any other write error; in the model a write always succeeds.
- PathOps.Execute: host failures of `unlink`, `rmtree` and `rmdir` are not modelled. In the code, a permission error from `unlink` or `rmtree` is a 403 and any other error a 500. Every `rmdir` failure, a permission error included, is caught as a 400 inside the `try` and becomes a 500.
- Directories.SearchFiles: an explicit `null` for the optional `excludePatterns` is not modelled; the parameter is always a list. The code then fails with a `TypeError`, a 500, as soon as the walk yields a step.
- Directories.SearchContent: an explicit `null` for the optional `file_pattern` is not modelled; the parameter is always a string. The code then fails with a `TypeError` from `glob`/`rglob`, a 500, for every directory base.
- PathOps.MovePath: the tree after the move, on success or failure, is the host primitive's result. A failed copy-then-delete can leave a partial copy at the destination, so the model does not promise that a failed move leaves the tree unchanged. The 403 and 500 failure texts are not modelled.
- The memory server's save: write failures are not modelled, and every save succeeds.
- Concurrency: the unlocked load, modify and save of both store files is treated as one atomic step.
- Timestamps are whole seconds, not microsecond datetimes.
- MemoryServer.AddObservationsEndpoint: its contract says the request fails iff the operation does. Which item causes the failure is stated by `AddObservationsEndpointOutcome`, because that needs the first-missing-name characterisation.
- FileEdit.ReadText: devices are `Special` nodes, as `is_file()` and `is_dir()` see them, so `delete_path` answers them with a 500 and `search_content` skips them. Reading a device as text is modelled as failing with a 500. The code's `read_text` on a character device such as `/dev/null` can succeed, and then the edit goes ahead; that case is not modelled.

=== FILE: basics.dfy ===
/** Failure-carrying wrappers and order-preserving filtering, shared by every
    other module of the model. */
module Basics {

  /** A value that may be absent (Python's `None`). */
  datatype Option<+T> = None | Some(value: T)

  /** Either a computed value or the error that stopped the computation. */
  datatype Result<+T, +E> = Ok(value: T) | Err(error: E)

  /** Keeps the elements of `s` that satisfy `keep`, in their original order:
      the model of a Python list comprehension with an `if` clause. */
  function Filter<T(!new)>(s: seq<T>, keep: T -> bool): (r: seq<T>)
    ensures |r| <= |s|
    ensures forall x :: x in r <==> x in s && keep(x)
  {
    if s == [] then [] else (if keep(s[0]) then [s[0]] else []) + Filter(s[1..], keep)
  }

  /** `f`'s results for the elements of `s`, concatenated in order: a loop
      that extends one list with each element's contribution. */
  function FlatMap<A, B>(s: seq<A>, f: A -> seq<B>): seq<B>
  {
    if s == [] then [] else f(s[0]) + FlatMap(s[1..], f)
  }

  /** An element is in the result exactly when some element's contribution
      holds it. */
  lemma {:induction false} FlatMapMembers<A, B>(s: seq<A>, f: A -> seq<B>, x: B)
    ensures x in FlatMap(s, f) <==> exists k :: 0 <= k < |s| && x in f(s[k])
    decreases |s|
  {
    if s != [] {
      FlatMapMembers(s[1..], f, x);
      assert forall k :: 1 <= k < |s| ==> s[k] == s[1..][k - 1];
      if exists k :: 0 <= k < |s[1..]| && x in f(s[1..][k]) {
        var k :| 0 <= k < |s[1..]| && x in f(s[1..][k]);
        assert x in f(s[k + 1]);
      }
    }
  }

  /** The contributions of two sequences one after the other are the first
      sequence's followed by the second's. */
  lemma {:induction false} FlatMapAppend<A, B>(a: seq<A>, b: seq<A>, f: A -> seq<B>)
    ensures FlatMap(a + b, f) == FlatMap(a, f) + FlatMap(b, f)
    decreases |a|
  {
    if a == [] {
      assert a + b == b;
    } else {
      assert (a + b)[0] == a[0];
      assert (a + b)[1..] == a[1..] + b;
      FlatMapAppend(a[1..], b, f);
      assert f(a[0]) + (FlatMap(a[1..], f) + FlatMap(b, f)) == (f(a[0]) + FlatMap(a[1..], f)) + FlatMap(b, f);
    }
  }

  /** The result is empty exactly when every contribution is. */
  lemma {:induction false} FlatMapEmpty<A, B>(s: seq<A>, f: A -> seq<B>)
    ensures FlatMap(s, f) == [] <==> forall k :: 0 <= k < |s| ==> f(s[k]) == []
    decreases |s|
  {
    if s != [] {
      FlatMapEmpty(s[1..], f);
      assert forall k :: 1 <= k < |s| ==> s[k] == s[1..][k - 1];
    }
  }

  /** `r` can be obtained from `s` by deleting elements, without reordering. */
  ghost predicate SubseqOf<T>(r: seq<T>, s: seq<T>)
    decreases |s|
  {
    if r == [] then true
    else if s == [] then false
    else if r[0] == s[0] then SubseqOf(r[1..], s[1..])
    else SubseqOf(r, s[1..])
  }

  /** Filtering distributes over concatenation: the filtered halves stay in order. */
  lemma {:induction false} FilterAppend<T(!new)>(a: seq<T>, b: seq<T>, keep: T -> bool)
    ensures Filter(a + b, keep) == Filter(a, keep) + Filter(b, keep)
    decreases |a|
  {
    if a == [] {
      assert a + b == b;
    } else {
      assert (a + b)[1..] == a[1..] + b;
      FilterAppend(a[1..], b, keep);
    }
  }

  /** A filter keeps exactly the sequence when every element passes. */
  lemma {:induction false} FilterKeepsAll<T(!new)>(s: seq<T>, keep: T -> bool)
    requires forall i :: 0 <= i < |s| ==> keep(s[i])
    ensures Filter(s, keep) == s
    decreases |s|
  {
    if s != [] {
      FilterKeepsAll(s[1..], keep);
    }
  }

  /** A filter keeps nothing when no element passes. */
  lemma {:induction false} FilterKeepsNone<T(!new)>(s: seq<T>, keep: T -> bool)
    requires forall i :: 0 <= i < |s| ==> !keep(s[i])
    ensures Filter(s, keep) == []
    decreases |s|
  {
    if s != [] {
      FilterKeepsNone(s[1..], keep);
    }
  }

  /** Filtering twice with the same test changes nothing the second time. */
  lemma {:induction false} FilterIdempotent<T(!new)>(s: seq<T>, keep: T -> bool)
    ensures Filter(Filter(s, keep), keep) == Filter(s, keep)
  {
    var r := Filter(s, keep);
    forall i | 0 <= i < |r|
      ensures keep(r[i])
    {
      assert r[i] in r;
    }
    FilterKeepsAll(r, keep);
  }

  /** Two tests that agree on every element of `s` filter it alike. */
  lemma {:induction false} FilterCongruent<T(!new)>(s: seq<T>, p: T -> bool, q: T -> bool)
    requires forall i :: 0 <= i < |s| ==> p(s[i]) == q(s[i])
    ensures Filter(s, p) == Filter(s, q)
    decreases |s|
  {
    if s != [] {
      FilterCongruent(s[1..], p, q);
    }
  }

  /** Filtering by `p` and then by `q` is filtering by their conjunction. */
  lemma {:induction false} FilterFilter<T(!new)>(s: seq<T>, p: T -> bool, q: T -> bool, both: T -> bool)
    requires forall x :: both(x) == (p(x) && q(x))
    ensures Filter(Filter(s, p), q) == Filter(s, both)
    decreases |s|
  {
    if s != [] {
      FilterFilter(s[1..], p, q, both);
      if p(s[0]) {
        assert [s[0]][1..] == [];
        FilterAppend([s[0]], Filter(s[1..], p), q);
      } else {
        assert Filter(s, p) == Filter(s[1..], p);
      }
    }
  }

  /** The result of a filter is an order-preserving subsequence of its input. */
  lemma {:induction false} FilterIsSubseq<T(!new)>(s: seq<T>, keep: T -> bool)
    ensures SubseqOf(Filter(s, keep), s)
    decreases |s|
  {
    if s != [] {
      FilterIsSubseq(s[1..], keep);
      if keep(s[0]) {
        assert Filter(s, keep)[1..] == Filter(s[1..], keep);
      } else {
        assert Filter(s, keep) == Filter(s[1..], keep);
        SubseqDropFront(Filter(s[1..], keep), s);
      }
    }
  }

  /** A subsequence of the tail is a subsequence of the whole. */
  lemma {:induction false} SubseqDropFront<T>(r: seq<T>, s: seq<T>)
    requires s != []
    requires SubseqOf(r, s[1..])
    ensures SubseqOf(r, s)
    decreases |s|, 0
  {
    if r != [] && r[0] == s[0] {
      // r[1..] is a subsequence of s[1..]: drop r[0] from the witness.
      SubseqTail(r, s[1..]);
    }
  }

  /** Dropping the head of a subsequence leaves a subsequence. */
  lemma {:induction false} SubseqTail<T>(r: seq<T>, s: seq<T>)
    requires r != []
    requires SubseqOf(r, s)
    ensures SubseqOf(r[1..], s)
    decreases |s|, 1
  {
    if s != [] {
      if r[0] == s[0] {
        SubseqDropFront(r[1..], s);
      } else {
        SubseqTail(r, s[1..]);
        SubseqDropFront(r[1..], s);
      }
    }
  }
}

=== FILE: confirmations.dfy ===
/** The file-backed store of pending delete confirmations: token -> entry,
    pruned by expiry when loaded, rewritten whole when saved, and wiped when
    the server starts. JSON and ISO-8601 text are abstracted: a snapshot is
    the decoded JSON object, and an expiry is either a timestamp that parses
    (`Iso`) or text that does not. Times are whole seconds. */
module Confirmations {
  import opened Basics

  /** Time-to-live of a confirmation token, in seconds. */
  const ConfirmationTtlSeconds: int := 60

  /** A pending confirmation: the request path string exactly as the caller
      sent it, the recursive flag and the absolute expiry time. */
  datatype Pending = Pending(path: string, recursive: bool, expiry: int)

  /** The stored `expiry` value. */
  datatype Expiry = Iso(instant: int) | Unparsable(text: string)

  /** One stored value: a well-formed entry, or anything that makes reading its
      expiry fail (not an object, no `expiry` key, not a string). */
  datatype RawEntry = Entry(path: string, recursive: bool, expiry: Expiry) | Malformed

  /** The confirmation file: absent, present but unreadable or not JSON, or a
      decoded object mapping tokens to entries. */
  datatype Snapshot = NoFile | Undecodable | Stored(entries: map<string, RawEntry>)

  /** A stored entry that `load` keeps at time `now`. */
  predicate LiveAt(e: RawEntry, now: int)
  {
    e.Entry? && e.expiry.Iso? && e.expiry.instant > now
  }

  /** The in-memory form of a well-formed entry. */
  function Decode(e: RawEntry): Pending
    requires e.Entry? && e.expiry.Iso?
  {
    Pending(e.path, e.recursive, e.expiry.instant)
  }

  /** The stored form of an entry: only the expiry is re-encoded. */
  function Encode(p: Pending): RawEntry
  {
    Entry(p.path, p.recursive, Iso(p.expiry))
  }

  /** `load_confirmations`: the well-formed entries whose expiry is later than
      `now`; a missing or undecodable file reads as no confirmations. */
  function Load(s: Snapshot, now: int): (m: map<string, Pending>)
    ensures forall t :: t in m ==> m[t].expiry > now
    ensures !s.Stored? ==> m == map[]
    ensures s.Stored? ==> m.Keys <= s.entries.Keys
    ensures s.Stored? ==> forall t :: t in m ==> LiveAt(s.entries[t], now)
    ensures s.Stored? ==> forall t :: t in s.entries && LiveAt(s.entries[t], now) ==>
                                      t in m && m[t] == Decode(s.entries[t])
  {
    match s
    case NoFile => map[]
    case Undecodable => map[]
    case Stored(entries) =>
      map t | t in entries && LiveAt(entries[t], now) :: Decode(entries[t])
  }

  /** How writing the confirmation file goes: it is written whole, opening
      it fails (nothing is touched), or opening truncates it and the JSON dump
      then fails, leaving an empty or partial file. */
  datatype WriteOutcome = Written | OpenFailed | DumpFailed

  /** `save_confirmations`: the whole map is written, each entry encoded. The
      `IOError` of a failed write is swallowed: a failed open leaves the
      previous file in place, and a dump that fails after the truncating open
      leaves text that no longer parses as JSON. */
  function Save(m: map<string, Pending>, prior: Snapshot, w: WriteOutcome): (s: Snapshot)
    ensures w == OpenFailed ==> s == prior
    ensures w == DumpFailed ==> s == Undecodable
    ensures w == Written ==> s.Stored? && s.entries.Keys == m.Keys
    ensures w == Written ==> forall t :: t in m ==> s.entries[t] == Encode(m[t])
  {
    match w
    case Written => Stored(map t | t in m :: Encode(m[t]))
    case OpenFailed => prior
    case DumpFailed => Undecodable
  }

  /** `cleanup_stale_confirmation_file`: the startup hook deletes the file; a
      failed unlink is swallowed. */
  function Cleanup(s: Snapshot, unlinkOk: bool): (r: Snapshot)
    ensures unlinkOk ==> r == NoFile
    ensures !unlinkOk ==> r == s
  {
    if s.NoFile? then NoFile else if unlinkOk then NoFile else s
  }

  /** The entries of `m` still live at `now`. */
  function LiveEntries(m: map<string, Pending>, now: int): map<string, Pending>
  {
    map t | t in m && m[t].expiry > now :: m[t]
  }

  /** Round trip: loading what was saved gives back the saved entries that are
      still live. */
  lemma LoadAfterSave(m: map<string, Pending>, prior: Snapshot, now: int)
    ensures Load(Save(m, prior, Written), now) == LiveEntries(m, now)
  {
    var l := Load(Save(m, prior, Written), now);
    assert l.Keys == LiveEntries(m, now).Keys;
  }

  /** Saving a map whose entries are all live and loading it back is the identity. */
  lemma LoadAfterSaveLive(m: map<string, Pending>, prior: Snapshot, now: int)
    requires forall t :: t in m ==> m[t].expiry > now
    ensures Load(Save(m, prior, Written), now) == m
  {
    LoadAfterSave(m, prior, now);
    assert LiveEntries(m, now) == m;
  }

  /** A dump that fails after the truncating open loses every pending
      confirmation: the next load finds nothing. */
  lemma DumpFailureLosesAll(m: map<string, Pending>, prior: Snapshot, now: int)
    ensures Load(Save(m, prior, DumpFailed), now) == map[]
  {
  }

  /** After a successful startup cleanup nothing is pending. */
  lemma CleanupForgetsAll(s: Snapshot, now: int)
    ensures Load(Cleanup(s, true), now) == map[]
  {
  }

  /** An entry that `load` keeps at some time is kept at every earlier time too. */
  lemma LoadMonotone(s: Snapshot, earlier: int, later: int)
    requires earlier <= later
    ensures Load(s, later).Keys <= Load(s, earlier).Keys
  {
  }

  /** One random byte. */
  type Byte = b: int | 0 <= b < 256

  /** The three random bytes behind `secrets.token_hex(3)`. */
  datatype Entropy = Entropy(b0: Byte, b1: Byte, b2: Byte)

  /** A lower-case hexadecimal digit. */
  predicate IsHexDigit(c: char)
  {
    '0' <= c <= '9' || 'a' <= c <= 'f'
  }

  /** The lower-case hex digit of a nibble. */
  function HexDigit(d: int): (c: char)
    requires 0 <= d < 16
    ensures IsHexDigit(c)
  {
    if d < 10 then (48 + d) as char else (87 + d) as char
  }

  /** Two lower-case hex digits for one byte, high nibble first. */
  function HexByte(b: Byte): string
  {
    [HexDigit(b / 16), HexDigit(b % 16)]
  }

  /** `bytes.hex()`. */
  function ToHex(bs: seq<Byte>): (r: string)
    ensures |r| == 2 * |bs|
    ensures forall i :: 0 <= i < |r| ==> IsHexDigit(r[i])
  {
    if bs == [] then [] else HexByte(bs[0]) + ToHex(bs[1..])
  }

  /** The value of a lower-case hex digit, or -1 for any other character. */
  function HexValue(c: char): (v: int)
    ensures -1 <= v < 16
    ensures v >= 0 <==> IsHexDigit(c)
  {
    if '0' <= c <= '9' then c as int - '0' as int
    else if 'a' <= c <= 'f' then c as int - 'a' as int + 10
    else -1
  }

  /** Reading a digit back gives its nibble. */
  lemma HexValueOfDigit(d: int)
    requires 0 <= d < 16
    ensures HexValue(HexDigit(d)) == d
  {
  }

  /** `bytes.fromhex` for lower-case digits. */
  function FromHex(s: string): Option<seq<Byte>>
    decreases |s|
  {
    if s == [] then Some([])
    else if |s| == 1 then None
    else
      var hi := HexValue(s[0]);
      var lo := HexValue(s[1]);
      if hi < 0 || lo < 0 then None
      else match FromHex(s[2..])
        case None => None
        case Some(rest) => Some([(hi * 16 + lo) as Byte] + rest)
  }

  /** Hex encoding loses nothing: decoding it gives back the bytes. */
  lemma {:induction false} FromHexToHex(bs: seq<Byte>)
    ensures FromHex(ToHex(bs)) == Some(bs)
    decreases |bs|
  {
    if bs != [] {
      var b := bs[0];
      var s := ToHex(bs);
      assert s == HexByte(b) + ToHex(bs[1..]);
      assert s[0] == HexDigit(b / 16) && s[1] == HexDigit(b % 16);
      assert s[2..] == ToHex(bs[1..]);
      HexValueOfDigit(b / 16);
      HexValueOfDigit(b % 16);
      FromHexToHex(bs[1..]);
      assert [b] + bs[1..] == bs;
    }
  }

  /** The hex form of three bytes. */
  lemma ToHexThree(a: Byte, b: Byte, c: Byte)
    ensures ToHex([a, b, c]) == HexByte(a) + HexByte(b) + HexByte(c)
  {
    assert [a, b, c][1..] == [b, c];
    assert [b, c][1..] == [c];
    assert [c][1..] == [];
    assert ToHex([c]) == HexByte(c) + ToHex([]);
    assert ToHex([b, c]) == HexByte(b) + ToHex([c]);
    assert ToHex([a, b, c]) == HexByte(a) + ToHex([b, c]);
  }

  /** The token handed out: `secrets.token_hex(3)[:5]`, five lower-case hex
      digits. */
  function NewToken(e: Entropy): (t: string)
    ensures |t| == 5
    ensures forall i :: 0 <= i < |t| ==> IsHexDigit(t[i])
  {
    ToHex([e.b0, e.b1, e.b2])[..5]
  }

  /** The truncation keeps 20 of the 24 random bits: two draws give the same
      token exactly when they agree on the first two bytes and on the high
      nibble of the third. */
  lemma NewTokenCollision(e1: Entropy, e2: Entropy)
    ensures NewToken(e1) == NewToken(e2) <==>
            e1.b0 == e2.b0 && e1.b1 == e2.b1 && e1.b2 / 16 == e2.b2 / 16
  {
    ToHexThree(e1.b0, e1.b1, e1.b2);
    ToHexThree(e2.b0, e2.b1, e2.b2);
    var t1 := NewToken(e1);
    var t2 := NewToken(e2);
    assert t1 == [HexDigit(e1.b0 / 16), HexDigit(e1.b0 % 16), HexDigit(e1.b1 / 16),
                  HexDigit(e1.b1 % 16), HexDigit(e1.b2 / 16)];
    assert t2 == [HexDigit(e2.b0 / 16), HexDigit(e2.b0 % 16), HexDigit(e2.b1 / 16),
                  HexDigit(e2.b1 % 16), HexDigit(e2.b2 / 16)];
    if t1 == t2 {
      HexValueOfDigit(e1.b0 / 16); HexValueOfDigit(e2.b0 / 16);
      HexValueOfDigit(e1.b0 % 16); HexValueOfDigit(e2.b0 % 16);
      HexValueOfDigit(e1.b1 / 16); HexValueOfDigit(e2.b1 / 16);
      HexValueOfDigit(e1.b1 % 16); HexValueOfDigit(e2.b1 % 16);
      HexValueOfDigit(e1.b2 / 16); HexValueOfDigit(e2.b2 / 16);
      assert t1[0] == t2[0] && t1[1] == t2[1] && t1[2] == t2[2] && t1[3] == t2[3] && t1[4] == t2[4];
    }
  }
}

=== FILE: directories.dfy ===
/** The directory endpoints of the filesystem server: a one-level listing, a
    recursive tree, a name search over a top-down walk and a line-by-line
    content search. */
module Directories {
  import opened Basics
  import opened Text
  import opened FsTree
  import opened PathGuard
  import opened FileEdit

  /** The `type` field of a listing entry. Only directories are told apart:
      regular files and special entries are both reported as files. */
  datatype EntryKind = DirectoryKind | FileKind

  function KindOf(n: Node): EntryKind
  {
    if n.Dir? then DirectoryKind else FileKind
  }

  /** One `{"name", "type"}` object of a listing. */
  datatype Listing = Listing(name: string, kind: EntryKind)

  /** The placeholder returned in place of an empty result list. */
  const NoMatchesFound := "No matches found"

  /** Errors of the endpoints that check for a directory. */
  datatype DirError = DirDenied(denial: Denial) | NotADirectory

  function DirStatus(e: DirError): (code: int)
    ensures code == 403 <==> e.DirDenied?
    ensures code == 400 <==> e.NotADirectory?
  {
    match e
    case DirDenied(_) => 403
    case NotADirectory => 400
  }

  /** One listing entry per child, in `iterdir` order. */
  function ListEntries(cs: seq<Node>): (r: seq<Listing>)
    ensures |r| == |cs|
    ensures forall i :: 0 <= i < |cs| ==> r[i] == Listing(cs[i].name, KindOf(cs[i]))
  {
    if cs == [] then [] else [Listing(cs[0].name, KindOf(cs[0]))] + ListEntries(cs[1..])
  }

  /** `list_directory`: a path that is not an existing directory is a 400. */
  function ListDirectory(env: Env, fs: Node, path: string): (r: Result<seq<Listing>, DirError>)
    ensures NormalizePath(env, path).Err? ==> r == Err(DirDenied(NormalizePath(env, path).error))
    ensures NormalizePath(env, path).Ok? ==>
              var n := Lookup(fs, NormalizePath(env, path).value);
              (r.Ok? <==> n.Some? && n.value.Dir?)
              && (r.Ok? ==> r.value == ListEntries(n.value.children))
              && (r.Err? ==> r.error == NotADirectory)
  {
    match NormalizePath(env, path)
    case Err(d) => Err(DirDenied(d))
    case Ok(p) =>
      match Lookup(fs, p)
      case Some(Dir(_, cs)) => Ok(ListEntries(cs))
      case _ => Err(NotADirectory)
  }

  /** One node of `directory_tree`'s answer: the `children` key is present
      exactly for directories. */
  datatype TreeEntry = FileEntry(name: string) | DirEntry(name: string, children: seq<TreeEntry>)

  /** `build_tree` applied to one entry. */
  function BuildEntry(n: Node): (e: TreeEntry)
    ensures e.name == n.name
    ensures e.DirEntry? <==> n.Dir?
    decreases n, 1
  {
    if n.Dir? then DirEntry(n.name, BuildTree(n.children)) else FileEntry(n.name)
  }

  /** `build_tree` over the entries of a directory, in `iterdir` order. */
  function BuildTree(cs: seq<Node>): (r: seq<TreeEntry>)
    ensures |r| == |cs|
    ensures forall i :: 0 <= i < |cs| ==> r[i] == BuildEntry(cs[i])
    decreases cs, 0
  {
    if cs == [] then [] else [BuildEntry(cs[0])] + BuildTree(cs[1..])
  }

  /** Errors of `directory_tree`. It does not check for a directory: `iterdir`
      on anything else raises, and nothing catches it, so the framework
      answers 500. */
  datatype TreeError = TreeDenied(denial: Denial) | TreeFailed

  function TreeStatus(e: TreeError): (code: int)
    ensures code == 403 <==> e.TreeDenied?
    ensures code == 500 <==> e.TreeFailed?
  {
    match e
    case TreeDenied(_) => 403
    case TreeFailed => 500
  }

  /** `directory_tree`. */
  function DirectoryTree(env: Env, fs: Node, path: string): (r: Result<seq<TreeEntry>, TreeError>)
    ensures NormalizePath(env, path).Err? ==> r == Err(TreeDenied(NormalizePath(env, path).error))
    ensures NormalizePath(env, path).Ok? ==>
              var n := Lookup(fs, NormalizePath(env, path).value);
              (r.Ok? <==> n.Some? && n.value.Dir?) && (r.Err? ==> r.error == TreeFailed)
  {
    match NormalizePath(env, path)
    case Err(d) => Err(TreeDenied(d))
    case Ok(p) =>
      match Lookup(fs, p)
      case Some(Dir(_, cs)) => Ok(BuildTree(cs))
      case _ => Err(TreeFailed)
  }

  /** The entry an entry path denotes in a tree answer: the first entry with
      each name, descending through `children`. */
  function TreeLookup(es: seq<TreeEntry>, q: Path): Option<TreeEntry>
    requires q != []
    decreases |q|
  {
    match FindEntry(es, q[0])
    case None => None
    case Some(e) =>
      if |q| == 1 then Some(e)
      else if e.DirEntry? then TreeLookup(e.children, q[1..])
      else None
  }

  /** The first entry with the name. */
  function FindEntry(es: seq<TreeEntry>, name: string): Option<TreeEntry>
  {
    if es == [] then None
    else if es[0].name == name then Some(es[0])
    else FindEntry(es[1..], name)
  }

  /** Finding a name in the built tree is finding it among the nodes. */
  lemma {:induction false} FindEntryBuildTree(cs: seq<Node>, name: string)
    ensures FindEntry(BuildTree(cs), name)
         == match FindChild(cs, name) case None => None case Some(c) => Some(BuildEntry(c))
    decreases |cs|
  {
    if cs != [] {
      FindEntryBuildTree(cs[1..], name);
      assert BuildTree(cs)[1..] == BuildTree(cs[1..]);
    }
  }

  /** The tree mirrors the filesystem: every non-empty path below the listed
      directory denotes in the answer exactly the entry built from the node
      it denotes on disk, and nothing where nothing is. */
  lemma {:induction false} TreeMirrorsFilesystem(d: Node, q: Path)
    requires d.Dir? && q != []
    ensures TreeLookup(BuildTree(d.children), q)
         == match Lookup(d, q) case None => None case Some(m) => Some(BuildEntry(m))
    decreases |q|
  {
    FindEntryBuildTree(d.children, q[0]);
    match FindChild(d.children, q[0])
    case None =>
    case Some(c) =>
      if |q| == 1 {
        assert q[1..] == [];
      } else if c.Dir? {
        TreeMirrorsFilesystem(c, q[1..]);
      }
  }

  /** The first level of the tree is the listing of the same directory. */
  lemma TreeTopLevelIsListing(env: Env, fs: Node, path: string)
    requires ListDirectory(env, fs, path).Ok?
    ensures DirectoryTree(env, fs, path).Ok?
    ensures var l := ListDirectory(env, fs, path).value;
            var t := DirectoryTree(env, fs, path).value;
            |l| == |t|
            && forall i :: 0 <= i < |t| ==>
                 l[i].name == t[i].name && (l[i].kind == DirectoryKind <==> t[i].DirEntry?)
  {
  }

  /** One directory visited by `os.walk`: its path, the names of its
      subdirectories and the names of its other entries. */
  datatype WalkStep = WalkStep(root: Path, dirs: seq<string>, files: seq<string>)

  /** The names of the subdirectories, in listing order. */
  function DirNames(cs: seq<Node>): (r: seq<string>)
    ensures forall x :: x in r <==> exists i :: 0 <= i < |cs| && cs[i].Dir? && cs[i].name == x
  {
    if cs == [] then []
    else
      var rest := DirNames(cs[1..]);
      assert forall i :: 1 <= i < |cs| ==> cs[i] == cs[1..][i - 1];
      (if cs[0].Dir? then [cs[0].name] else []) + rest
  }

  /** The names of the entries that are not directories, in listing order. */
  function FileNames(cs: seq<Node>): (r: seq<string>)
    ensures forall x :: x in r <==> exists i :: 0 <= i < |cs| && !cs[i].Dir? && cs[i].name == x
  {
    if cs == [] then []
    else
      var rest := FileNames(cs[1..]);
      assert forall i :: 1 <= i < |cs| ==> cs[i] == cs[1..][i - 1];
      (if !cs[0].Dir? then [cs[0].name] else []) + rest
  }

  /** `os.walk(top)`, top-down: the directory itself, then the walk of each
      subdirectory in turn. Anything but a directory yields nothing. */
  function Walk(n: Node, root: Path): (r: seq<WalkStep>)
    ensures forall s :: s in r ==> root <= s.root
    decreases n, 1
  {
    if n.Dir? then [WalkStep(root, DirNames(n.children), FileNames(n.children))] + WalkAll(n.children, root)
    else []
  }

  /** The walks of the children of the directory at `root`, concatenated. */
  function WalkAll(cs: seq<Node>, root: Path): (r: seq<WalkStep>)
    ensures forall s :: s in r ==> root < s.root
    decreases cs, 0
  {
    if cs == [] then []
    else
      var here := Walk(cs[0], root + [cs[0].name]);
      assert forall s :: s in here ==> root < s.root by {
        forall s | s in here ensures root < s.root {
          assert (root + [cs[0].name])[..|root|] == root;
        }
      }
      here + WalkAll(cs[1..], root)
  }

  /** Every step of a child's walk is a step of the parent's walk. */
  lemma {:induction false} WalkAllIncludesChild(cs: seq<Node>, root: Path, i: int)
    requires 0 <= i < |cs|
    ensures forall s :: s in Walk(cs[i], root + [cs[i].name]) ==> s in WalkAll(cs, root)
    decreases |cs|
  {
    if i > 0 {
      WalkAllIncludesChild(cs[1..], root, i - 1);
      assert cs[1..][i - 1] == cs[i];
    }
  }

  /** The walk reaches every directory below its top: the directory that a
      path denotes is visited, with the names of its own entries. */
  lemma {:induction false} WalkVisitsEveryDirectory(n: Node, root: Path, q: Path)
    requires Lookup(n, q).Some? && Lookup(n, q).value.Dir?
    ensures var m := Lookup(n, q).value;
            WalkStep(root + q, DirNames(m.children), FileNames(m.children)) in Walk(n, root)
    decreases |q|
  {
    if q == [] {
      assert root + q == root;
    } else {
      FindChildFirst(n.children, q[0]);
      var c := FindChild(n.children, q[0]).value;
      var i :| 0 <= i < |n.children| && n.children[i] == c
               && forall j :: 0 <= j < i ==> n.children[j].name != q[0];
      WalkVisitsEveryDirectory(c, root + [q[0]], q[1..]);
      assert root + [q[0]] + q[1..] == root + q;
      WalkAllIncludesChild(n.children, root, i);
    }
  }

  /** The walk visits only directories: each step lists the entries of a
      directory reached from the top along the path below `root` that the
      step carries. */
  lemma {:induction false} WalkSound(n: Node, root: Path, s: WalkStep)
    requires s in Walk(n, root)
    ensures exists q, m :: Reaches(n, q, m) && m.Dir?
                           && s == WalkStep(root + q, DirNames(m.children), FileNames(m.children))
    decreases n, 1
  {
    var cs := n.children;
    var top := WalkStep(root, DirNames(cs), FileNames(cs));
    assert Walk(n, root) == [top] + WalkAll(cs, root);
    if s == top {
      assert Reaches(n, [], n) && root + [] == root;
    } else {
      assert s in WalkAll(cs, root);
      WalkAllSound(cs, root, s);
      var i, q, m :| 0 <= i < |cs| && Reaches(cs[i], q, m) && m.Dir?
                     && s == WalkStep(root + [cs[i].name] + q, DirNames(m.children), FileNames(m.children));
      ReachesChild(n, i, q, m);
      assert root + ([cs[i].name] + q) == root + [cs[i].name] + q;
    }
  }

  /** A step of the children's walks lists a directory reached from one of
      the children. */
  lemma {:induction false} WalkAllSound(cs: seq<Node>, root: Path, s: WalkStep)
    requires s in WalkAll(cs, root)
    ensures exists i, q, m :: 0 <= i < |cs| && Reaches(cs[i], q, m) && m.Dir?
                              && s == WalkStep(root + [cs[i].name] + q, DirNames(m.children), FileNames(m.children))
    decreases cs, 0
  {
    var here := Walk(cs[0], root + [cs[0].name]);
    if s in here {
      WalkSound(cs[0], root + [cs[0].name], s);
      var q, m :| Reaches(cs[0], q, m) && m.Dir?
                  && s == WalkStep(root + [cs[0].name] + q, DirNames(m.children), FileNames(m.children));
      assert 0 < |cs|;
    } else {
      WalkAllSound(cs[1..], root, s);
      var i, q, m :| 0 <= i < |cs[1..]| && Reaches(cs[1..][i], q, m) && m.Dir?
                     && s == WalkStep(root + [cs[1..][i].name] + q, DirNames(m.children), FileNames(m.children));
      assert cs[1..][i] == cs[i + 1];
    }
  }

  /** On a filesystem with distinct sibling names, every step of the walk is
      the directory its path denotes, listed with its own entries. */
  lemma WalkStepIsDirectory(n: Node, root: Path, s: WalkStep)
    requires DistinctNames(n) && s in Walk(n, root)
    ensures exists q :: && Lookup(n, q).Some? && Lookup(n, q).value.Dir?
                        && s == WalkStep(root + q, DirNames(Lookup(n, q).value.children),
                                         FileNames(Lookup(n, q).value.children))
  {
    WalkSound(n, root, s);
    var q, m :| Reaches(n, q, m) && m.Dir?
                && s == WalkStep(root + q, DirNames(m.children), FileNames(m.children));
    ReachesIsLookup(n, q, m);
  }

  /** Some string of `roots` is a prefix of `s`: the case-sensitive
      `startswith` filter applied to search results. */
  function AnyPrefix(roots: seq<string>, s: string): (b: bool)
    ensures b <==> exists i :: 0 <= i < |roots| && roots[i] <= s
  {
    if roots == [] then false
    else if roots[0] <= s then true
    else
      var b := AnyPrefix(roots[1..], s);
      assert b ==> exists i :: 0 <= i < |roots| && roots[i] <= s by {
        if b {
          var i :| 0 <= i < |roots[1..]| && roots[1..][i] <= s;
          assert roots[i + 1] == roots[1..][i];
        }
      }
      assert (exists i :: 0 <= i < |roots| && roots[i] <= s) ==> b by {
        if exists i :: 0 <= i < |roots| && roots[i] <= s {
          var i :| 0 <= i < |roots| && roots[i] <= s;
          assert roots[1..][i - 1] == roots[i];
        }
      }
      b
  }

  /** An entry name selected by `search_files`: the lower-cased pattern is a
      substring of the lower-cased name. */
  predicate NameMatches(item: string, pattern: string)
  {
    Contains(LowerStr(item), LowerStr(pattern))
  }

  /** The result paths contributed by the entries `items` of the directory at
      `root`, in order. */
  function ItemMatches(root: Path, items: seq<string>, pattern: string, allowed: seq<string>): (r: seq<string>)
    ensures forall x :: x in r <==>
              exists i :: 0 <= i < |items| && NameMatches(items[i], pattern)
                        && x == PathString(root + [items[i]]) && AnyPrefix(allowed, x)
  {
    if items == [] then []
    else
      var x := PathString(root + [items[0]]);
      var rest := ItemMatches(root, items[1..], pattern, allowed);
      assert forall i :: 1 <= i < |items| ==> items[i] == items[1..][i - 1];
      (if NameMatches(items[0], pattern) && AnyPrefix(allowed, x) then [x] else []) + rest
  }

  /** A walked directory is skipped when its path matches some exclude
      pattern (`Path.match`, a parameter here). */
  predicate Excluded(root: Path, excludes: seq<string>, matches: (Path, string) -> bool)
  {
    exists i :: 0 <= i < |excludes| && matches(root, excludes[i])
  }

  /** The matches of the walk, step by step: files before directories within
      a step. An excluded step contributes nothing, but the walk below it
      is not pruned. */
  function StepsMatches(steps: seq<WalkStep>, pattern: string, excludes: seq<string>,
                        matches: (Path, string) -> bool, allowed: seq<string>): (r: seq<string>)
    ensures forall x :: x in r <==>
              exists k :: 0 <= k < |steps| && !Excluded(steps[k].root, excludes, matches)
                        && x in ItemMatches(steps[k].root, steps[k].files + steps[k].dirs, pattern, allowed)
  {
    if steps == [] then []
    else
      var s := steps[0];
      var here := if Excluded(s.root, excludes, matches) then []
                  else ItemMatches(s.root, s.files + s.dirs, pattern, allowed);
      var rest := StepsMatches(steps[1..], pattern, excludes, matches, allowed);
      assert forall k :: 1 <= k < |steps| ==> steps[k] == steps[1..][k - 1];
      here + rest
  }

  /** `search_files`: walk from the resolved path, collect the matching entry
      paths that still start with an allowed directory, and answer the
      placeholder when there are none. */
  function SearchFiles(env: Env, fs: Node, path: string, pattern: string, excludes: seq<string>,
                       matches: (Path, string) -> bool): (r: Result<seq<string>, Denial>)
    ensures NormalizePath(env, path).Err? <==> r.Err?
    ensures r.Err? ==> r.error == NormalizePath(env, path).error
    ensures r.Ok? ==> r.value != []
  {
    match NormalizePath(env, path)
    case Err(d) => Err(d)
    case Ok(p) =>
      var steps := match Lookup(fs, p) case None => [] case Some(n) => Walk(n, p);
      var found := StepsMatches(steps, pattern, excludes, matches, env.allowed);
      Ok(if found == [] then [NoMatchesFound] else found)
  }

  /** Every reported path is an entry of a directory under the searched one,
      whose name matches and which passes the allow-list filter. */
  lemma SearchFilesSound(env: Env, fs: Node, path: string, pattern: string, excludes: seq<string>,
                         matches: (Path, string) -> bool, x: string)
    requires SearchFiles(env, fs, path, pattern, excludes, matches).Ok?
    requires x in SearchFiles(env, fs, path, pattern, excludes, matches).value && x != NoMatchesFound
    ensures var p := NormalizePath(env, path).value;
            exists s, item :: s in Walk(Lookup(fs, p).value, p) && !Excluded(s.root, excludes, matches)
                              && (item in s.files || item in s.dirs)
                              && NameMatches(item, pattern) && AnyPrefix(env.allowed, x)
                              && x == PathString(s.root + [item])
  {
    var p := NormalizePath(env, path).value;
    var steps := match Lookup(fs, p) case None => [] case Some(n) => Walk(n, p);
    var k :| 0 <= k < |steps| && !Excluded(steps[k].root, excludes, matches)
             && x in ItemMatches(steps[k].root, steps[k].files + steps[k].dirs, pattern, env.allowed);
    var items := steps[k].files + steps[k].dirs;
    var i :| 0 <= i < |items| && NameMatches(items[i], pattern)
             && x == PathString(steps[k].root + [items[i]]) && AnyPrefix(env.allowed, x);
    assert steps[k] in steps;
    assert items[i] in steps[k].files || items[i] in steps[k].dirs;
  }

  /** Every matching entry of every directory under the searched one whose
      own path is not excluded is reported, whether or not a directory above
      it was excluded. */
  lemma SearchFilesComplete(env: Env, fs: Node, path: string, pattern: string, excludes: seq<string>,
                            matches: (Path, string) -> bool, q: Path, i: int)
    requires NormalizePath(env, path).Ok?
    requires var p := NormalizePath(env, path).value;
             var m := Lookup(fs, p + q);
             m.Some? && m.value.Dir? && 0 <= i < |m.value.children|
    requires var p := NormalizePath(env, path).value;
             var c := Lookup(fs, p + q).value.children[i];
             !Excluded(p + q, excludes, matches) && NameMatches(c.name, pattern)
             && AnyPrefix(env.allowed, PathString(p + q + [c.name]))
    ensures var p := NormalizePath(env, path).value;
            var c := Lookup(fs, p + q).value.children[i];
            PathString(p + q + [c.name]) in SearchFiles(env, fs, path, pattern, excludes, matches).value
  {
    var p := NormalizePath(env, path).value;
    LookupAppend(fs, p, q);
    var n := Lookup(fs, p).value;
    var m := Lookup(fs, p + q).value;
    var c := m.children[i];
    WalkVisitsEveryDirectory(n, p, q);
    var s := WalkStep(p + q, DirNames(m.children), FileNames(m.children));
    var steps := Walk(n, p);
    var k :| 0 <= k < |steps| && steps[k] == s;
    var items := s.files + s.dirs;
    var j: int;
    if c.Dir? {
      assert c.name in s.dirs;
      j :| 0 <= j < |s.dirs| && s.dirs[j] == c.name;
      assert items[|s.files| + j] == c.name;
      j := |s.files| + j;
    } else {
      assert c.name in s.files;
      j :| 0 <= j < |s.files| && s.files[j] == c.name;
      assert items[j] == c.name;
    }
    var x := PathString(p + q + [c.name]);
    assert x in ItemMatches(s.root, items, pattern, env.allowed);
    assert x in StepsMatches(steps, pattern, excludes, matches, env.allowed);
  }

  /** A match is a path string, so never the placeholder. */
  lemma MatchIsNotPlaceholder(steps: seq<WalkStep>, pattern: string, excludes: seq<string>,
                              matches: (Path, string) -> bool, allowed: seq<string>)
    ensures NoMatchesFound !in StepsMatches(steps, pattern, excludes, matches, allowed)
  {
    forall x | x in StepsMatches(steps, pattern, excludes, matches, allowed) ensures x != NoMatchesFound {
      var k :| 0 <= k < |steps| && !Excluded(steps[k].root, excludes, matches)
               && x in ItemMatches(steps[k].root, steps[k].files + steps[k].dirs, pattern, allowed);
      var items := steps[k].files + steps[k].dirs;
      var i :| 0 <= i < |items| && NameMatches(items[i], pattern)
               && x == PathString(steps[k].root + [items[i]]) && AnyPrefix(allowed, x);
      var q := steps[k].root + [items[i]];
      assert x == "/" + q[0] + Render(q[1..]);
      assert x[0] == '/' && NoMatchesFound[0] == 'N';
    }
  }

  /** A walk has no matches exactly when no step that is not excluded has
      any. */
  lemma {:induction false} StepsMatchesEmpty(steps: seq<WalkStep>, pattern: string, excludes: seq<string>,
                                             matches: (Path, string) -> bool, allowed: seq<string>)
    ensures StepsMatches(steps, pattern, excludes, matches, allowed) == [] <==>
            forall k :: 0 <= k < |steps| && !Excluded(steps[k].root, excludes, matches) ==>
              ItemMatches(steps[k].root, steps[k].files + steps[k].dirs, pattern, allowed) == []
    decreases |steps|
  {
    if steps != [] {
      StepsMatchesEmpty(steps[1..], pattern, excludes, matches, allowed);
      assert forall k :: 1 <= k < |steps| ==> steps[k] == steps[1..][k - 1];
    }
  }

  /** The placeholder is answered exactly when no walked directory that is
      not excluded contributes a match, and then it is the whole answer. */
  lemma SearchFilesPlaceholder(env: Env, fs: Node, path: string, pattern: string, excludes: seq<string>,
                               matches: (Path, string) -> bool)
    requires SearchFiles(env, fs, path, pattern, excludes, matches).Ok?
    ensures var p := NormalizePath(env, path).value;
            var steps := match Lookup(fs, p) case None => [] case Some(n) => Walk(n, p);
            var r := SearchFiles(env, fs, path, pattern, excludes, matches).value;
            && (NoMatchesFound in r <==>
                  forall k :: 0 <= k < |steps| && !Excluded(steps[k].root, excludes, matches) ==>
                    ItemMatches(steps[k].root, steps[k].files + steps[k].dirs, pattern, env.allowed) == [])
            && (NoMatchesFound in r ==> r == [NoMatchesFound])
  {
    var p := NormalizePath(env, path).value;
    var steps := match Lookup(fs, p) case None => [] case Some(n) => Walk(n, p);
    var found := StepsMatches(steps, pattern, excludes, matches, env.allowed);
    StepsMatchesEmpty(steps, pattern, excludes, matches, env.allowed);
    MatchIsNotPlaceholder(steps, pattern, excludes, matches, env.allowed);
    assert SearchFiles(env, fs, path, pattern, excludes, matches).value
        == if found == [] then [NoMatchesFound] else found;
  }

  /** Path lookup composes: looking up `p + q` is looking up `q` below `p`. */
  lemma {:induction false} LookupAppend(n: Node, p: Path, q: Path)
    ensures Lookup(n, p + q) == match Lookup(n, p) case None => None case Some(m) => Lookup(m, q)
    decreases |p|
  {
    if p == [] {
      assert p + q == q;
    } else {
      assert (p + q)[0] == p[0] && (p + q)[1..] == p[1..] + q;
      if n.Dir? {
        match FindChild(n.children, p[0])
        case None =>
        case Some(c) => LookupAppend(c, p[1..], q);
      }
    }
  }

  /** Every match lies under the walked directory (its string starts with
      the string of the directory the walk started from) and passed the
      allow-list filter. */
  lemma MatchesUnderBase(steps: seq<WalkStep>, pattern: string, excludes: seq<string>,
                         matches: (Path, string) -> bool, allowed: seq<string>, base: Path)
    requires forall s :: s in steps ==> base <= s.root
    ensures forall x :: x in StepsMatches(steps, pattern, excludes, matches, allowed) ==>
                          Render(base) <= x && AnyPrefix(allowed, x)
  {
    forall x | x in StepsMatches(steps, pattern, excludes, matches, allowed)
      ensures Render(base) <= x && AnyPrefix(allowed, x)
    {
      var k :| 0 <= k < |steps| && !Excluded(steps[k].root, excludes, matches)
               && x in ItemMatches(steps[k].root, steps[k].files + steps[k].dirs, pattern, allowed);
      assert steps[k] in steps;
      ItemMatchUnderBase(steps[k].root, steps[k].files + steps[k].dirs, pattern, allowed, base, x);
    }
  }

  /** One directory's match lies under `base` when the directory does. */
  lemma ItemMatchUnderBase(root: Path, items: seq<string>, pattern: string, allowed: seq<string>,
                           base: Path, x: string)
    requires base <= root && x in ItemMatches(root, items, pattern, allowed)
    ensures Render(base) <= x && AnyPrefix(allowed, x)
  {
    var i :| 0 <= i < |items| && NameMatches(items[i], pattern)
             && x == PathString(root + [items[i]]) && AnyPrefix(allowed, x);
    RenderPrefix(base, root + [items[i]]);
  }

  /** The matches of one directory are empty when no path below `base`
      passes the allow-list filter. */
  lemma {:induction false} ItemMatchesNoneAllowed(root: Path, items: seq<string>, pattern: string,
                                                  allowed: seq<string>, base: Path)
    requires base <= root
    requires forall q :: base <= q ==> !AnyPrefix(allowed, PathString(q))
    ensures ItemMatches(root, items, pattern, allowed) == []
    decreases |items|
  {
    if items != [] {
      assert base <= root + [items[0]];
      ItemMatchesNoneAllowed(root, items[1..], pattern, allowed, base);
    }
  }

  /** The matches of a walk below `base` are empty when no path below `base`
      passes the allow-list filter. */
  lemma {:induction false} StepsMatchesNoneAllowed(steps: seq<WalkStep>, pattern: string, excludes: seq<string>,
                                                   matches: (Path, string) -> bool, allowed: seq<string>, base: Path)
    requires forall s :: s in steps ==> base <= s.root
    requires forall q :: base <= q ==> !AnyPrefix(allowed, PathString(q))
    ensures StepsMatches(steps, pattern, excludes, matches, allowed) == []
    decreases |steps|
  {
    if steps != [] {
      assert steps[0] in steps;
      ItemMatchesNoneAllowed(steps[0].root, steps[0].files + steps[0].dirs, pattern, allowed, base);
      assert forall s :: s in steps[1..] ==> s in steps;
      StepsMatchesNoneAllowed(steps[1..], pattern, excludes, matches, allowed, base);
    }
  }

  /** The gate compares case-insensitively but the result filter does not:
      when the allowed directory is "/Data" and the request resolves to
      "/data", the search reports nothing. */
  lemma CaseVariantSearchFindsNothing(env: Env, fs: Node, path: string, pattern: string,
                                      excludes: seq<string>, matches: (Path, string) -> bool)
    requires env.allowed == ["/Data"]
    requires env.resolve(path) == ["data"]
    ensures SearchFiles(env, fs, path, pattern, excludes, matches) == Ok([NoMatchesFound])
  {
    var p := ["data"];
    assert PathString(p) == "/data" && Render(p) == "/data" by { assert p[1..] == []; }
    assert LowerStr("/Data") == "/data" by {
      assert LowerStr("/Data")[1] == Lower('D');
    }
    LowerStrNoUpper("/data");
    assert NormalizePath(env, path).Ok? by {
      assert RootAdmits(env.allowed[0], PathString(p));
    }
    NothingUnderDataAllowed();
    var steps := match Lookup(fs, p) case None => [] case Some(n) => Walk(n, p);
    StepsMatchesNoneAllowed(steps, pattern, excludes, matches, env.allowed, p);
  }

  /** No path below `/data` starts with `/Data`. */
  lemma NothingUnderDataAllowed()
    ensures forall q :: ["data"] <= q ==> !AnyPrefix(["/Data"], PathString(q))
  {
    forall q | ["data"] <= q ensures !AnyPrefix(["/Data"], PathString(q)) {
      RenderPrefix(["data"], q);
      assert PathString(["data"]) == "/data" by { assert ["data"][1..] == []; }
      assert PathString(q)[1] == 'd';
      assert "/Data"[1] == 'D';
    }
  }

  /** One `{"file_path", "line_number", "line_content"}` hit, or the
      placeholder string. */
  datatype ContentItem = Hit(filePath: string, lineNumber: int, lineContent: string) | Placeholder(text: string)

  /** A line selected by `search_content`. */
  predicate LineMatches(line: string, query: string)
  {
    Contains(LowerStr(line), LowerStr(query))
  }

  /** `h` reports line `h.lineNumber` of `lines`, numbered from `first`:
      that line matches and `h` carries its stripped text. */
  predicate IsLineHit(file: string, lines: seq<string>, query: string, first: int, h: ContentItem)
  {
    h.Hit? && h.filePath == file && first <= h.lineNumber < first + |lines|
    && LineMatches(lines[h.lineNumber - first], query)
    && h.lineContent == Strip(lines[h.lineNumber - first])
  }

  /** The numbers of the lines that match, the first line being numbered
      `first`, in increasing order. */
  function MatchingLines(lines: seq<string>, query: string, first: int): (ns: seq<int>)
    ensures forall n :: n in ns <==> first <= n < first + |lines| && LineMatches(lines[n - first], query)
    ensures forall k :: 0 <= k < |ns| ==> first <= ns[k] < first + |lines|
    ensures forall a, b :: 0 <= a < b < |ns| ==> ns[a] < ns[b]
    decreases |lines|
  {
    if lines == [] then []
    else
      var rest := MatchingLines(lines[1..], query, first + 1);
      var head := if LineMatches(lines[0], query) then [first] else [];
      assert forall i :: 0 <= i < |lines| - 1 ==> lines[1..][i] == lines[i + 1];
      assert forall n :: n in head + rest <==> n in head || n in rest;
      assert forall b :: 0 <= b < |head + rest| ==> (head + rest)[b] == if b < |head| then first else rest[b - |head|];
      head + rest
  }

  /** The hit reporting line `n` (numbered from 1) with its stripped text. */
  function HitAt(file: string, lines: seq<string>, n: int): ContentItem
    requires 1 <= n <= |lines|
  {
    Hit(file, n, Strip(lines[n - 1]))
  }

  /** One hit per listed line number, carrying that line's stripped text. */
  function HitsOf(file: string, lines: seq<string>, ns: seq<int>): (r: seq<ContentItem>)
    requires forall k :: 0 <= k < |ns| ==> 1 <= ns[k] <= |lines|
    ensures |r| == |ns|
    ensures forall k :: 0 <= k < |ns| ==> r[k] == HitAt(file, lines, ns[k])
  {
    seq(|ns|, k requires 0 <= k < |ns| => HitAt(file, lines, ns[k]))
  }

  /** The hits of one file's lines, numbered from 1, in line order. */
  function LineHits(file: string, lines: seq<string>, query: string): (r: seq<ContentItem>)
    ensures forall h :: h in r <==> IsLineHit(file, lines, query, 1, h)
    ensures forall a, b :: 0 <= a < b < |r| ==> r[a].Hit? && r[b].Hit? && r[a].lineNumber < r[b].lineNumber
  {
    var ns := MatchingLines(lines, query, 1);
    LineHitsMembers(file, lines, query, ns);
    HitsOf(file, lines, ns)
  }

  /** The hits built from the matching line numbers are exactly the line
      hits. */
  lemma LineHitsMembers(file: string, lines: seq<string>, query: string, ns: seq<int>)
    requires ns == MatchingLines(lines, query, 1)
    ensures forall h :: h in HitsOf(file, lines, ns) <==> IsLineHit(file, lines, query, 1, h)
  {
    var r := HitsOf(file, lines, ns);
    forall h | IsLineHit(file, lines, query, 1, h) ensures h in r {
      LineHitListed(file, lines, query, ns, h);
    }
    forall k | 0 <= k < |r| ensures IsLineHit(file, lines, query, 1, r[k]) {
      LineHitOfListed(file, lines, query, ns, k);
    }
  }

  /** Every line hit is among the hits built from the matching numbers. */
  lemma LineHitListed(file: string, lines: seq<string>, query: string, ns: seq<int>, h: ContentItem)
    requires ns == MatchingLines(lines, query, 1)
    requires IsLineHit(file, lines, query, 1, h)
    ensures h in HitsOf(file, lines, ns)
  {
    assert h.lineNumber in ns;
    var k :| 0 <= k < |ns| && ns[k] == h.lineNumber;
    assert HitsOf(file, lines, ns)[k] == h;
  }

  /** Every hit built from a matching number is a line hit. */
  lemma LineHitOfListed(file: string, lines: seq<string>, query: string, ns: seq<int>, k: int)
    requires ns == MatchingLines(lines, query, 1)
    requires 0 <= k < |ns|
    ensures IsLineHit(file, lines, query, 1, HitsOf(file, lines, ns)[k])
  {
    assert ns[k] in ns;
  }

  /** How `search_content` reads a candidate that `is_file()` accepts: with
      undecodable bytes dropped, so only a permission error (or a candidate
      that is not a regular file) yields nothing. Where the strict read of
      `edit_file` succeeds, both reads agree. */
  function LenientText(fs: Node, c: Path): (r: Option<string>)
    ensures r.Some? <==> Lookup(fs, c).Some? && Lookup(fs, c).value.File? && !Lookup(fs, c).value.content.Unreadable?
    ensures ReadText(fs, c).Ok? ==> r == Some(ReadText(fs, c).value)
    ensures ReadText(fs, c) == Err(NotUtf8) ==> r == Some(Universal(Lookup(fs, c).value.content.lenient))
  {
    match Lookup(fs, c)
    case Some(File(_, Readable(text))) => Some(Universal(text))
    case Some(File(_, Undecodable(lenient))) => Some(Universal(lenient))
    case _ => None
  }

  /** The hits in one glob candidate: regular files are scanned leniently;
      anything else, and a file without read permission, is skipped. */
  function FileHits(fs: Node, c: Path, query: string): (r: seq<ContentItem>)
    ensures forall h :: h in r <==> IsFileHit(fs, c, query, h)
    ensures LenientText(fs, c).None? ==> r == []
  {
    match LenientText(fs, c)
    case Some(text) => LineHits(PathString(c), SplitLines(text), query)
    case None => []
  }

  /** A hit of the candidate `c`: a line of its leniently read text,
      numbered from 1. */
  predicate IsFileHit(fs: Node, c: Path, query: string, h: ContentItem)
  {
    LenientText(fs, c).Some? && IsLineHit(PathString(c), SplitLines(LenientText(fs, c).value), query, 1, h)
  }

  /** The hits of every candidate, in glob order. */
  function AllHits(fs: Node, cands: seq<Path>, query: string): (r: seq<ContentItem>)
    ensures forall h :: h in r <==> exists k :: 0 <= k < |cands| && IsFileHit(fs, cands[k], query, h)
  {
    var hits := FlatMap(cands, (c: Path) => FileHits(fs, c, query));
    assert forall h :: h in hits <==> exists k :: 0 <= k < |cands| && h in FileHits(fs, cands[k], query) by {
      forall h ensures h in hits <==> exists k :: 0 <= k < |cands| && h in FileHits(fs, cands[k], query) {
        FlatMapMembers(cands, (c: Path) => FileHits(fs, c, query), h);
      }
    }
    hits
  }

  /** `search_content`. The glob (`glob` or `rglob` by the recursive flag) is
      a parameter returning the candidate paths in order. */
  function SearchContent(env: Env, fs: Node, path: string, query: string, filePattern: string,
                         recursive: bool, glob: (Path, string, bool) -> seq<Path>)
    : (r: Result<seq<ContentItem>, DirError>)
    ensures NormalizePath(env, path).Err? ==> r == Err(DirDenied(NormalizePath(env, path).error))
    ensures NormalizePath(env, path).Ok? ==>
              var n := Lookup(fs, NormalizePath(env, path).value);
              (r.Ok? <==> n.Some? && n.value.Dir?) && (r.Err? ==> r.error == NotADirectory)
    ensures r.Ok? ==> r.value != []
  {
    match NormalizePath(env, path)
    case Err(d) => Err(DirDenied(d))
    case Ok(p) =>
      match Lookup(fs, p)
      case Some(Dir(_, _)) =>
        var hits := AllHits(fs, glob(p, filePattern, recursive), query);
        Ok(if hits == [] then [Placeholder(NoMatchesFound)] else hits)
      case _ => Err(NotADirectory)
  }

  /** A hit is reported exactly when it names a readable candidate file, a
      1-based line number of it, and the stripped text of that line, which
      contains the query up to case. */
  lemma SearchContentHits(env: Env, fs: Node, path: string, query: string, filePattern: string,
                          recursive: bool, glob: (Path, string, bool) -> seq<Path>, h: ContentItem)
    requires SearchContent(env, fs, path, query, filePattern, recursive, glob).Ok?
    requires h.Hit?
    ensures var cands := glob(NormalizePath(env, path).value, filePattern, recursive);
            h in SearchContent(env, fs, path, query, filePattern, recursive, glob).value
            <==> exists k :: 0 <= k < |cands| && IsFileHit(fs, cands[k], query, h)
  {
    var cands := glob(NormalizePath(env, path).value, filePattern, recursive);
    var hits := AllHits(fs, cands, query);
    assert SearchContent(env, fs, path, query, filePattern, recursive, glob).value
        == if hits == [] then [Placeholder(NoMatchesFound)] else hits;
  }

  /** Unless it is the placeholder alone, the answer is exactly the hits of
      the candidates in glob order, with no placeholder among them. */
  lemma SearchContentOrder(env: Env, fs: Node, path: string, query: string, filePattern: string,
                           recursive: bool, glob: (Path, string, bool) -> seq<Path>)
    requires SearchContent(env, fs, path, query, filePattern, recursive, glob).Ok?
    ensures var cands := glob(NormalizePath(env, path).value, filePattern, recursive);
            var r := SearchContent(env, fs, path, query, filePattern, recursive, glob).value;
            r != [Placeholder(NoMatchesFound)] ==>
              r == AllHits(fs, cands, query) && forall k :: 0 <= k < |r| ==> r[k].Hit?
  {
    var cands := glob(NormalizePath(env, path).value, filePattern, recursive);
    var hits := AllHits(fs, cands, query);
    assert SearchContent(env, fs, path, query, filePattern, recursive, glob).value
        == if hits == [] then [Placeholder(NoMatchesFound)] else hits;
    forall k | 0 <= k < |hits|
      ensures hits[k].Hit?
    {
      assert hits[k] in hits;
    }
  }

  /** The hits of two candidate lists one after the other are the first
      list's hits followed by the second's: each candidate's hits stay
      together, in glob order. */
  lemma AllHitsAppend(fs: Node, a: seq<Path>, b: seq<Path>, query: string)
    ensures AllHits(fs, a + b, query) == AllHits(fs, a, query) + AllHits(fs, b, query)
  {
    FlatMapAppend(a, b, (c: Path) => FileHits(fs, c, query));
  }

  /** One candidate contributes its own hits, in line order. */
  lemma AllHitsSingle(fs: Node, c: Path, query: string)
    ensures AllHits(fs, [c], query) == FileHits(fs, c, query)
  {
    var f := (d: Path) => FileHits(fs, d, query);
    assert [c][1..] == [];
    assert FlatMap([c], f) == f(c) + FlatMap([], f);
  }

  /** The placeholder is answered exactly when no candidate has a hit. */
  lemma SearchContentPlaceholder(env: Env, fs: Node, path: string, query: string, filePattern: string,
                                 recursive: bool, glob: (Path, string, bool) -> seq<Path>)
    requires SearchContent(env, fs, path, query, filePattern, recursive, glob).Ok?
    ensures var cands := glob(NormalizePath(env, path).value, filePattern, recursive);
            SearchContent(env, fs, path, query, filePattern, recursive, glob).value == [Placeholder(NoMatchesFound)]
            <==> forall k :: 0 <= k < |cands| ==> FileHits(fs, cands[k], query) == []
  {
    var cands := glob(NormalizePath(env, path).value, filePattern, recursive);
    var hits := AllHits(fs, cands, query);
    AllHitsEmpty(fs, cands, query);
    assert SearchContent(env, fs, path, query, filePattern, recursive, glob).value
        == if hits == [] then [Placeholder(NoMatchesFound)] else hits;
    if hits != [] {
      assert hits[0] in hits && hits[0].Hit?;
    }
  }

  /** No candidate has a hit exactly when there are no hits at all. */
  lemma AllHitsEmpty(fs: Node, cands: seq<Path>, query: string)
    ensures AllHits(fs, cands, query) == [] <==> forall k :: 0 <= k < |cands| ==> FileHits(fs, cands[k], query) == []
  {
    FlatMapEmpty(cands, (c: Path) => FileHits(fs, c, query));
  }

  /** Files without read permission, directories, special entries and
      missing paths among the candidates contribute no hits; a file whose
      bytes are not UTF-8 is still scanned, in its leniently decoded text. */
  lemma NonReadableCandidatesSkipped(fs: Node, c: Path, query: string)
    ensures LenientText(fs, c).None? ==> FileHits(fs, c, query) == []
    ensures ReadText(fs, c) == Err(NotUtf8) ==>
              FileHits(fs, c, query) == LineHits(PathString(c), SplitLines(Universal(Lookup(fs, c).value.content.lenient)), query)
  {
  }
}

=== FILE: file_edit.dfy ===
/** `edit_file` of the filesystem server: an ordered list of first-occurrence
    replacements applied all-or-nothing, either previewed (dry run) or
    written back. The unified diff of a preview is abstracted to the pair of
    texts it compares. */
module FileEdit {
  import opened Basics
  import opened Text
  import opened FsTree
  import opened PathGuard

  /** One requested edit. */
  datatype EditOperation = EditOperation(oldText: string, newText: string)

  /** The edit at `index` found no `oldText`; `snippet` is the part of it that
      the error message quotes. */
  datatype EditFailure = EditFailure(index: nat, snippet: string)

  /** `oldText[:50]`. */
  function Snippet(s: string): (r: string)
    ensures |r| <= 50 && r <= s
    ensures |s| <= 50 ==> r == s
    ensures |s| > 50 ==> |r| == 50
  {
    if |s| <= 50 then s else s[..50]
  }

  /** The change in length the edits make when every one of them applies. */
  function LengthDelta(edits: seq<EditOperation>): int
  {
    if edits == [] then 0 else |edits[0].newText| - |edits[0].oldText| + LengthDelta(edits[1..])
  }

  /** The edit loop: each edit replaces the first occurrence of its `oldText`
      in the output of the previous edit; the first absent `oldText` aborts. */
  function ApplyEdits(text: string, edits: seq<EditOperation>): (r: Result<string, EditFailure>)
    ensures r.Err? ==> r.error.index < |edits| && r.error.snippet == Snippet(edits[r.error.index].oldText)
    ensures r.Ok? ==> |r.value| == |text| + LengthDelta(edits)
    decreases |edits|
  {
    if edits == [] then Ok(text)
    else match ReplaceFirst(text, edits[0].oldText, edits[0].newText)
      case None => Err(EditFailure(0, Snippet(edits[0].oldText)))
      case Some(t) =>
        match ApplyEdits(t, edits[1..])
        case Ok(f) => Ok(f)
        case Err(e) => Err(e.(index := e.index + 1))
  }

  /** Edits run in list order: applying `a + b` is applying `a` and then `b`
      to its output, and a failure in `b` is reported at its index in the
      whole list. */
  lemma {:induction false} ApplyEditsAppend(text: string, a: seq<EditOperation>, b: seq<EditOperation>)
    ensures ApplyEdits(text, a + b)
         == match ApplyEdits(text, a)
            case Err(e) => Err(e)
            case Ok(t) =>
              match ApplyEdits(t, b)
              case Ok(f) => Ok(f)
              case Err(e) => Err(e.(index := e.index + |a|))
    decreases |a|
  {
    if a == [] {
      assert a + b == b;
      match ApplyEdits(text, b)
      case Ok(_) =>
      case Err(e) => assert e.(index := e.index + 0) == e;
    } else {
      assert (a + b)[0] == a[0];
      assert (a + b)[1..] == a[1..] + b;
      match ReplaceFirst(text, a[0].oldText, a[0].newText)
      case None =>
      case Some(t) =>
        ApplyEditsAppend(t, a[1..], b);
    }
  }

  /** A failure names the first edit whose `oldText` is absent from the text
      produced by the edits before it, all of which applied. */
  lemma {:induction false} ApplyEditsFailure(text: string, edits: seq<EditOperation>)
    requires ApplyEdits(text, edits).Err?
    ensures var k := ApplyEdits(text, edits).error.index;
            ApplyEdits(text, edits[..k]).Ok?
            && !Contains(ApplyEdits(text, edits[..k]).value, edits[k].oldText)
    decreases |edits|
  {
    var k := ApplyEdits(text, edits).error.index;
    match ReplaceFirst(text, edits[0].oldText, edits[0].newText)
    case None =>
      assert k == 0 && edits[..k] == [];
    case Some(t) =>
      ApplyEditsFailure(t, edits[1..]);
      PrefixAfterFirst(text, edits, k, t);
  }

  /** A successful prefix of at least one edit runs its tail on the output of
      the first edit. */
  lemma PrefixAfterFirst(text: string, edits: seq<EditOperation>, k: nat, t: string)
    requires 0 < k <= |edits| && ReplaceFirst(text, edits[0].oldText, edits[0].newText) == Some(t)
    requires ApplyEdits(t, edits[1..][..k - 1]).Ok?
    ensures ApplyEdits(text, edits[..k]) == ApplyEdits(t, edits[1..][..k - 1])
  {
    assert edits[..k][0] == edits[0];
    assert edits[..k][1..] == edits[1..][..k - 1];
  }

  /** One edit on its own is one `replace(old, new, 1)`. */
  lemma ApplySingleEdit(text: string, e: EditOperation)
    ensures ApplyEdits(text, [e]) == match ReplaceFirst(text, e.oldText, e.newText)
                                     case None => Err(EditFailure(0, Snippet(e.oldText)))
                                     case Some(t) => Ok(t)
  {
    assert [e][1..] == [];
  }

  /** Only the first occurrence is replaced: ("foo", "bar") turns
      "foo baz foo" into "bar baz foo". */
  lemma ReplacesFirstOccurrenceOnly()
    ensures ApplyEdits("foo baz foo", [EditOperation("foo", "bar")]) == Ok("bar baz foo")
  {
    var s := "foo baz foo";
    assert OccursAt(s, "foo", 0) by { assert s[0..3] == "foo"; }
    ReplaceFirstAt(s, "foo", "bar", 0);
    assert s[..0] + "bar" + s[3..] == "bar baz foo";
    ApplySingleEdit(s, EditOperation("foo", "bar"));
  }

  /** Presence is tested on the progressively edited text, so a later edit can
      target what an earlier one inserted: ("a", "b") then ("b", "c") turns
      "a" into "c". */
  lemma LaterEditSeesEarlierOutput()
    ensures ApplyEdits("a", [EditOperation("a", "b"), EditOperation("b", "c")]) == Ok("c")
  {
    var edits := [EditOperation("a", "b"), EditOperation("b", "c")];
    assert OccursAt("a", "a", 0);
    ReplaceFirstAt("a", "a", "b", 0);
    assert "a"[..0] + "b" + "a"[1..] == "b";
    assert OccursAt("b", "b", 0);
    ReplaceFirstAt("b", "b", "c", 0);
    assert "b"[..0] + "c" + "b"[1..] == "c";
    assert edits[1..] == [EditOperation("b", "c")];
    ApplySingleEdit("b", EditOperation("b", "c"));
  }

  /** Why reading the file failed: nothing at the path (a directory on it
      lacks the next name), the path passes through something that is not a
      directory, no read permission, not a regular file, or bytes that are
      not UTF-8. */
  datatype ReadFailure = Missing | ThroughNonDirectory | NoReadPermission | NotRegularFile | NotUtf8

  /** `path.read_text(encoding="utf-8")`: the text of a readable regular
      file whose bytes decode, with its line ends translated to "\n". Only
      ENOENT is a `FileNotFoundError`. */
  function ReadText(fs: Node, p: Path): (r: Result<string, ReadFailure>)
    ensures r.Ok? <==> Lookup(fs, p).Some? && Lookup(fs, p).value.File? && Lookup(fs, p).value.content.Readable?
    ensures r.Ok? ==> r.value == Universal(Lookup(fs, p).value.content.text)
    ensures r == Err(Missing) <==> exists k :: 0 <= k < |p| && DirLacks(Lookup(fs, p[..k]), p[k])
    ensures r == Err(ThroughNonDirectory) <==> PassesNonDirectory(fs, p)
    ensures r == Err(NoReadPermission) <==> Lookup(fs, p).Some? && Lookup(fs, p).value.File?
                                            && Lookup(fs, p).value.content.Unreadable?
    ensures r == Err(NotUtf8) <==> Lookup(fs, p).Some? && Lookup(fs, p).value.File?
                                   && Lookup(fs, p).value.content.Undecodable?
  {
    LookupMissingCases(fs, p);
    match Lookup(fs, p)
    case None => if PassesNonDirectory(fs, p) then Err(ThroughNonDirectory) else Err(Missing)
    case Some(File(_, Readable(text))) => Ok(Universal(text))
    case Some(File(_, Undecodable(_))) => Err(NotUtf8)
    case Some(File(_, Unreadable)) => Err(NoReadPermission)
    case Some(_) => Err(NotRegularFile)
  }

  /** The success shapes of `edit_file`: a written edit, or a dry-run preview
      comparing the original text with the fully edited one. */
  datatype EditReply = Edited(message: string) | DiffPreview(original: string, modified: string)

  /** The error responses of `edit_file`. */
  datatype EditFileError =
    | EditDenied(denial: Denial)
    | FileNotFound
    | ReadPermissionDenied
    | ReadFailed
    | EditAborted(failure: EditFailure)

  /** The HTTP status of each error. The 400 for an absent `oldText` is raised
      inside the `try` block around the edit loop and turned into a 500 by its
      `except Exception` clause. */
  function EditStatus(e: EditFileError): (code: int)
    ensures code == 500 <==> e.ReadFailed? || e.EditAborted?
    ensures code == 403 <==> e.EditDenied? || e.ReadPermissionDenied?
    ensures code == 404 <==> e.FileNotFound?
  {
    match e
    case EditDenied(_) => 403
    case FileNotFound => 404
    case ReadPermissionDenied => 403
    case ReadFailed => 500
    case EditAborted(_) => 500
  }

  /** `edit_file`: gate, read, apply every edit, then preview or write. */
  function EditFile(env: Env, fs: Node, path: string, edits: seq<EditOperation>, dryRun: bool)
    : (r: (Result<EditReply, EditFileError>, Node))
    ensures NormalizePath(env, path).Err? ==> r == (Err(EditDenied(NormalizePath(env, path).error)), fs)
    ensures r.0.Ok? ==> NormalizePath(env, path).Ok? && ReadText(fs, NormalizePath(env, path).value).Ok?
                        && ApplyEdits(ReadText(fs, NormalizePath(env, path).value).value, edits).Ok?
    ensures r.0.Ok? && r.0.value.DiffPreview? ==> dryRun && r.1 == fs
    ensures r.1 != fs ==> !dryRun && r.0.Ok? && r.0.value.Edited?
  {
    match NormalizePath(env, path)
    case Err(d) => (Err(EditDenied(d)), fs)
    case Ok(p) =>
      match ReadText(fs, p)
      case Err(Missing) => (Err(FileNotFound), fs)
      case Err(NoReadPermission) => (Err(ReadPermissionDenied), fs)
      case Err(_) => (Err(ReadFailed), fs)
      case Ok(original) =>
        match ApplyEdits(original, edits)
        case Err(f) => (Err(EditAborted(f)), fs)
        case Ok(modified) =>
          if dryRun then (Ok(DiffPreview(original, modified)), fs)
          else
            var name := Lookup(fs, p).value.name;
            (Ok(Edited("Successfully edited file " + path)), WriteAt(fs, p, File(name, Readable(modified))))
  }

  /** The file changes only on a successful edit without dry run; a dry run
      returns the preview of exactly the change the edits describe, and an
      absent `oldText` aborts before anything is written. */
  lemma EditFileOutcome(env: Env, fs: Node, path: string, edits: seq<EditOperation>, dryRun: bool)
    requires NormalizePath(env, path).Ok?
    requires ReadText(fs, NormalizePath(env, path).value).Ok?
    ensures var (r, fs') := EditFile(env, fs, path, edits, dryRun);
            var original := ReadText(fs, NormalizePath(env, path).value).value;
            && (ApplyEdits(original, edits).Err? ==>
                  r == Err(EditAborted(ApplyEdits(original, edits).error)) && fs' == fs)
            && (ApplyEdits(original, edits).Ok? && dryRun ==>
                  r == Ok(DiffPreview(original, ApplyEdits(original, edits).value)) && fs' == fs)
            && (ApplyEdits(original, edits).Ok? && !dryRun ==> r.Ok? && r.value.Edited?)
  {
  }

  /** A written edit stores exactly the final text at the path (`write_text`
      translates "\n" to itself on POSIX), which reads back with its line ends
      translated, so unchanged when it holds no "\r"; every path neither
      above nor below it denotes what it did before. */
  lemma EditFileWritesFinalText(env: Env, fs: Node, path: string, edits: seq<EditOperation>, q: Path)
    requires NormalizePath(env, path).Ok?
    requires ReadText(fs, NormalizePath(env, path).value).Ok?
    requires ApplyEdits(ReadText(fs, NormalizePath(env, path).value).value, edits).Ok?
    ensures var p := NormalizePath(env, path).value;
            var fs' := EditFile(env, fs, path, edits, false).1;
            var modified := ApplyEdits(ReadText(fs, p).value, edits).value;
            && Lookup(fs', p) == Some(File(Lookup(fs, p).value.name, Readable(modified)))
            && ReadText(fs', p) == Ok(Universal(modified))
            && ('\r' !in modified ==> ReadText(fs', p) == Ok(modified))
            && (!(p <= q) && !(q <= p) ==> Lookup(fs', q) == Lookup(fs, q))
  {
    var p := NormalizePath(env, path).value;
    var modified := ApplyEdits(ReadText(fs, p).value, edits).value;
    var n := File(Lookup(fs, p).value.name, Readable(modified));
    UniversalKeepsPlain(modified);
    if p != [] {
      LookupName(fs, p);
      LookupReplaced(fs, p, Some(n));
      if !(p <= q) && !(q <= p) {
        LookupUnrelated(fs, p, Some(n), q);
      }
    }
  }

  /** Edits see the translated text: in a file holding "a\r\nb", the old
      text "a\nb" is found and "a\r\nb" is not. */
  lemma CrlfFileEditedAsLf()
    ensures var fs := Dir("", [File("f", Readable("a\r\nb"))]);
            && ReadText(fs, ["f"]) == Ok("a\nb")
            && ApplyEdits("a\nb", [EditOperation("a\nb", "c")]) == Ok("c")
            && ApplyEdits("a\nb", [EditOperation("a\r\nb", "c")]).Err?
  {
    UniversalExamples();
    var fs := Dir("", [File("f", Readable("a\r\nb"))]);
    assert Lookup(fs, ["f"]) == Some(File("f", Readable("a\r\nb"))) by {
      assert ["f"][1..] == [];
    }
    var e := EditOperation("a\nb", "c");
    assert OccursAt("a\nb", "a\nb", 0);
    ReplaceFirstAt("a\nb", "a\nb", "c", 0);
    assert "a\nb"[..0] + "c" + "a\nb"[3..] == "c";
    ApplySingleEdit("a\nb", e);
    ApplySingleEdit("a\nb", EditOperation("a\r\nb", "c"));
  }

  /** How a failed read is answered: 404 exactly when a directory on the
      path lacks the next name, 403 for a permission error, and 500 for
      everything else, a path through a regular file and bytes that are not
      UTF-8 among them. */
  lemma EditFileReadErrors(env: Env, fs: Node, path: string, edits: seq<EditOperation>, dryRun: bool)
    requires NormalizePath(env, path).Ok?
    ensures var p := NormalizePath(env, path).value;
            var r := EditFile(env, fs, path, edits, dryRun).0;
            && (r == Err(FileNotFound) <==> exists k :: 0 <= k < |p| && DirLacks(Lookup(fs, p[..k]), p[k]))
            && (r == Err(ReadPermissionDenied) <==> ReadText(fs, p) == Err(NoReadPermission))
            && (r == Err(ReadFailed) <==> ReadText(fs, p).Err? && ReadText(fs, p).error !in {Missing, NoReadPermission})
            && (PassesNonDirectory(fs, p) ==> r == Err(ReadFailed))
  {
  }

  /** Anything that stops the request before the write leaves the file alone:
      a denial, a failed read, or an absent `oldText`. */
  lemma EditFileFailureWritesNothing(env: Env, fs: Node, path: string, edits: seq<EditOperation>, dryRun: bool)
    requires EditFile(env, fs, path, edits, dryRun).0.Err?
    ensures EditFile(env, fs, path, edits, dryRun).1 == fs
  {
  }
}

=== FILE: fstree.dfy ===
/** An abstract filesystem: a tree of named nodes, addressed by resolved
    paths given as sequences of components. It stands in for the host
    filesystem that the filesystem server reaches through `pathlib`,
    `os.walk` and `shutil`. */
module FsTree {
  import opened Basics

  /** A resolved absolute path, one entry per component below "/". */
  type Path = seq<string>

  /** What opening a regular file for reading yields: its text when its
      bytes are valid UTF-8; when they are not, the text that decoding with
      invalid bytes dropped leaves (`lenient`); or a permission error. */
  datatype Content = Readable(text: string) | Undecodable(lenient: string) | Unreadable

  /** A directory entry, as seen at its resolved path. `Special` is anything
      there that is neither a regular file nor a directory: a socket, a named
      pipe, or a character or block device. `Path.is_file()` and
      `Path.is_dir()` are both false for it. Children are kept in the order
      the host lists them. */
  datatype Node =
    | File(name: string, content: Content)
    | Dir(name: string, children: seq<Node>)
    | Special(name: string)

  /** "/a/b" for ["a", "b"]; the empty path renders as "". */
  function Render(p: Path): string
  {
    if p == [] then "" else "/" + p[0] + Render(p[1..])
  }

  /** `str(path)` of a resolved path: "/" for the root, "/a/b" otherwise. */
  function PathString(p: Path): string
  {
    if p == [] then "/" else Render(p)
  }

  /** The string of a child path is the parent's string, a slash and the name. */
  lemma {:induction false} RenderAppend(p: Path, name: string)
    ensures Render(p + [name]) == Render(p) + "/" + name
    decreases |p|
  {
    if p == [] {
      assert [name][1..] == [];
    } else {
      assert (p + [name])[1..] == p[1..] + [name];
      RenderAppend(p[1..], name);
    }
  }

  /** Rendering distributes over concatenation of paths. */
  lemma {:induction false} RenderConcat(p: Path, q: Path)
    ensures Render(p + q) == Render(p) + Render(q)
    decreases |p|
  {
    if p == [] {
      assert p + q == q;
    } else {
      assert (p + q)[0] == p[0] && (p + q)[1..] == p[1..] + q;
      RenderConcat(p[1..], q);
    }
  }

  /** The string of a path below `p` starts with the string of `p`. */
  lemma RenderPrefix(p: Path, r: Path)
    requires p <= r
    ensures Render(p) <= Render(r)
  {
    assert r == p + r[|p|..];
    RenderConcat(p, r[|p|..]);
  }

  /** The first child carrying `name`, as `iterdir` would find it. */
  function FindChild(cs: seq<Node>, name: string): (r: Option<Node>)
    ensures r.Some? ==> r.value in cs && r.value.name == name
  {
    if cs == [] then None
    else if cs[0].name == name then Some(cs[0])
    else FindChild(cs[1..], name)
  }

  /** `FindChild` finds the leftmost child with the name, and fails only when
      no child has it. */
  lemma {:induction false} FindChildFirst(cs: seq<Node>, name: string)
    ensures FindChild(cs, name).None? <==> forall i :: 0 <= i < |cs| ==> cs[i].name != name
    ensures FindChild(cs, name).Some? ==>
              exists i :: 0 <= i < |cs| && cs[i] == FindChild(cs, name).value
                       && forall j :: 0 <= j < i ==> cs[j].name != name
    decreases |cs|
  {
    if cs != [] && cs[0].name != name {
      FindChildFirst(cs[1..], name);
      if FindChild(cs, name).Some? {
        var i :| 0 <= i < |cs[1..]| && cs[1..][i] == FindChild(cs, name).value
                 && forall j :: 0 <= j < i ==> cs[1..][j].name != name;
        assert cs[i + 1] == FindChild(cs, name).value;
        forall j | 0 <= j < i + 1 ensures cs[j].name != name {
          if j > 0 { assert cs[j] == cs[1..][j - 1]; }
        }
      }
    }
  }

  /** The node a resolved path denotes, if it exists. */
  function Lookup(n: Node, p: Path): Option<Node>
    decreases |p|
  {
    if p == [] then Some(n)
    else if !n.Dir? then None
    else match FindChild(n.children, p[0])
      case None => None
      case Some(c) => Lookup(c, p[1..])
  }

  /** Resolving `p` from `n` meets an entry that is not a directory while
      components remain. The host then answers "not a directory" (ENOTDIR),
      not "no such file" (ENOENT). */
  predicate PassesNonDirectory(n: Node, p: Path)
    decreases |p|
  {
    p != [] && (!n.Dir? || match FindChild(n.children, p[0])
                           case None => false
                           case Some(c) => PassesNonDirectory(c, p[1..]))
  }

  /** `x` is a directory with no child named `name`. */
  predicate DirLacks(x: Option<Node>, name: string)
  {
    x.Some? && x.value.Dir? && FindChild(x.value.children, name).None?
  }

  /** A path denotes nothing for one of two reasons, and never for both:
      it passes through an entry that is not a directory, or some directory
      on it lacks the next name. */
  lemma {:induction false} LookupMissingCases(n: Node, p: Path)
    ensures PassesNonDirectory(n, p) ==> Lookup(n, p).None?
    ensures Lookup(n, p).None? && !PassesNonDirectory(n, p)
            <==> exists k :: 0 <= k < |p| && DirLacks(Lookup(n, p[..k]), p[k])
    decreases |p|
  {
    if p == [] {
    } else if !n.Dir? {
      forall k | 0 <= k < |p|
        ensures !DirLacks(Lookup(n, p[..k]), p[k])
      {
        if k > 0 {
          assert p[..k] != [];
        }
      }
    } else {
      assert p[..0] == [];
      match FindChild(n.children, p[0])
      case None =>
        assert DirLacks(Lookup(n, p[..0]), p[0]);
      case Some(c) =>
        LookupMissingCases(c, p[1..]);
        forall k | 1 <= k < |p|
          ensures Lookup(n, p[..k]) == Lookup(c, p[1..][..k - 1])
        {
          assert p[..k][1..] == p[1..][..k - 1];
        }
        if exists k :: 0 <= k < |p| && DirLacks(Lookup(n, p[..k]), p[k]) {
          var k :| 0 <= k < |p| && DirLacks(Lookup(n, p[..k]), p[k]);
          assert k != 0;
          assert p[k] == p[1..][k - 1];
          assert DirLacks(Lookup(c, p[1..][..k - 1]), p[1..][k - 1]);
        }
        if exists k :: 0 <= k < |p[1..]| && DirLacks(Lookup(c, p[1..][..k]), p[1..][k]) {
          var k :| 0 <= k < |p[1..]| && DirLacks(Lookup(c, p[1..][..k]), p[1..][k]);
          assert p[1..][k] == p[k + 1];
          assert DirLacks(Lookup(n, p[..k + 1]), p[k + 1]);
        }
    }
  }

  /** `m` is reached from `n` by descending along `q`, taking at each level
      some child with the next name (not necessarily the first one). */
  predicate Reaches(n: Node, q: Path, m: Node)
    decreases |q|
  {
    if q == [] then m == n
    else n.Dir? && exists i :: 0 <= i < |n.children| && n.children[i].name == q[0]
                             && Reaches(n.children[i], q[1..], m)
  }

  /** Reaching a node from a child is reaching it from the parent along one
      more name. */
  lemma ReachesChild(n: Node, i: int, q: Path, m: Node)
    requires n.Dir? && 0 <= i < |n.children| && Reaches(n.children[i], q, m)
    ensures Reaches(n, [n.children[i].name] + q, m)
  {
    var q' := [n.children[i].name] + q;
    assert q'[0] == n.children[i].name && q'[1..] == q;
  }

  /** No directory of the tree holds two entries with the same name, as on a
      real filesystem. */
  predicate DistinctNames(n: Node)
    decreases n
  {
    n.Dir? ==>
      && (forall i, j :: 0 <= i < j < |n.children| ==> n.children[i].name != n.children[j].name)
      && (forall i :: 0 <= i < |n.children| ==> DistinctNames(n.children[i]))
  }

  /** Among siblings with distinct names, the child with the name is the one
      `FindChild` finds. */
  lemma FindChildDistinct(cs: seq<Node>, name: string, i: int)
    requires 0 <= i < |cs| && cs[i].name == name
    requires forall a, b :: 0 <= a < b < |cs| ==> cs[a].name != cs[b].name
    ensures FindChild(cs, name) == Some(cs[i])
  {
    FindChildFirst(cs, name);
    var j :| 0 <= j < |cs| && cs[j] == FindChild(cs, name).value
             && forall k :: 0 <= k < j ==> cs[k].name != name;
    assert cs[j].name == name;
  }

  /** In a tree with distinct sibling names, reaching a node along `q` is
      looking `q` up. */
  lemma {:induction false} ReachesIsLookup(n: Node, q: Path, m: Node)
    requires DistinctNames(n) && Reaches(n, q, m)
    ensures Lookup(n, q) == Some(m)
    decreases |q|
  {
    if q != [] {
      var i :| 0 <= i < |n.children| && n.children[i].name == q[0] && Reaches(n.children[i], q[1..], m);
      FindChildDistinct(n.children, q[0], i);
      ReachesIsLookup(n.children[i], q[1..], m);
    }
  }

  /** A node found at a non-empty path carries the path's last component. */
  lemma {:induction false} LookupName(n: Node, p: Path)
    requires p != [] && Lookup(n, p).Some?
    ensures Lookup(n, p).value.name == p[|p| - 1]
    decreases |p|
  {
    var c := FindChild(n.children, p[0]).value;
    if |p| > 1 {
      LookupName(c, p[1..]);
    }
  }

  /** A replacement for the node at `p` that keeps its name (or removes it). */
  predicate Fits(p: Path, x: Option<Node>)
    requires |p| >= 1
  {
    x.None? || x.value.name == p[|p| - 1]
  }

  /** The tree with the node at `p` replaced by `x`, or removed when `x` is
      `None`. A missing target leaves the tree as it is. */
  function ReplaceAt(n: Node, p: Path, x: Option<Node>): (r: Node)
    requires |p| >= 1
    ensures r.name == n.name
    decreases |p|, 1, 0
  {
    if n.Dir? then Dir(n.name, ReplaceIn(n.children, p, x)) else n
  }

  /** `ReplaceAt` applied to a list of siblings. */
  function ReplaceIn(cs: seq<Node>, p: Path, x: Option<Node>): seq<Node>
    requires |p| >= 1
    decreases |p|, 0, |cs|
  {
    if cs == [] then []
    else
      var rest := ReplaceIn(cs[1..], p, x);
      if cs[0].name != p[0] then [cs[0]] + rest
      else if |p| == 1 then (if x.Some? then [x.value] else []) + rest
      else [ReplaceAt(cs[0], p[1..], x)] + rest
  }

  /** The tree with the node at `p` overwritten by `x` (the root itself when
      `p` is empty). */
  function WriteAt(n: Node, p: Path, x: Node): Node
  {
    if p == [] then x else ReplaceAt(n, p, Some(x))
  }

  /** `FindChild` on a list with a known head. */
  lemma FindChildCons(h: Node, rest: seq<Node>, name: string)
    ensures FindChild([h] + rest, name) == if h.name == name then Some(h) else FindChild(rest, name)
  {
    assert ([h] + rest)[1..] == rest;
  }

  /** Siblings not named `p[0]` are found as before. */
  lemma {:induction false} FindChildReplaceInOther(cs: seq<Node>, p: Path, x: Option<Node>, name: string)
    requires |p| >= 1 && Fits(p, x)
    requires name != p[0]
    ensures FindChild(ReplaceIn(cs, p, x), name) == FindChild(cs, name)
    decreases |cs|
  {
    if cs != [] {
      FindChildReplaceInOther(cs[1..], p, x, name);
      var rest := ReplaceIn(cs[1..], p, x);
      FindChildCons(cs[0], cs[1..], name);
      assert cs == [cs[0]] + cs[1..];
      if cs[0].name != p[0] {
        FindChildCons(cs[0], rest, name);
      } else if |p| == 1 {
        if x.Some? {
          assert ReplaceIn(cs, p, x) == [x.value] + rest;
          assert x.value.name == p[0];
          FindChildCons(x.value, rest, name);
        } else {
          assert ReplaceIn(cs, p, x) == rest;
        }
      } else {
        FindChildCons(ReplaceAt(cs[0], p[1..], x), rest, name);
      }
    }
  }

  /** Below the first level, the first sibling named `p[0]` is the one
      rewritten. */
  lemma {:induction false} FindChildReplaceInSame(cs: seq<Node>, p: Path, x: Option<Node>)
    requires |p| > 1
    ensures FindChild(ReplaceIn(cs, p, x), p[0])
         == (match FindChild(cs, p[0])
             case None => None
             case Some(c) => Some(ReplaceAt(c, p[1..], x)))
    decreases |cs|
  {
    if cs != [] {
      FindChildReplaceInSame(cs[1..], p, x);
      var rest := ReplaceIn(cs[1..], p, x);
      if cs[0].name != p[0] {
        assert ([cs[0]] + rest)[1..] == rest;
      }
    }
  }

  /** At the last level, the named sibling becomes `x` if it existed. */
  lemma {:induction false} FindChildReplaceInLast(cs: seq<Node>, p: Path, x: Option<Node>)
    requires |p| == 1 && Fits(p, x)
    ensures FindChild(ReplaceIn(cs, p, x), p[0])
         == (if FindChild(cs, p[0]).Some? then x else None)
    decreases |cs|
  {
    if cs != [] {
      FindChildReplaceInLast(cs[1..], p, x);
      var rest := ReplaceIn(cs[1..], p, x);
      if cs[0].name != p[0] {
        assert ([cs[0]] + rest)[1..] == rest;
      } else if x.None? {
        assert [] + rest == rest;
      }
    }
  }

  /** After the replacement the path denotes `x`, provided something was there. */
  lemma {:induction false} LookupReplaced(n: Node, p: Path, x: Option<Node>)
    requires |p| >= 1 && Fits(p, x)
    ensures Lookup(ReplaceAt(n, p, x), p) == (if Lookup(n, p).Some? then x else None)
    decreases |p|
  {
    if n.Dir? {
      if |p| == 1 {
        FindChildReplaceInLast(n.children, p, x);
        assert p[1..] == [];
      } else {
        FindChildReplaceInSame(n.children, p, x);
        match FindChild(n.children, p[0])
        case None =>
        case Some(c) =>
          LookupReplaced(c, p[1..], x);
          assert p[1..][|p[1..]| - 1] == p[|p| - 1];
      }
    }
  }

  /** Removing the node at `p` removes everything below it too. */
  lemma {:induction false} LookupBelowRemoved(n: Node, p: Path, q: Path)
    requires |p| >= 1 && p <= q
    ensures Lookup(ReplaceAt(n, p, None), q) == None
    decreases |p|
  {
    if n.Dir? {
      if |p| == 1 {
        FindChildReplaceInLast(n.children, p, None);
      } else {
        FindChildReplaceInSame(n.children, p, None);
        match FindChild(n.children, p[0])
        case None =>
        case Some(c) =>
          LookupBelowRemoved(c, p[1..], q[1..]);
      }
    }
  }

  /** Paths that neither contain nor lie below `p` see the same node as before. */
  lemma {:induction false} LookupUnrelated(n: Node, p: Path, x: Option<Node>, q: Path)
    requires |p| >= 1 && Fits(p, x)
    requires !(p <= q) && !(q <= p)
    ensures Lookup(ReplaceAt(n, p, x), q) == Lookup(n, q)
    decreases |p|
  {
    if n.Dir? {
      if p[0] != q[0] {
        FindChildReplaceInOther(n.children, p, x, q[0]);
      } else {
        PrefixCons(p, q);
        PrefixCons(q, p);
        FindChildReplaceInSame(n.children, p, x);
        match FindChild(n.children, p[0])
        case None =>
        case Some(c) =>
          assert p[1..][|p[1..]| - 1] == p[|p| - 1];
          LookupUnrelated(c, p[1..], x, q[1..]);
      }
    }
  }

  /** Two paths that start alike are prefix-related exactly when their tails are. */
  lemma PrefixCons(p: Path, q: Path)
    requires |p| >= 1 && |q| >= 1 && p[0] == q[0]
    ensures (p <= q) <==> (p[1..] <= q[1..])
  {
    if p[1..] <= q[1..] {
      assert p == [p[0]] + p[1..];
      assert q[..|p|] == [q[0]] + q[1..][..|p| - 1];
    }
  }
}

=== FILE: memory_entities.dfy ===
/** The entity and observation operations of the memory server, as pure
    updates of a graph that has already been read. */
module Entities {
  import opened Basics
  import opened Text
  import opened KnowledgeGraph

  /** One item of an `add_observations` request. */
  datatype ObservationItem = ObservationItem(entityName: string, contents: seq<string>)

  /** One item of a `delete_observations` request. */
  datatype DeletionItem = DeletionItem(entityName: string, observations: seq<string>)

  /** One `{"entityName", "addedObservations"}` report. */
  datatype Added = Added(entityName: string, addedObservations: seq<string>)

  /** `create_entities`: append the requested entities whose name is not
      already in the graph, and return them. The requested entities are
      only checked against the names present before the request. */
  function CreateEntities(g: Graph, req: seq<Entity>): (r: (Graph, seq<Entity>))
    ensures r.0.relations == g.relations
    ensures r.0.entities == g.entities + r.1
    ensures forall e :: e in r.1 <==> e in req && e.name !in Names(g.entities)
  {
    var existing := Names(g.entities);
    var created := Filter(req, (e: Entity) => e.name !in existing);
    (Graph(g.entities + created, g.relations), created)
  }

  /** The created entities keep request order. */
  lemma CreateEntitiesInOrder(g: Graph, req: seq<Entity>)
    ensures SubseqOf(CreateEntities(g, req).1, req)
  {
    FilterIsSubseq(req, (e: Entity) => e.name !in Names(g.entities));
  }

  /** Two requested entities with the same new name are both created. */
  lemma CreateEntitiesKeepsRequestDuplicates(g: Graph, e: Entity)
    requires e.name !in Names(g.entities)
    ensures CreateEntities(g, [e, e]).1 == [e, e]
  {
    FilterKeepsAll([e, e], (x: Entity) => x.name !in Names(g.entities));
  }

  /** Repeating a creation creates nothing the second time. */
  lemma CreateEntitiesTwice(g: Graph, req: seq<Entity>)
    ensures var g1 := CreateEntities(g, req).0;
            CreateEntities(g1, req) == (g1, [])
  {
    var (g1, created) := CreateEntities(g, req);
    forall k | 0 <= k < |req| ensures req[k].name in Names(g1.entities) {
      var e := req[k];
      if e.name !in Names(g.entities) {
        assert e in created;
        var i :| 0 <= i < |created| && created[i] == e;
        assert g1.entities[|g.entities| + i] == e;
      } else {
        var i :| 0 <= i < |g.entities| && g.entities[i].name == e.name;
        assert g1.entities[i] == g.entities[i];
      }
    }
    FilterKeepsNone(req, (e: Entity) => e.name !in Names(g1.entities));
    assert g1.entities + [] == g1.entities;
  }

  /** The graph with `added` appended to the observations of entity `i`. */
  function AppendObservations(g: Graph, i: nat, added: seq<string>): (r: Graph)
    requires i < |g.entities|
    ensures r.relations == g.relations && SameNames(g.entities, r.entities)
    ensures r.entities[i].observations == g.entities[i].observations + added
    ensures r.entities[i].entityType == g.entities[i].entityType
    ensures forall j :: 0 <= j < |g.entities| && j != i ==> r.entities[j] == g.entities[j]
  {
    var e := g.entities[i];
    Graph(g.entities[i := e.(observations := e.observations + added)], g.relations)
  }

  /** The contents of an item that the entity does not already hold, in
      request order; repeated new contents are all kept. */
  function NewContents(contents: seq<string>, held: seq<string>): (r: seq<string>)
    ensures forall c :: c in r <==> c in contents && c !in held
  {
    Filter(contents, (c: string) => c !in held)
  }

  /** `add_observations`: the items are applied in order to the graph as
      updated by the earlier items; the first item whose lower-cased name
      names no entity aborts with that name, and nothing is kept. */
  function AddObservations(g: Graph, items: seq<ObservationItem>): (r: Result<(Graph, seq<Added>), string>)
    ensures r.Ok? ==> r.value.0.relations == g.relations && SameNames(g.entities, r.value.0.entities)
    ensures r.Ok? ==> |r.value.1| == |items|
                      && forall k :: 0 <= k < |items| ==> r.value.1[k].entityName == LowerStr(items[k].entityName)
    decreases |items|
  {
    if items == [] then Ok((g, []))
    else
      var name := LowerStr(items[0].entityName);
      match FindEntity(g.entities, name)
      case None => Err(name)
      case Some(i) =>
        var added := NewContents(items[0].contents, g.entities[i].observations);
        var g1 := AppendObservations(g, i, added);
        SameNamesFind(g.entities, g1.entities, name);
        match AddObservations(g1, items[1..])
        case Err(n) => Err(n)
        case Ok((g2, reports)) =>
          ReportNamesCons(items, Added(name, added), reports);
          Ok((g2, [Added(name, added)] + reports))
  }

  /** Reports named after the items stay so with one more in front. */
  lemma ReportNamesCons(items: seq<ObservationItem>, rep: Added, reports: seq<Added>)
    requires |items| == |reports| + 1 && rep.entityName == LowerStr(items[0].entityName)
    requires forall k :: 0 <= k < |reports| ==> reports[k].entityName == LowerStr(items[1..][k].entityName)
    ensures forall k :: 0 <= k < |items| ==> ([rep] + reports)[k].entityName == LowerStr(items[k].entityName)
  {
    forall k | 1 <= k < |items| ensures ([rep] + reports)[k].entityName == LowerStr(items[k].entityName) {
      assert items[1..][k - 1] == items[k];
    }
  }

  /** The index of the first item whose lower-cased name is not among
      `names`, if any. */
  function FirstMissing(names: set<string>, items: seq<ObservationItem>): (r: Option<nat>)
    ensures r.None? <==> forall k :: 0 <= k < |items| ==> LowerStr(items[k].entityName) in names
    ensures r.Some? ==> r.value < |items| && LowerStr(items[r.value].entityName) !in names
                        && forall j :: 0 <= j < r.value ==> LowerStr(items[j].entityName) in names
    decreases |items|
  {
    if items == [] then None
    else if LowerStr(items[0].entityName) !in names then Some(0)
    else
      assert forall k :: 1 <= k < |items| ==> items[k] == items[1..][k - 1];
      match FirstMissing(names, items[1..])
      case None => None
      case Some(k) => Some(k + 1)
  }

  /** `add_observations` fails exactly when some item names no entity, and
      the error names the first such item. */
  lemma {:induction false} AddObservationsFailure(g: Graph, items: seq<ObservationItem>)
    ensures AddObservations(g, items).Err? <==> FirstMissing(Names(g.entities), items).Some?
    ensures AddObservations(g, items).Err? ==>
              AddObservations(g, items).error == LowerStr(items[FirstMissing(Names(g.entities), items).value].entityName)
    decreases |items|
  {
    if items != [] {
      var name := LowerStr(items[0].entityName);
      match FindEntity(g.entities, name)
      case None =>
      case Some(i) =>
        var added := NewContents(items[0].contents, g.entities[i].observations);
        var g1 := AppendObservations(g, i, added);
        SameNamesFind(g.entities, g1.entities, name);
        AddObservationsFailure(g1, items[1..]);
    }
  }

  /** A single item adds to the first entity with its lower-cased name exactly
      the contents it did not hold, reports exactly those, and changes no
      other entity. */
  lemma AddObservationsSingle(g: Graph, item: ObservationItem)
    requires LowerStr(item.entityName) in Names(g.entities)
    ensures var name := LowerStr(item.entityName);
            var i := FindEntity(g.entities, name).value;
            var held := g.entities[i].observations;
            var added := NewContents(item.contents, held);
            AddObservations(g, [item]) == Ok((AppendObservations(g, i, added), [Added(name, added)]))
  {
    var name := LowerStr(item.entityName);
    var i := FindEntity(g.entities, name).value;
    var g1 := AppendObservations(g, i, NewContents(item.contents, g.entities[i].observations));
    assert [item][1..] == [];
    assert AddObservations(g1, []) == Ok((g1, []));
    assert [Added(name, NewContents(item.contents, g.entities[i].observations))] + []
        == [Added(name, NewContents(item.contents, g.entities[i].observations))];
  }

  /** A request is its first item applied to the graph, then the rest of
      the request applied to the result, with the first report in front. */
  lemma AddObservationsCons(g: Graph, item: ObservationItem, rest: seq<ObservationItem>)
    ensures var name := LowerStr(item.entityName);
            FindEntity(g.entities, name).None? ==> AddObservations(g, [item] + rest) == Err(name)
    ensures var name := LowerStr(item.entityName);
            FindEntity(g.entities, name).Some? ==>
              var i := FindEntity(g.entities, name).value;
              var added := NewContents(item.contents, g.entities[i].observations);
              var tail := AddObservations(AppendObservations(g, i, added), rest);
              && (AddObservations(g, [item] + rest).Ok? <==> tail.Ok?)
              && (tail.Err? ==> AddObservations(g, [item] + rest) == Err(tail.error))
              && (tail.Ok? ==> AddObservations(g, [item] + rest)
                                 == Ok((tail.value.0, [Added(name, added)] + tail.value.1)))
  {
    assert ([item] + rest)[0] == item;
    assert ([item] + rest)[1..] == rest;
  }

  /** The contents the reports add to entity `j` of `es`, in report order:
      those of every report whose name first matches entity `j`. */
  function Gains(es: seq<Entity>, reports: seq<Added>, j: nat): seq<string>
    decreases |reports|
  {
    if reports == [] then []
    else
      (if FindEntity(es, reports[0].entityName) == Some(j) then reports[0].addedObservations else [])
      + Gains(es, reports[1..], j)
  }

  /** Gains depend only on the names of the entities. */
  lemma {:induction false} GainsSameNames(a: seq<Entity>, b: seq<Entity>, reports: seq<Added>, j: nat)
    requires SameNames(a, b)
    ensures Gains(a, reports, j) == Gains(b, reports, j)
    decreases |reports|
  {
    if reports != [] {
      SameNamesFind(a, b, reports[0].entityName);
      GainsSameNames(a, b, reports[1..], j);
    }
  }

  /** The gains of entity `i` over reports led by one for `i`. */
  lemma GainsCons(es: seq<Entity>, rep: Added, reports: seq<Added>, i: nat, j: nat)
    requires FindEntity(es, rep.entityName) == Some(i)
    ensures Gains(es, [rep] + reports, j)
            == (if j == i then rep.addedObservations else []) + Gains(es, reports, j)
  {
    assert ([rep] + reports)[0] == rep;
    assert ([rep] + reports)[1..] == reports;
  }

  /** A successful non-empty request: its first item names an entity, and
      the rest of the request succeeds on the graph that item updated. */
  lemma AddObservationsStep(g: Graph, items: seq<ObservationItem>)
    requires AddObservations(g, items).Ok? && items != []
    ensures var name := LowerStr(items[0].entityName);
            var i := FindEntity(g.entities, name);
            && i.Some?
            && var added := NewContents(items[0].contents, g.entities[i.value].observations);
               var tail := AddObservations(AppendObservations(g, i.value, added), items[1..]);
               && tail.Ok?
               && AddObservations(g, items).value == (tail.value.0, [Added(name, added)] + tail.value.1)
  {
  }

  /** Observations after one report for entity `i` and then reports
      `rest` are the observations plus the gains of all the reports. */
  lemma GainsStep(es: seq<Entity>, obs: seq<string>, rep: Added, rest: seq<Added>, i: nat, j: nat)
    requires FindEntity(es, rep.entityName) == Some(i)
    ensures (obs + (if j == i then rep.addedObservations else [])) + Gains(es, rest, j)
            == obs + Gains(es, [rep] + rest, j)
  {
    GainsCons(es, rep, rest, i, j);
    var own := if j == i then rep.addedObservations else [];
    assert (obs + own) + Gains(es, rest, j) == obs + (own + Gains(es, rest, j));
  }

  /** Entity `j` after a successful request: its observations gained what
      the reports say was added to it, and nothing else changed. */
  lemma {:induction false} AddObservationsFrameAt(g: Graph, items: seq<ObservationItem>, j: nat)
    requires AddObservations(g, items).Ok? && j < |g.entities|
    ensures var (g2, reports) := AddObservations(g, items).value;
            var e := g.entities[j];
            g2.entities[j] == Entity(e.name, e.entityType, e.observations + Gains(g.entities, reports, j))
    decreases |items|
  {
    if items == [] {
      assert g.entities[j].observations + [] == g.entities[j].observations;
    } else {
      var i, added, g1, rest := AddObservationsParts(g, items);
      AddObservationsFrameAt(g1, items[1..], j);
      GainsSameNames(g1.entities, g.entities, rest, j);
      GainsStep(g.entities, g.entities[j].observations, Added(LowerStr(items[0].entityName), added), rest, i, j);
    }
  }

  /** A successful request changes every entity only by appending to its
      observations, in request order, exactly what the reports say was added
      to it; names, types and every other entity stay as they were. */
  lemma AddObservationsFrame(g: Graph, items: seq<ObservationItem>)
    requires AddObservations(g, items).Ok?
    ensures var (g2, reports) := AddObservations(g, items).value;
            |g2.entities| == |g.entities|
            && forall j :: 0 <= j < |g.entities| ==>
                 var e := g.entities[j];
                 g2.entities[j] == Entity(e.name, e.entityType, e.observations + Gains(g.entities, reports, j))
  {
    forall j | 0 <= j < |g.entities|
      ensures var (g2, reports) := AddObservations(g, items).value;
              var e := g.entities[j];
              g2.entities[j] == Entity(e.name, e.entityType, e.observations + Gains(g.entities, reports, j))
    {
      AddObservationsFrameAt(g, items, j);
    }
  }

  /** Item `k` adds exactly the contents its entity holds neither from
      before the request nor from the earlier items, as they were added. */
  lemma {:induction false} AddObservationsReports(g: Graph, items: seq<ObservationItem>, k: nat)
    requires AddObservations(g, items).Ok? && k < |items|
    ensures var reports := AddObservations(g, items).value.1;
            var i := FindEntity(g.entities, LowerStr(items[k].entityName));
            && i.Some?
            && reports[k].addedObservations
               == NewContents(items[k].contents,
                              g.entities[i.value].observations + Gains(g.entities, reports[..k], i.value))
    decreases |items|, 1
  {
    AddObservationsStep(g, items);
    if k == 0 {
      var reports := AddObservations(g, items).value.1;
      var i := FindEntity(g.entities, LowerStr(items[0].entityName)).value;
      assert reports[..0] == [];
      assert g.entities[i].observations + [] == g.entities[i].observations;
    } else {
      LaterReport(g, items, k);
    }
  }

  /** The parts of a successful non-empty request: the entity `i` its first
      item names, the contents `added` to it, the graph `g1` that item leaves
      and the reports `rest` of the other items on `g1`. */
  lemma AddObservationsParts(g: Graph, items: seq<ObservationItem>)
      returns (i: nat, added: seq<string>, g1: Graph, rest: seq<Added>)
    requires AddObservations(g, items).Ok? && items != []
    ensures FindEntity(g.entities, LowerStr(items[0].entityName)) == Some(i)
    ensures SameNames(g.entities, g1.entities)
    ensures forall j :: 0 <= j < |g.entities| ==>
              g1.entities[j].observations == g.entities[j].observations + (if j == i then added else [])
    ensures forall j :: 0 <= j < |g.entities| ==> g1.entities[j].entityType == g.entities[j].entityType
    ensures AddObservations(g1, items[1..]).Ok? && AddObservations(g1, items[1..]).value.1 == rest
    ensures AddObservations(g, items).value.0 == AddObservations(g1, items[1..]).value.0
    ensures AddObservations(g, items).value.1 == [Added(LowerStr(items[0].entityName), added)] + rest
  {
    AddObservationsStep(g, items);
    i := FindEntity(g.entities, LowerStr(items[0].entityName)).value;
    added := NewContents(items[0].contents, g.entities[i].observations);
    g1 := AppendObservations(g, i, added);
    rest := AddObservations(g1, items[1..]).value.1;
    forall j | 0 <= j < |g.entities|
      ensures g1.entities[j].observations == g.entities[j].observations + (if j == i then added else [])
    {
      if j != i { assert g.entities[j].observations + [] == g.entities[j].observations; }
    }
  }

  /** The report of a later item, from the report it makes in the rest of
      the request. */
  lemma {:induction false} LaterReport(g: Graph, items: seq<ObservationItem>, k: nat)
    requires AddObservations(g, items).Ok? && 0 < k < |items|
    ensures var reports := AddObservations(g, items).value.1;
            var i := FindEntity(g.entities, LowerStr(items[k].entityName));
            && i.Some?
            && reports[k].addedObservations
               == NewContents(items[k].contents,
                              g.entities[i.value].observations + Gains(g.entities, reports[..k], i.value))
    decreases |items|, 0
  {
    var i, added, g1, rest := AddObservationsParts(g, items);
    AddObservationsReports(g1, items[1..], k - 1);
    assert items[1..][k - 1] == items[k];
    var n := LowerStr(items[k].entityName);
    SameNamesFind(g.entities, g1.entities, n);
    ReportShift(g.entities, g1.entities, Added(LowerStr(items[0].entityName), added), rest,
                AddObservations(g, items).value.1, i, FindEntity(g.entities, n).value, k, items[k].contents);
  }

  /** What report `k` says against the graph one earlier report updated,
      restated against the graph before that report. */
  lemma ReportShift(es: seq<Entity>, es1: seq<Entity>, rep: Added, rest: seq<Added>, reports: seq<Added>,
                    i: nat, j: nat, k: nat, contents: seq<string>)
    requires reports == [rep] + rest && 0 < k <= |rest|
    requires SameNames(es, es1) && FindEntity(es, rep.entityName) == Some(i) && j < |es|
    requires es1[j].observations == es[j].observations + (if j == i then rep.addedObservations else [])
    requires rest[k - 1].addedObservations == NewContents(contents, es1[j].observations + Gains(es1, rest[..k - 1], j))
    ensures reports[k].addedObservations == NewContents(contents, es[j].observations + Gains(es, reports[..k], j))
  {
    TakeCons(rep, rest, k);
    GainsSameNames(es1, es, rest[..k - 1], j);
    GainsStep(es, es[j].observations, rep, rest[..k - 1], i, j);
  }

  /** A prefix of a list with a head is the head and a shorter prefix of the tail. */
  lemma TakeCons<T>(x: T, xs: seq<T>, k: nat)
    requires 0 < k <= |xs| + 1
    ensures ([x] + xs)[..k] == [x] + xs[..k - 1]
  {
  }

  /** After a successful request every content of every item is held by the
      entity that item names, and every entity keeps what it held. */
  lemma {:induction false} AddObservationsHoldsAll(g: Graph, items: seq<ObservationItem>)
    requires AddObservations(g, items).Ok?
    ensures var g2 := AddObservations(g, items).value.0;
            forall k, c :: 0 <= k < |items| && c in items[k].contents ==>
              var i := FindEntity(g.entities, LowerStr(items[k].entityName));
              i.Some? && c in g2.entities[i.value].observations
    ensures var g2 := AddObservations(g, items).value.0;
            forall j :: 0 <= j < |g.entities| ==> g.entities[j].observations <= g2.entities[j].observations
    decreases |items|
  {
    var g2 := AddObservations(g, items).value.0;
    if items != [] {
      var name := LowerStr(items[0].entityName);
      var i := FindEntity(g.entities, name).value;
      var added := NewContents(items[0].contents, g.entities[i].observations);
      var g1 := AppendObservations(g, i, added);
      AddObservationsHoldsAll(g1, items[1..]);
      assert g2 == AddObservations(g1, items[1..]).value.0;
      forall k, c | 0 <= k < |items| && c in items[k].contents
        ensures var i := FindEntity(g.entities, LowerStr(items[k].entityName));
                i.Some? && c in g2.entities[i.value].observations
      {
        var n := LowerStr(items[k].entityName);
        SameNamesFind(g.entities, g1.entities, n);
        if k == 0 {
          assert c in g1.entities[i].observations;
          assert g1.entities[i].observations <= g2.entities[i].observations;
        } else {
          assert items[k] == items[1..][k - 1];
        }
      }
      forall j | 0 <= j < |g.entities| ensures g.entities[j].observations <= g2.entities[j].observations {
        assert g.entities[j].observations <= g1.entities[j].observations;
      }
    }
  }

  /** Repeating a successful request adds nothing the second time. */
  lemma {:induction false} AddObservationsTwice(g: Graph, items: seq<ObservationItem>)
    requires AddObservations(g, items).Ok?
    ensures var g2 := AddObservations(g, items).value.0;
            AddObservations(g2, items).Ok?
            && AddObservations(g2, items).value.0 == g2
            && forall k :: 0 <= k < |items| ==> AddObservations(g2, items).value.1[k].addedObservations == []
  {
    var g2 := AddObservations(g, items).value.0;
    AddObservationsHoldsAll(g, items);
    AddObservationsFailure(g, items);
    AddNothingNew(g, g2, items);
  }

  /** Items whose contents the entities they name already hold leave the
      graph as it is and report nothing added. */
  lemma {:induction false} AddNothingNew(g0: Graph, g: Graph, items: seq<ObservationItem>)
    requires SameNames(g0.entities, g.entities)
    requires forall k :: 0 <= k < |items| ==> LowerStr(items[k].entityName) in Names(g0.entities)
    requires forall k, c :: 0 <= k < |items| && c in items[k].contents ==>
               c in g.entities[FindEntity(g0.entities, LowerStr(items[k].entityName)).value].observations
    ensures AddObservations(g, items).Ok?
    ensures AddObservations(g, items).value.0 == g
    ensures forall k :: 0 <= k < |items| ==> AddObservations(g, items).value.1[k].addedObservations == []
    decreases |items|
  {
    if items != [] {
      var name := LowerStr(items[0].entityName);
      SameNamesFind(g0.entities, g.entities, name);
      var i := FindEntity(g.entities, name).value;
      var added := NewContents(items[0].contents, g.entities[i].observations);
      FilterKeepsNone(items[0].contents, (c: string) => c !in g.entities[i].observations);
      assert added == [];
      var g1 := AppendObservations(g, i, added);
      assert g.entities[i].observations + [] == g.entities[i].observations;
      assert g1.entities == g.entities;
      assert g1 == g;
      forall k, c | 0 <= k < |items[1..]| && c in items[1..][k].contents
        ensures c in g.entities[FindEntity(g0.entities, LowerStr(items[1..][k].entityName)).value].observations
      {
        assert items[1..][k] == items[k + 1];
      }
      forall k | 0 <= k < |items[1..]| ensures LowerStr(items[1..][k].entityName) in Names(g0.entities) {
        assert items[1..][k] == items[k + 1];
      }
      AddNothingNew(g0, g, items[1..]);
      var reports := AddObservations(g, items).value.1;
      assert reports == [Added(name, [])] + AddObservations(g, items[1..]).value.1;
      forall k | 0 <= k < |items| ensures reports[k].addedObservations == [] {
        if k > 0 { assert reports[k] == AddObservations(g, items[1..]).value.1[k - 1]; }
      }
    }
  }

  /** `delete_entities`: drop every entity with a listed name and, in
      cascade, every relation with a listed endpoint; the rest keeps its
      order. */
  function DeleteEntities(g: Graph, names: seq<string>): (r: Graph)
    ensures forall e :: e in r.entities <==> e in g.entities && e.name !in names
    ensures forall x :: x in r.relations <==> x in g.relations && x.from !in names && x.to !in names
  {
    Graph(Filter(g.entities, (e: Entity) => e.name !in names),
          Filter(g.relations, (x: Relation) => x.from !in names && x.to !in names))
  }

  /** What `delete_entities` keeps is a subsequence of what was stored. */
  lemma DeleteEntitiesInOrder(g: Graph, names: seq<string>)
    ensures SubseqOf(DeleteEntities(g, names).entities, g.entities)
    ensures SubseqOf(DeleteEntities(g, names).relations, g.relations)
  {
    FilterIsSubseq(g.entities, (e: Entity) => e.name !in names);
    FilterIsSubseq(g.relations, (x: Relation) => x.from !in names && x.to !in names);
  }

  /** Deleting the same names again changes nothing. */
  lemma DeleteEntitiesIdempotent(g: Graph, names: seq<string>)
    ensures DeleteEntities(DeleteEntities(g, names), names) == DeleteEntities(g, names)
  {
    FilterIdempotent(g.entities, (e: Entity) => e.name !in names);
    FilterIdempotent(g.relations, (x: Relation) => x.from !in names && x.to !in names);
  }

  /** The cascade keeps referential integrity: a graph whose relations all
      join existing entities still has that property after a deletion. */
  lemma DeleteEntitiesKeepsClosed(g: Graph, names: seq<string>)
    requires Closed(g)
    ensures Closed(DeleteEntities(g, names))
  {
    var r := DeleteEntities(g, names);
    forall x | x in r.relations ensures x.from in Names(r.entities) && x.to in Names(r.entities) {
      assert x in g.relations && x.from !in names && x.to !in names;
      KeptName(g, names, x.from);
      KeptName(g, names, x.to);
    }
  }

  /** A stored name that is not deleted is still a name after the deletion. */
  lemma KeptName(g: Graph, names: seq<string>, n: string)
    requires n in Names(g.entities) && n !in names
    ensures n in Names(DeleteEntities(g, names).entities)
  {
    var es := DeleteEntities(g, names).entities;
    var i :| 0 <= i < |g.entities| && g.entities[i].name == n;
    assert g.entities[i] in es;
    var a :| 0 <= a < |es| && es[a] == g.entities[i];
  }

  /** The entity an item targets: the first one with its lower-cased name. */
  predicate Targets(g: Graph, d: DeletionItem, j: int)
  {
    FindEntity(g.entities, LowerStr(d.entityName)) == Some(j)
  }

  /** One deletion item: remove every listed observation from the entity it
      targets, or nothing when it targets none. */
  function DeleteFrom(g: Graph, d: DeletionItem): (r: Graph)
    ensures r.relations == g.relations && SameNames(g.entities, r.entities)
    ensures forall j :: 0 <= j < |g.entities| ==> r.entities[j].entityType == g.entities[j].entityType
    ensures forall j, o :: 0 <= j < |g.entities| ==>
              (o in r.entities[j].observations
               <==> o in g.entities[j].observations && (Targets(g, d, j) ==> o !in d.observations))
  {
    match FindEntity(g.entities, LowerStr(d.entityName))
    case None => g
    case Some(i) =>
      var e := g.entities[i];
      Graph(g.entities[i := e.(observations := Filter(e.observations, (o: string) => o !in d.observations))],
            g.relations)
  }

  /** `delete_observations`: the items are applied in order. */
  function DeleteObservations(g: Graph, dels: seq<DeletionItem>): (r: Graph)
    ensures r.relations == g.relations && SameNames(g.entities, r.entities)
    ensures forall j :: 0 <= j < |g.entities| ==> r.entities[j].entityType == g.entities[j].entityType
    decreases |dels|
  {
    if dels == [] then g else DeleteObservations(DeleteFrom(g, dels[0]), dels[1..])
  }

  /** No item of `dels` that targets entity `j` lists observation `o`. */
  predicate Spares(g: Graph, dels: seq<DeletionItem>, j: int, o: string)
  {
    forall k :: 0 <= k < |dels| && Targets(g, dels[k], j) ==> o !in dels[k].observations
  }

  /** `Spares` splits into the first item and the rest, judged against any
      graph with the same names. */
  lemma SparesCons(g: Graph, g1: Graph, dels: seq<DeletionItem>, j: int, o: string)
    requires dels != [] && SameNames(g.entities, g1.entities)
    ensures Spares(g, dels, j, o)
            <==> (Targets(g, dels[0], j) ==> o !in dels[0].observations) && Spares(g1, dels[1..], j, o)
  {
    forall k | 0 <= k < |dels| ensures Targets(g, dels[k], j) == Targets(g1, dels[k], j) {
      SameNamesFind(g.entities, g1.entities, LowerStr(dels[k].entityName));
    }
    if Spares(g, dels, j, o) {
      forall k | 0 <= k < |dels[1..]| && Targets(g1, dels[1..][k], j) ensures o !in dels[1..][k].observations {
        assert dels[1..][k] == dels[k + 1];
      }
    }
    if (Targets(g, dels[0], j) ==> o !in dels[0].observations) && Spares(g1, dels[1..], j, o) {
      forall k | 0 <= k < |dels| && Targets(g, dels[k], j) ensures o !in dels[k].observations {
        if k > 0 { assert dels[k] == dels[1..][k - 1]; }
      }
    }
  }

  /** Exactly the targeted observations go: an observation is kept unless
      some item targeting its entity lists it. */
  lemma {:induction false} DeleteObservationsExact(g: Graph, dels: seq<DeletionItem>, j: int, o: string)
    requires 0 <= j < |g.entities|
    ensures o in DeleteObservations(g, dels).entities[j].observations
            <==> o in g.entities[j].observations && Spares(g, dels, j, o)
    decreases |dels|
  {
    if dels != [] {
      var g1 := DeleteFrom(g, dels[0]);
      DeleteObservationsExact(g1, dels[1..], j, o);
      SparesCons(g, g1, dels, j, o);
    }
  }

  /** An item naming no entity is silently ignored. */
  lemma DeleteObservationsMissingIgnored(g: Graph, d: DeletionItem)
    requires LowerStr(d.entityName) !in Names(g.entities)
    ensures DeleteObservations(g, [d]) == g
  {
    assert [d][1..] == [];
  }
}

=== FILE: memory_graph.dfy ===
/** The records of the memory server's knowledge graph: named, typed entities
    carrying observations, and typed relations between entity names. */
module KnowledgeGraph {
  import opened Basics

  datatype Entity = Entity(name: string, entityType: string, observations: seq<string>)

  /** A relation is identified by its (from, to, relationType) triple, which
      is the whole record. */
  datatype Relation = Relation(from: string, to: string, relationType: string)

  datatype Graph = Graph(entities: seq<Entity>, relations: seq<Relation>)

  const EmptyGraph := Graph([], [])

  /** `{e.name for e in entities}`. */
  function Names(es: seq<Entity>): (r: set<string>)
    ensures forall i :: 0 <= i < |es| ==> es[i].name in r
    ensures forall n :: n in r ==> exists i :: 0 <= i < |es| && es[i].name == n
  {
    set i | 0 <= i < |es| :: es[i].name
  }

  /** The index of the first entity with the name, as the generator
      `next(e for e in entities if e.name == name)` finds it. */
  function FindEntity(es: seq<Entity>, name: string): (r: Option<nat>)
    ensures r.Some? ==> (r.value < |es| && es[r.value].name == name
                         && forall j :: 0 <= j < r.value ==> es[j].name != name)
    ensures r.None? <==> name !in Names(es)
    decreases |es|
  {
    if es == [] then None
    else if es[0].name == name then Some(0)
    else
      var r := FindEntity(es[1..], name);
      assert Names(es) == {es[0].name} + Names(es[1..]) by {
        forall n | n in Names(es) ensures n in {es[0].name} + Names(es[1..]) {
          var i :| 0 <= i < |es| && es[i].name == n;
          if i > 0 { assert es[1..][i - 1] == es[i]; }
        }
      }
      match r
      case None => None
      case Some(i) => Some(i + 1)
  }

  /** Two entity lists with the same names at the same positions. */
  predicate SameNames(a: seq<Entity>, b: seq<Entity>)
  {
    |a| == |b| && forall j :: 0 <= j < |a| ==> a[j].name == b[j].name
  }

  /** Lists with the same names have the same name set. */
  lemma SameNamesSet(a: seq<Entity>, b: seq<Entity>)
    requires SameNames(a, b)
    ensures Names(a) == Names(b)
  {
    forall n | n in Names(a) ensures n in Names(b) {
      var i :| 0 <= i < |a| && a[i].name == n;
      assert b[i].name == n;
    }
    forall n | n in Names(b) ensures n in Names(a) {
      var i :| 0 <= i < |b| && b[i].name == n;
      assert a[i].name == n;
    }
  }

  /** Lists with the same names have the same name set and find the same
      first entity for every name. */
  lemma {:induction false} SameNamesFind(a: seq<Entity>, b: seq<Entity>, name: string)
    requires SameNames(a, b)
    ensures Names(a) == Names(b)
    ensures FindEntity(a, name) == FindEntity(b, name)
    decreases |a|
  {
    SameNamesSet(a, b);
    if a != [] && a[0].name != name {
      assert SameNames(a[1..], b[1..]) by {
        forall j | 0 <= j < |a| - 1 ensures a[1..][j].name == b[1..][j].name {
          assert a[1..][j] == a[j + 1] && b[1..][j] == b[j + 1];
        }
      }
      SameNamesFind(a[1..], b[1..], name);
    }
  }

  /** Referential integrity: every relation joins two entity names of the
      graph. The server does not enforce it. */
  predicate Closed(g: Graph)
  {
    forall r :: r in g.relations ==> r.from in Names(g.entities) && r.to in Names(g.entities)
  }
}

=== FILE: memory_queries.dfy ===
/** The read-only queries of the memory server: keyword search and opening
    entities by name, each returning the selected entities together with the
    relations among them. */
module Queries {
  import opened Basics
  import opened Text
  import opened KnowledgeGraph

  /** The relations whose two endpoints are both among `names`, in stored
      order. */
  function Induced(rs: seq<Relation>, names: set<string>): (r: seq<Relation>)
    ensures forall x :: x in r <==> x in rs && x.from in names && x.to in names
  {
    Filter(rs, (x: Relation) => x.from in names && x.to in names)
  }

  /** Some observation contains `q` once lower-cased. */
  predicate AnyObservationMatches(obs: seq<string>, q: string)
  {
    exists i :: 0 <= i < |obs| && Contains(LowerStr(obs[i]), q)
  }

  /** The search condition for one entity, with `q` already lower-cased:
      its lower-cased name, type or some observation contains `q`. */
  predicate EntityMatches(e: Entity, q: string)
  {
    Contains(LowerStr(e.name), q) || Contains(LowerStr(e.entityType), q)
    || AnyObservationMatches(e.observations, q)
  }

  /** `search_nodes`: the entities matching the lower-cased query, in stored
      order, and the relations among their names. */
  function SearchNodes(g: Graph, query: string): (r: Graph)
    ensures forall e :: e in r.entities <==> e in g.entities && EntityMatches(e, LowerStr(query))
    ensures forall x :: x in r.relations <==>
                          (x in g.relations && x.from in Names(r.entities) && x.to in Names(r.entities))
  {
    var q := LowerStr(query);
    var es := Filter(g.entities, (e: Entity) => EntityMatches(e, q));
    Graph(es, Induced(g.relations, Names(es)))
  }

  /** `open_nodes`: the entities whose name is exactly one of `names`, in
      stored order (not request order), and the relations among them. */
  function OpenNodes(g: Graph, names: seq<string>): (r: Graph)
    ensures forall e :: e in r.entities <==> e in g.entities && e.name in names
    ensures forall x :: x in r.relations <==>
                          (x in g.relations && x.from in Names(r.entities) && x.to in Names(r.entities))
  {
    var es := Filter(g.entities, (e: Entity) => e.name in names);
    Graph(es, Induced(g.relations, Names(es)))
  }

  /** Both queries return a graph with referential integrity, whatever the
      stored graph. */
  lemma QueriesAreClosed(g: Graph, query: string, names: seq<string>)
    ensures Closed(SearchNodes(g, query))
    ensures Closed(OpenNodes(g, names))
  {
  }

  /** The queries return subsequences of what is stored. */
  lemma QueriesInOrder(g: Graph, query: string, names: seq<string>)
    ensures SubseqOf(SearchNodes(g, query).entities, g.entities)
    ensures SubseqOf(SearchNodes(g, query).relations, g.relations)
    ensures SubseqOf(OpenNodes(g, names).entities, g.entities)
    ensures SubseqOf(OpenNodes(g, names).relations, g.relations)
  {
    var q := LowerStr(query);
    var es := Filter(g.entities, (e: Entity) => EntityMatches(e, q));
    FilterIsSubseq(g.entities, (e: Entity) => EntityMatches(e, q));
    FilterIsSubseq(g.relations, (x: Relation) => x.from in Names(es) && x.to in Names(es));
    var os := Filter(g.entities, (e: Entity) => e.name in names);
    FilterIsSubseq(g.entities, (e: Entity) => e.name in names);
    FilterIsSubseq(g.relations, (x: Relation) => x.from in Names(os) && x.to in Names(os));
  }

  /** The search ignores ASCII case in the query: two queries with the same
      lower-case form give the same answer. */
  lemma SearchIgnoresQueryCase(g: Graph, q1: string, q2: string)
    requires LowerStr(q1) == LowerStr(q2)
    ensures SearchNodes(g, q1) == SearchNodes(g, q2)
  {
  }

  /** The empty query matches every entity of any graph, dangling relations
      or not; a graph with referential integrity is then returned whole. */
  lemma EmptyQueryReturnsAll(g: Graph)
    ensures SearchNodes(g, "").entities == g.entities
    ensures Closed(g) ==> SearchNodes(g, "") == g
  {
    forall i | 0 <= i < |g.entities| ensures EntityMatches(g.entities[i], "") {
      assert OccursAt(LowerStr(g.entities[i].name), "", 0);
    }
    FilterKeepsAll(g.entities, (e: Entity) => EntityMatches(e, ""));
    if Closed(g) {
      forall i | 0 <= i < |g.relations|
        ensures g.relations[i].from in Names(g.entities) && g.relations[i].to in Names(g.entities)
      {
        assert g.relations[i] in g.relations;
      }
      FilterKeepsAll(g.relations, (x: Relation) => x.from in Names(g.entities) && x.to in Names(g.entities));
    }
  }

  /** Opening every stored name returns a graph with referential integrity
      whole. */
  lemma OpenAllNamesReturnsAll(g: Graph, names: seq<string>)
    requires Closed(g)
    requires forall i :: 0 <= i < |g.entities| ==> g.entities[i].name in names
    ensures OpenNodes(g, names) == g
  {
    FilterKeepsAll(g.entities, (e: Entity) => e.name in names);
    forall i | 0 <= i < |g.relations|
      ensures g.relations[i].from in Names(g.entities) && g.relations[i].to in Names(g.entities)
    {
      assert g.relations[i] in g.relations;
    }
    FilterKeepsAll(g.relations, (x: Relation) => x.from in Names(g.entities) && x.to in Names(g.entities));
  }

  /** Unlike the search, opening compares names exactly: a name differing
      only in case opens nothing. */
  lemma OpenNodesIsCaseSensitive()
    ensures var g := Graph([Entity("Alice", "person", [])], []);
            OpenNodes(g, ["alice"]) == EmptyGraph
            && SearchNodes(g, "alice").entities == g.entities
  {
    var e := Entity("Alice", "person", []);
    var g := Graph([e], []);
    assert "Alice" != "alice" by { assert "Alice"[0] != "alice"[0]; }
    assert Filter([e], (x: Entity) => x.name in ["alice"]) == [];
    assert LowerStr("Alice") == "alice";
    assert OccursAt(LowerStr(e.name), LowerStr("alice"), 0);
    FilterKeepsAll([e], (x: Entity) => EntityMatches(x, LowerStr("alice")));
  }
}

=== FILE: memory_relations.dfy ===
/** The relation operations of the memory server, as pure updates of a graph
    that has already been read. */
module Relations {
  import opened Basics
  import opened KnowledgeGraph

  /** `create_relations`: append the requested relations whose triple is not
      already stored, and return them. The request is only checked against
      the relations present before it, and endpoints are not checked at all. */
  function CreateRelations(g: Graph, req: seq<Relation>): (r: (Graph, seq<Relation>))
    ensures r.0.entities == g.entities
    ensures r.0.relations == g.relations + r.1
    ensures forall x :: x in r.1 <==> x in req && x !in g.relations
  {
    var created := Filter(req, (x: Relation) => x !in g.relations);
    (Graph(g.entities, g.relations + created), created)
  }

  /** The created relations keep request order. */
  lemma CreateRelationsInOrder(g: Graph, req: seq<Relation>)
    ensures SubseqOf(CreateRelations(g, req).1, req)
  {
    FilterIsSubseq(req, (x: Relation) => x !in g.relations);
  }

  /** A new triple requested twice in one request is stored twice. */
  lemma CreateRelationsKeepsRequestDuplicates(g: Graph, x: Relation)
    requires x !in g.relations
    ensures CreateRelations(g, [x, x]).1 == [x, x]
    ensures CreateRelations(g, [x, x]).0.relations == g.relations + [x, x]
  {
    FilterKeepsAll([x, x], (y: Relation) => y !in g.relations);
  }

  /** Repeating a creation creates nothing the second time. */
  lemma CreateRelationsTwice(g: Graph, req: seq<Relation>)
    ensures var g1 := CreateRelations(g, req).0;
            CreateRelations(g1, req) == (g1, [])
  {
    var (g1, created) := CreateRelations(g, req);
    forall k | 0 <= k < |req| ensures req[k] in g1.relations {
      if req[k] !in g.relations {
        assert req[k] in created;
      }
    }
    FilterKeepsNone(req, (x: Relation) => x !in g1.relations);
    assert g1.relations + [] == g1.relations;
  }

  /** A relation may name entities that do not exist: creating one in the
      empty graph succeeds and leaves a graph without referential integrity. */
  lemma CreateRelationsAllowsDangling()
    ensures var x := Relation("a", "b", "knows");
            CreateRelations(EmptyGraph, [x]) == (Graph([], [x]), [x])
            && !Closed(CreateRelations(EmptyGraph, [x]).0)
  {
    var x := Relation("a", "b", "knows");
    FilterKeepsAll([x], (y: Relation) => y !in EmptyGraph.relations);
    assert EmptyGraph.relations + [x] == [x];
    var g1 := Graph([], [x]);
    assert x in g1.relations && x.from !in Names(g1.entities);
  }

  /** `delete_relations`: drop every stored relation whose triple is in the
      request; the rest keeps its order. */
  function DeleteRelations(g: Graph, req: seq<Relation>): (r: Graph)
    ensures r.entities == g.entities
    ensures forall x :: x in r.relations <==> x in g.relations && x !in req
  {
    Graph(g.entities, Filter(g.relations, (x: Relation) => x !in req))
  }

  /** What `delete_relations` keeps is a subsequence of what was stored. */
  lemma DeleteRelationsInOrder(g: Graph, req: seq<Relation>)
    ensures SubseqOf(DeleteRelations(g, req).relations, g.relations)
  {
    FilterIsSubseq(g.relations, (x: Relation) => x !in req);
  }

  /** Deleting the same relations again changes nothing. */
  lemma DeleteRelationsIdempotent(g: Graph, req: seq<Relation>)
    ensures DeleteRelations(DeleteRelations(g, req), req) == DeleteRelations(g, req)
  {
    FilterIdempotent(g.relations, (x: Relation) => x !in req);
  }

  /** Deleting what was just created leaves what deleting alone would:
      creation followed by deletion of the same request undoes the creation
      and removes any stored copies as well. */
  lemma DeleteAfterCreate(g: Graph, req: seq<Relation>)
    ensures DeleteRelations(CreateRelations(g, req).0, req) == DeleteRelations(g, req)
  {
    var created := CreateRelations(g, req).1;
    var keep := (x: Relation) => x !in req;
    FilterAppend(g.relations, created, keep);
    forall k | 0 <= k < |created| ensures !keep(created[k]) {
      assert created[k] in created;
    }
    FilterKeepsNone(created, keep);
    assert Filter(g.relations, keep) + [] == Filter(g.relations, keep);
  }

  /** Deleting relations keeps referential integrity. */
  lemma DeleteRelationsKeepsClosed(g: Graph, req: seq<Relation>)
    requires Closed(g)
    ensures Closed(DeleteRelations(g, req))
  {
  }
}

=== FILE: memory_server.dfy ===
/** The memory server's endpoints: each one reads the store, computes on
    the graph and, when it changes the graph, saves it back whole. An
    endpoint returns its reply (or error) together with the store as it is
    afterwards. */
module MemoryServer {
  import opened Basics
  import opened KnowledgeGraph
  import opened GraphStorage
  import opened Entities
  import opened Relations
  import opened Queries

  /** Why an endpoint fails: reading the store raised (an unhandled
      exception, so a 500), or `add_observations` met an unknown entity. */
  datatype MemoryError = StorageFailed | EntityNotFound(name: string)

  function MemoryStatus(e: MemoryError): (code: int)
    ensures e.StorageFailed? ==> code == 500
    ensures e.EntityNotFound? ==> code == 404
  {
    match e
    case StorageFailed => 500
    case EntityNotFound(_) => 404
  }

  /** The `detail` of the 404 raised by `add_observations`: it quotes the
      lower-cased name it looked up, between fixed words. */
  function NotFoundDetail(name: string): (d: string)
    ensures |d| == |name| + 17
    ensures d[..7] == "Entity " && d[7..7 + |name|] == name && d[7 + |name|..] == " not found"
  {
    "Entity " + name + " not found"
  }

  datatype Reply =
    | CreatedEntities(entities: seq<Entity>)
    | AddedReport(reports: seq<Added>)
    | CreatedRelations(relations: seq<Relation>)
    | Message(message: string)
    | GraphReply(graph: Graph)

  const EntitiesDeleted := "Entities deleted successfully"
  const ObservationsDeleted := "Observations deleted successfully"
  const RelationsDeleted := "Relations deleted successfully"

  /** `create_entities` as an endpoint. */
  function CreateEntitiesEndpoint(f: MemoryFile, req: seq<Entity>): (r: (Result<Reply, MemoryError>, MemoryFile))
    ensures Read(f).Err? ==> r == (Err(StorageFailed), f)
    ensures Read(f).Ok? ==> var (g1, created) := CreateEntities(Read(f).value, req);
                            r.0 == Ok(CreatedEntities(created)) && r.1 == Save(g1) && Read(r.1) == Ok(g1)
  {
    match Read(f)
    case Err(_) => (Err(StorageFailed), f)
    case Ok(g) =>
      var (g1, created) := CreateEntities(g, req);
      ReadAfterSave(g1);
      (Ok(CreatedEntities(created)), Save(g1))
  }

  /** `add_observations` as an endpoint: the graph is saved only when every
      item found its entity. */
  function AddObservationsEndpoint(f: MemoryFile, items: seq<ObservationItem>): (r: (Result<Reply, MemoryError>, MemoryFile))
    ensures Read(f).Err? ==> r == (Err(StorageFailed), f)
    ensures r.0.Err? ==> r.1 == f
    ensures r.0.Ok? ==> Read(f).Ok? && AddObservations(Read(f).value, items).Ok?
                        && r.1 == Save(AddObservations(Read(f).value, items).value.0)
                        && r.0.value == AddedReport(AddObservations(Read(f).value, items).value.1)
    ensures Read(f).Ok? && AddObservations(Read(f).value, items).Ok? ==> r.0.Ok?
    ensures Read(f).Ok? && AddObservations(Read(f).value, items).Err? ==>
              r == (Err(EntityNotFound(AddObservations(Read(f).value, items).error)), f)
  {
    match Read(f)
    case Err(_) => (Err(StorageFailed), f)
    case Ok(g) =>
      match AddObservations(g, items)
      case Err(name) => (Err(EntityNotFound(name)), f)
      case Ok((g1, reports)) => (Ok(AddedReport(reports)), Save(g1))
  }

  /** `delete_entities` as an endpoint. */
  function DeleteEntitiesEndpoint(f: MemoryFile, names: seq<string>): (r: (Result<Reply, MemoryError>, MemoryFile))
    ensures Read(f).Err? ==> r == (Err(StorageFailed), f)
    ensures Read(f).Ok? ==> r.0 == Ok(Message(EntitiesDeleted)) && r.1 == Save(DeleteEntities(Read(f).value, names))
                            && Read(r.1) == Ok(DeleteEntities(Read(f).value, names))
  {
    match Read(f)
    case Err(_) => (Err(StorageFailed), f)
    case Ok(g) =>
      ReadAfterSave(DeleteEntities(g, names));
      (Ok(Message(EntitiesDeleted)), Save(DeleteEntities(g, names)))
  }

  /** `delete_observations` as an endpoint. */
  function DeleteObservationsEndpoint(f: MemoryFile, dels: seq<DeletionItem>): (r: (Result<Reply, MemoryError>, MemoryFile))
    ensures Read(f).Err? ==> r == (Err(StorageFailed), f)
    ensures Read(f).Ok? ==> r.0 == Ok(Message(ObservationsDeleted)) && r.1 == Save(DeleteObservations(Read(f).value, dels))
                            && Read(r.1) == Ok(DeleteObservations(Read(f).value, dels))
  {
    match Read(f)
    case Err(_) => (Err(StorageFailed), f)
    case Ok(g) =>
      ReadAfterSave(DeleteObservations(g, dels));
      (Ok(Message(ObservationsDeleted)), Save(DeleteObservations(g, dels)))
  }

  /** `create_relations` as an endpoint. */
  function CreateRelationsEndpoint(f: MemoryFile, req: seq<Relation>): (r: (Result<Reply, MemoryError>, MemoryFile))
    ensures Read(f).Err? ==> r == (Err(StorageFailed), f)
    ensures Read(f).Ok? ==> var (g1, created) := CreateRelations(Read(f).value, req);
                            r.0 == Ok(CreatedRelations(created)) && r.1 == Save(g1) && Read(r.1) == Ok(g1)
  {
    match Read(f)
    case Err(_) => (Err(StorageFailed), f)
    case Ok(g) =>
      var (g1, created) := CreateRelations(g, req);
      ReadAfterSave(g1);
      (Ok(CreatedRelations(created)), Save(g1))
  }

  /** `delete_relations` as an endpoint. */
  function DeleteRelationsEndpoint(f: MemoryFile, req: seq<Relation>): (r: (Result<Reply, MemoryError>, MemoryFile))
    ensures Read(f).Err? ==> r == (Err(StorageFailed), f)
    ensures Read(f).Ok? ==> r.0 == Ok(Message(RelationsDeleted)) && r.1 == Save(DeleteRelations(Read(f).value, req))
                            && Read(r.1) == Ok(DeleteRelations(Read(f).value, req))
  {
    match Read(f)
    case Err(_) => (Err(StorageFailed), f)
    case Ok(g) =>
      ReadAfterSave(DeleteRelations(g, req));
      (Ok(Message(RelationsDeleted)), Save(DeleteRelations(g, req)))
  }

  /** `read_graph`: the stored graph as read. */
  function ReadGraphEndpoint(f: MemoryFile): (r: Result<Reply, MemoryError>)
    ensures r.Ok? <==> Read(f).Ok?
    ensures r.Ok? ==> r.value == GraphReply(Read(f).value)
  {
    match Read(f)
    case Err(_) => Err(StorageFailed)
    case Ok(g) => Ok(GraphReply(g))
  }

  /** `search_nodes` as an endpoint; it never writes. */
  function SearchNodesEndpoint(f: MemoryFile, query: string): (r: Result<Reply, MemoryError>)
    ensures r.Ok? <==> Read(f).Ok?
    ensures r.Ok? ==> r.value == GraphReply(SearchNodes(Read(f).value, query))
  {
    match Read(f)
    case Err(_) => Err(StorageFailed)
    case Ok(g) => Ok(GraphReply(SearchNodes(g, query)))
  }

  /** `open_nodes` as an endpoint; it never writes. */
  function OpenNodesEndpoint(f: MemoryFile, names: seq<string>): (r: Result<Reply, MemoryError>)
    ensures r.Ok? <==> Read(f).Ok?
    ensures r.Ok? ==> r.value == GraphReply(OpenNodes(Read(f).value, names))
  {
    match Read(f)
    case Err(_) => Err(StorageFailed)
    case Ok(g) => Ok(GraphReply(OpenNodes(g, names)))
  }

  /** `add_observations` fails with the first item that names no entity,
      after a good read, and then leaves the store as it was. */
  lemma AddObservationsEndpointOutcome(f: MemoryFile, items: seq<ObservationItem>)
    requires Read(f).Ok?
    ensures var g := Read(f).value;
            var r := AddObservationsEndpoint(f, items);
            match FirstMissing(Names(g.entities), items)
            case Some(k) => && r == (Err(EntityNotFound(Text.LowerStr(items[k].entityName))), f)
                            && MemoryStatus(r.0.error) == 404
                            && NotFoundDetail(r.0.error.name)[7..7 + |items[k].entityName|]
                               == Text.LowerStr(items[k].entityName)
            case None => r.0.Ok? && Read(r.1) == Ok(AddObservations(g, items).value.0)
  {
    var g := Read(f).value;
    AddObservationsFailure(g, items);
    match AddObservations(g, items)
    case Err(_) =>
    case Ok((g1, _)) => ReadAfterSave(g1);
  }

  /** Writing normalises the store: whatever the request, every write
      endpoint replaces a file holding blank lines or records with unknown
      tags by exactly the records of the updated graph, and a missing file
      by an existing one. */
  lemma WriteRewritesWholeFile(a: seq<Line>, l: Line, b: seq<Line>, ents: seq<Entity>,
                               items: seq<ObservationItem>, names: seq<string>,
                               dels: seq<DeletionItem>, rels: seq<Relation>)
    requires l.Blank? || l.OtherLine?
    requires ReadLines(a + b).Ok?
    ensures var f := Present(a + [l] + b);
            var g := ReadLines(a + b).value;
            && CreateEntitiesEndpoint(f, ents).1 == Save(CreateEntities(g, ents).0)
            && (AddObservations(g, items).Ok? ==>
                  AddObservationsEndpoint(f, items).1 == Save(AddObservations(g, items).value.0))
            && DeleteEntitiesEndpoint(f, names).1 == Save(DeleteEntities(g, names))
            && DeleteObservationsEndpoint(f, dels).1 == Save(DeleteObservations(g, dels))
            && CreateRelationsEndpoint(f, rels).1 == Save(CreateRelations(g, rels).0)
            && DeleteRelationsEndpoint(f, rels).1 == Save(DeleteRelations(g, rels))
    ensures CreateEntitiesEndpoint(Absent, []).1 == Present([])
  {
    SkippedLinesIgnored(a, l, b);
    var f := Present(a + [l] + b);
    var g := ReadLines(a + b).value;
    AddObservationsFailure(g, items);
    AddObservationsEndpointOutcome(f, items);
    assert Filter([], (e: Entity) => e.name !in Names([])) == [];
  }

  /** An entity stored with a capital letter in its name can never receive
      observations: the lookup lower-cases the request but not the stored
      names. */
  lemma CapitalisedEntityUnreachable()
    ensures var f := Save(Graph([Entity("Alice", "person", [])], []));
            AddObservationsEndpoint(f, [ObservationItem("Alice", ["likes tea"])])
              == (Err(EntityNotFound("alice")), f)
  {
    var g := Graph([Entity("Alice", "person", [])], []);
    ReadAfterSave(g);
    assert Text.LowerStr("Alice") == "alice";
    assert "Alice" != "alice" by { assert "Alice"[0] != "alice"[0]; }
    assert "alice" !in Names(g.entities);
  }
}

=== FILE: memory_storage.dfy ===
/** The memory server's JSON-lines store, at record level: the file is absent
    or holds a sequence of lines, each already decoded into what reading it
    would find. JSON text itself is not modelled. */
module GraphStorage {
  import opened Basics
  import opened KnowledgeGraph

  /** One line of the file as `read_graph_file` sees it: blank (only
      whitespace), an object tagged "entity" or "relation", an object with
      some other `type`, or a line whose parsing or field access raises. */
  datatype Line =
    | Blank
    | EntityLine(entity: Entity)
    | RelationLine(relation: Relation)
    | OtherLine(tag: string)
    | Undecodable

  datatype MemoryFile = Absent | Present(lines: seq<Line>)

  /** Reading raised: a line did not parse or lacked a field. */
  datatype StorageFailure = CorruptRecord

  /** The lines of a list of entities, one record each. */
  function EntityLines(es: seq<Entity>): (r: seq<Line>)
    ensures |r| == |es| && forall i :: 0 <= i < |es| ==> r[i] == EntityLine(es[i])
  {
    if es == [] then [] else [EntityLine(es[0])] + EntityLines(es[1..])
  }

  /** The lines of a list of relations, one record each. */
  function RelationLines(rs: seq<Relation>): (r: seq<Line>)
    ensures |r| == |rs| && forall i :: 0 <= i < |rs| ==> r[i] == RelationLine(rs[i])
  {
    if rs == [] then [] else [RelationLine(rs[0])] + RelationLines(rs[1..])
  }

  /** `save_graph`: every entity record, then every relation record. The
      empty graph is written as an empty file, which still exists. */
  function Save(g: Graph): (f: MemoryFile)
    ensures f.Present? && |f.lines| == |g.entities| + |g.relations|
    ensures forall i :: 0 <= i < |g.entities| ==> f.lines[i] == EntityLine(g.entities[i])
    ensures forall i :: 0 <= i < |g.relations| ==> f.lines[|g.entities| + i] == RelationLine(g.relations[i])
  {
    Present(EntityLines(g.entities) + RelationLines(g.relations))
  }

  /** The loop of `read_graph_file` over the lines, routing each record to
      its list by tag; blank lines and unknown tags are skipped. */
  function ReadLines(lines: seq<Line>): (r: Result<Graph, StorageFailure>)
    ensures r.Ok? <==> forall i :: 0 <= i < |lines| ==> !lines[i].Undecodable?
    ensures r.Ok? ==> forall e :: e in r.value.entities <==> EntityLine(e) in lines
    ensures r.Ok? ==> forall x :: x in r.value.relations <==> RelationLine(x) in lines
    decreases |lines|
  {
    if lines == [] then Ok(EmptyGraph)
    else
      var rest := ReadLines(lines[1..]);
      assert forall i :: 1 <= i < |lines| ==> lines[i] == lines[1..][i - 1];
      assert forall l :: l in lines <==> l == lines[0] || l in lines[1..];
      if lines[0].Undecodable? then Err(CorruptRecord)
      else match rest
        case Err(e) => Err(e)
        case Ok(g) =>
          match lines[0]
          case EntityLine(e) => Ok(Graph([e] + g.entities, g.relations))
          case RelationLine(x) => Ok(Graph(g.entities, [x] + g.relations))
          case _ => Ok(g)
  }

  /** `read_graph_file`: a missing file is the empty graph. */
  function Read(f: MemoryFile): (r: Result<Graph, StorageFailure>)
    ensures f.Absent? ==> r == Ok(EmptyGraph)
  {
    match f
    case Absent => Ok(EmptyGraph)
    case Present(lines) => ReadLines(lines)
  }

  /** Reading two runs of lines one after the other keeps each kind in file
      order: entities of the first run before those of the second, and
      likewise for relations. */
  lemma {:induction false} ReadLinesAppend(a: seq<Line>, b: seq<Line>)
    ensures ReadLines(a + b)
         == match ReadLines(a)
            case Err(e) => Err(e)
            case Ok(ga) =>
              match ReadLines(b)
              case Err(e) => Err(e)
              case Ok(gb) => Ok(Graph(ga.entities + gb.entities, ga.relations + gb.relations))
    decreases |a|
  {
    if a == [] {
      assert a + b == b;
      match ReadLines(b)
      case Err(_) =>
      case Ok(gb) => assert [] + gb.entities == gb.entities && [] + gb.relations == gb.relations;
    } else {
      assert (a + b)[0] == a[0];
      assert (a + b)[1..] == a[1..] + b;
      ReadLinesAppend(a[1..], b);
      match ReadLines(a[1..])
      case Err(_) =>
      case Ok(g1) =>
        match ReadLines(b)
        case Err(_) =>
        case Ok(gb) =>
          match a[0]
          case EntityLine(e) =>
            assert [e] + (g1.entities + gb.entities) == ([e] + g1.entities) + gb.entities;
          case RelationLine(x) =>
            assert [x] + (g1.relations + gb.relations) == ([x] + g1.relations) + gb.relations;
          case _ =>
    }
  }

  /** A record line in front adds its record in front of its kind. */
  lemma ReadLinesHead(lines: seq<Line>, g: Graph)
    requires |lines| > 0 && (lines[0].EntityLine? || lines[0].RelationLine?)
    requires ReadLines(lines[1..]) == Ok(g)
    ensures lines[0].EntityLine? ==> ReadLines(lines) == Ok(Graph([lines[0].entity] + g.entities, g.relations))
    ensures lines[0].RelationLine? ==> ReadLines(lines) == Ok(Graph(g.entities, [lines[0].relation] + g.relations))
  {
  }

  /** Entity records alone read back as exactly those entities. */
  lemma {:induction false} ReadEntityLines(es: seq<Entity>)
    ensures ReadLines(EntityLines(es)) == Ok(Graph(es, []))
    decreases |es|
  {
    if es != [] {
      var lines := EntityLines(es);
      ReadEntityLines(es[1..]);
      assert lines[1..] == EntityLines(es[1..]);
      ReadLinesHead(lines, Graph(es[1..], []));
      assert [es[0]] + es[1..] == es;
    }
  }

  /** Relation records alone read back as exactly those relations. */
  lemma {:induction false} ReadRelationLines(rs: seq<Relation>)
    ensures ReadLines(RelationLines(rs)) == Ok(Graph([], rs))
    decreases |rs|
  {
    if rs != [] {
      var lines := RelationLines(rs);
      ReadRelationLines(rs[1..]);
      assert lines[1..] == RelationLines(rs[1..]);
      ReadLinesHead(lines, Graph([], rs[1..]));
      assert [rs[0]] + rs[1..] == rs;
    }
  }

  /** Record-level round trip: reading what was saved gives back the same
      entities and relations in the same order. */
  lemma ReadAfterSave(g: Graph)
    ensures Read(Save(g)) == Ok(g)
  {
    ReadLinesAppend(EntityLines(g.entities), RelationLines(g.relations));
    ReadEntityLines(g.entities);
    ReadRelationLines(g.relations);
    assert g.entities + [] == g.entities && [] + g.relations == g.relations;
  }

  /** The empty graph is saved as a file with no lines, and that file reads
      back as the empty graph, just like a missing file. */
  lemma EmptyGraphRoundTrip()
    ensures Save(EmptyGraph) == Present([])
    ensures Read(Present([])) == Read(Absent) == Ok(EmptyGraph)
  {
  }

  /** Blank lines and records with an unknown tag change nothing anywhere in
      the file. */
  lemma SkippedLinesIgnored(a: seq<Line>, l: Line, b: seq<Line>)
    requires l.Blank? || l.OtherLine?
    ensures ReadLines(a + [l] + b) == ReadLines(a + b)
  {
    ReadLinesAppend(a + [l], b);
    ReadLinesAppend(a, [l]);
    ReadLinesAppend(a, b);
    assert ReadLines([l]) == Ok(EmptyGraph) by { assert [l][1..] == []; }
    match ReadLines(a)
    case Err(_) =>
    case Ok(ga) => assert ga.entities + [] == ga.entities && ga.relations + [] == ga.relations;
  }

  /** A single corrupt line makes the whole read fail. */
  lemma CorruptLineFailsRead(a: seq<Line>, b: seq<Line>)
    ensures ReadLines(a + [Undecodable] + b).Err?
  {
    assert (a + [Undecodable] + b)[|a|] == Undecodable;
  }
}

=== FILE: path_guard.dfy ===
/** The path gate of the filesystem server: every request path is resolved and
    accepted only when its lower-cased string starts with the lower-cased
    string of some allowed directory. */
module PathGuard {
  import opened Basics
  import opened Text
  import opened FsTree

  const AccessDeniedError := "Access Denied"
  const OutsideAllowedMessage := "Requested path is outside allowed directories."

  /** The server's configuration together with the host's resolver, which
      expands "~" and resolves the path against the live filesystem
      (`Path(os.path.expanduser(p)).resolve()`); the resolver is opaque. */
  datatype Env = Env(allowed: seq<string>, resolve: string -> Path)

  /** The body of the 403 denial. */
  datatype Denial = Denial(error: string, requestedPath: string, message: string,
                           allowedDirectories: seq<string>)

  /** One allowed directory admits a resolved path string. The comparison is
      a plain string prefix test, not a path-component test. */
  predicate RootAdmits(root: string, resolved: string)
  {
    LowerStr(root) <= LowerStr(resolved)
  }

  /** The loop over the allowed directories: does any of them admit the path? */
  function Admits(roots: seq<string>, resolved: string): (b: bool)
    ensures b <==> exists i :: 0 <= i < |roots| && RootAdmits(roots[i], resolved)
  {
    if roots == [] then false
    else if RootAdmits(roots[0], resolved) then true
    else
      var b := Admits(roots[1..], resolved);
      assert b ==> exists i :: 0 <= i < |roots| && RootAdmits(roots[i], resolved) by {
        if b {
          var i :| 0 <= i < |roots[1..]| && RootAdmits(roots[1..][i], resolved);
          assert roots[i + 1] == roots[1..][i];
        }
      }
      assert (exists i :: 0 <= i < |roots| && RootAdmits(roots[i], resolved)) ==> b by {
        if exists i :: 0 <= i < |roots| && RootAdmits(roots[i], resolved) {
          var i :| 0 <= i < |roots| && RootAdmits(roots[i], resolved);
          assert i != 0;
          assert roots[1..][i - 1] == roots[i];
        }
      }
      b
  }

  /** `normalize_path`: the resolved path itself when admitted, otherwise a
      denial that carries the resolved path string and the whole allow-list. */
  function NormalizePath(env: Env, requested: string): (r: Result<Path, Denial>)
    ensures r.Ok? <==> exists i :: 0 <= i < |env.allowed|
                                 && LowerStr(env.allowed[i]) <= LowerStr(PathString(env.resolve(requested)))
    ensures r.Ok? ==> r.value == env.resolve(requested)
    ensures r.Err? ==> r.error == Denial(AccessDeniedError, PathString(env.resolve(requested)),
                                         OutsideAllowedMessage, env.allowed)
  {
    var resolved := env.resolve(requested);
    if Admits(env.allowed, PathString(resolved)) then Ok(resolved)
    else Err(Denial(AccessDeniedError, PathString(resolved), OutsideAllowedMessage, env.allowed))
  }

  /** With no allowed directories every path is denied. */
  lemma EmptyAllowListDeniesAll(env: Env, requested: string)
    requires env.allowed == []
    ensures NormalizePath(env, requested).Err?
  {
  }

  /** The verdict depends only on the lower-cased resolved string, so two
      requests that resolve to case variants of one path are treated alike. */
  lemma CaseVariantsSameVerdict(env: Env, r1: string, r2: string)
    requires LowerStr(PathString(env.resolve(r1))) == LowerStr(PathString(env.resolve(r2)))
    ensures NormalizePath(env, r1).Ok? == NormalizePath(env, r2).Ok?
  {
  }

  /** The prefix test ignores component boundaries: the root "/data" admits
      "/database/x". */
  lemma PrefixIgnoresComponentBoundary(env: Env, requested: string)
    requires env.allowed == ["/data"]
    requires env.resolve(requested) == ["database", "x"]
    ensures NormalizePath(env, requested) == Ok(["database", "x"])
  {
    var s := PathString(["database", "x"]);
    assert s == "/database/x" by {
      assert ["database", "x"][1..] == ["x"];
      assert ["x"][1..] == [];
    }
    LowerStrNoUpper("/data");
    LowerStrNoUpper(s);
    assert "/data" <= s;
    assert RootAdmits(env.allowed[0], s);
  }
}

=== FILE: path_ops.dfy ===
/** `delete_path` and `move_path` of the filesystem server. A delete request
    without a token only mints a confirmation token; a request that carries a
    valid token for the same path string and recursive flag consumes it and
    then deletes. The store is the confirmation file, the filesystem is the
    abstract tree; clock readings, the random bytes and whether the store file
    can be written are supplied by the host. */
module PathOps {
  import opened Basics
  import opened FsTree
  import opened PathGuard
  import opened Confirmations

  /** The request body of `delete_path`. */
  datatype DeleteRequest = DeleteRequest(path: string, recursive: bool, confirmationToken: Option<string>)

  /** What the host supplies to one request: the clock as `load_confirmations`
      reads it, the clock as `delete_path` reads it a moment later, the three
      random bytes, and how writing the confirmation file goes. */
  datatype Host = Host(loadTime: int, requestTime: int, entropy: Entropy, storeWrite: WriteOutcome)

  /** The persistent state a request sees and leaves behind. */
  datatype World = World(store: Snapshot, fs: Node)

  /** Which deletion branch ran. */
  datatype Removed = RemovedFile | RemovedTree | RemovedEmptyDir

  /** The two success shapes of `delete_path`. */
  datatype DeleteReply =
    | ConfirmationRequired(message: string, confirmationToken: string, expiresAt: int)
    | Deleted(message: string, what: Removed)

  /** Why the deletion itself failed once the token was consumed.
      `RootDirectory` is the recursive delete of "/": `rmtree` removes every
      entry below it and then fails to remove the root itself. */
  datatype ExecFailure = TargetMissing | DirectoryNotEmpty | NotFileOrDirectory | RootDirectory

  /** The error responses of `delete_path`. */
  datatype DeleteError =
    | AccessDenied(denial: Denial)
    | InvalidToken
    | TokenExpired
    | ParameterMismatch
    | PathNotFound
    | DeletionFailed(cause: ExecFailure)

  /** The HTTP status of each error. Failures raised inside the deletion's
      `try` block, including the 404 and 400 ones, are caught again by its
      `except Exception` clause and surface as 500. */
  function DeleteStatus(e: DeleteError): (code: int)
    ensures code == 500 <==> e.DeletionFailed?
    ensures code == 400 <==> e.InvalidToken? || e.TokenExpired? || e.ParameterMismatch?
    ensures code == 403 <==> e.AccessDenied?
    ensures code == 404 <==> e.PathNotFound?
  {
    match e
    case AccessDenied(_) => 403
    case InvalidToken => 400
    case TokenExpired => 400
    case ParameterMismatch => 400
    case PathNotFound => 404
    case DeletionFailed(_) => 500
  }

  /** A token counts as supplied only when it is a non-empty string: the
      truthiness test of an optional string, under which `None` and `""` both
      fall through to the first-call branch. */
  predicate TokenGiven(t: Option<string>): (b: bool)
    ensures b <==> t.Some? && |t.value| > 0
  {
    t.Some? && t.value != ""
  }

  /** The deletion step, dispatching on what the path denotes; it returns
      the outcome and the filesystem afterwards. Removing the root directory
      itself always fails: `rmdir` of "/" raises, and `rmtree` of "/" first
      empties it. */
  function Execute(fs: Node, p: Path, recursive: bool): (r: (Result<Removed, ExecFailure>, Node))
    ensures Lookup(fs, p).None? ==> r == (Err(TargetMissing), fs)
    ensures r.0.Ok? <==> p != [] && Lookup(fs, p).Some?
                         && (Lookup(fs, p).value.File?
                             || (Lookup(fs, p).value.Dir? && (recursive || Lookup(fs, p).value.children == [])))
    ensures r.0.Ok? ==> r.1 == ReplaceAt(fs, p, None)
    ensures r.0.Ok? ==> (r.0.value == RemovedFile <==> Lookup(fs, p).value.File?)
    ensures r.0.Ok? ==> (r.0.value == RemovedTree <==> Lookup(fs, p).value.Dir? && recursive)
    ensures Lookup(fs, p).Some? && Lookup(fs, p).value.Dir? && !recursive
            && (Lookup(fs, p).value.children != [] || p == [])
            ==> r == (Err(DirectoryNotEmpty), fs)
    ensures Lookup(fs, p).Some? && Lookup(fs, p).value.Special? ==> r == (Err(NotFileOrDirectory), fs)
    ensures p == [] && fs.Dir? && recursive ==> r == (Err(RootDirectory), Dir(fs.name, []))
    ensures r.0.Err? && !(p == [] && fs.Dir? && recursive) ==> r.1 == fs
  {
    match Lookup(fs, p)
    case None => (Err(TargetMissing), fs)
    case Some(n) =>
      match n
      case File(_, _) => if p == [] then (Err(RootDirectory), fs) else (Ok(RemovedFile), ReplaceAt(fs, p, None))
      case Dir(name, cs) =>
        if !recursive && (cs != [] || p == []) then (Err(DirectoryNotEmpty), fs)
        else if p == [] then (Err(RootDirectory), Dir(name, []))
        else (Ok(if recursive then RemovedTree else RemovedEmptyDir), ReplaceAt(fs, p, None))
      case Special(_) => (Err(NotFileOrDirectory), fs)
  }

  /** A recursive delete of the root leaves it in place with nothing below
      it, and reports a failure. */
  lemma RootDeleteEmptiesRoot(fs: Node, q: Path)
    requires fs.Dir? && q != []
    ensures Execute(fs, [], true).0 == Err(RootDirectory)
    ensures Lookup(Execute(fs, [], true).1, []) == Some(Dir(fs.name, []))
    ensures Lookup(Execute(fs, [], true).1, q) == None
  {
  }

  /** The success message of each deletion branch. */
  function DeletedMessage(what: Removed, path: string): string
  {
    match what
    case RemovedFile => "Successfully deleted file: " + path
    case RemovedTree => "Successfully deleted directory recursively: " + path
    case RemovedEmptyDir => "Successfully deleted empty directory: " + path
  }

  /** The message that accompanies a freshly minted token. */
  function ConfirmMessage(path: string, token: string): string
  {
    "`Confirm deletion of file: " + path + " with token " + token + "`"
  }

  /** `delete_path`. The store is loaded first (pruning only in memory), then
      the path goes through the gate, and only then is a token looked at or
      the store written. */
  function DeletePath(env: Env, w: World, req: DeleteRequest, h: Host): (r: (Result<DeleteReply, DeleteError>, World))
    ensures NormalizePath(env, req.path).Err? ==> r == (Err(AccessDenied(NormalizePath(env, req.path).error)), w)
    ensures r.1.fs != w.fs ==>
              && TokenGiven(req.confirmationToken)
              && req.confirmationToken.value in Load(w.store, h.loadTime)
              && var e := Load(w.store, h.loadTime)[req.confirmationToken.value];
                 e.path == req.path && e.recursive == req.recursive && h.requestTime <= e.expiry
    ensures r.0.Ok? && r.0.value.ConfirmationRequired? ==>
              && !TokenGiven(req.confirmationToken) && r.1.fs == w.fs
              && r.0.value.expiresAt == h.requestTime + ConfirmationTtlSeconds
    ensures r.0.Ok? && r.0.value.Deleted? ==> TokenGiven(req.confirmationToken)
  {
    var pending := Load(w.store, h.loadTime);
    match NormalizePath(env, req.path)
    case Err(d) => (Err(AccessDenied(d)), w)
    case Ok(p) =>
      if TokenGiven(req.confirmationToken) then
        var t := req.confirmationToken.value;
        if t !in pending then (Err(InvalidToken), w)
        else if h.requestTime > pending[t].expiry then
          (Err(TokenExpired), w.(store := Save(pending - {t}, w.store, h.storeWrite)))
        else if pending[t].path != req.path || pending[t].recursive != req.recursive then
          (Err(ParameterMismatch), w)
        else
          var store := Save(pending - {t}, w.store, h.storeWrite);
          var (outcome, fs) := Execute(w.fs, p, req.recursive);
          match outcome
          case Err(c) => (Err(DeletionFailed(c)), World(store, fs))
          case Ok(what) => (Ok(Deleted(DeletedMessage(what, req.path), what)), World(store, fs))
      else if Lookup(w.fs, p).None? then (Err(PathNotFound), w)
      else
        var t := NewToken(h.entropy);
        var expiry := h.requestTime + ConfirmationTtlSeconds;
        var store := Save(pending[t := Pending(req.path, req.recursive, expiry)], w.store, h.storeWrite);
        (Ok(ConfirmationRequired(ConfirmMessage(req.path, t), t, expiry)), World(store, w.fs))
  }

  /** A denied path is answered with the gate's denial before the store or
      the filesystem is touched. */
  lemma DeleteDeniedFirst(env: Env, w: World, req: DeleteRequest, h: Host)
    requires NormalizePath(env, req.path).Err?
    ensures DeletePath(env, w, req, h) == (Err(AccessDenied(NormalizePath(env, req.path).error)), w)
  {
  }

  /** Without a token, a missing path is a 404 and nothing is stored. */
  lemma IssueMissingPath(env: Env, w: World, req: DeleteRequest, h: Host)
    requires NormalizePath(env, req.path).Ok?
    requires !TokenGiven(req.confirmationToken)
    requires Lookup(w.fs, NormalizePath(env, req.path).value).None?
    ensures DeletePath(env, w, req, h) == (Err(PathNotFound), w)
  {
  }

  /** Without a token, an existing path gets a fresh five-digit token that
      expires 60 seconds after the request. The new store holds it bound to
      the request's own path string and flag, keeps every other entry that was
      live at load time (a colliding token is overwritten), and holds nothing
      else; the filesystem is untouched. */
  lemma IssueConfirmation(env: Env, w: World, req: DeleteRequest, h: Host, later: int)
    requires NormalizePath(env, req.path).Ok?
    requires !TokenGiven(req.confirmationToken)
    requires Lookup(w.fs, NormalizePath(env, req.path).value).Some?
    requires h.storeWrite == Written
    ensures var (r, w') := DeletePath(env, w, req, h);
            var t := NewToken(h.entropy);
            var expiry := h.requestTime + ConfirmationTtlSeconds;
            var before := Load(w.store, h.loadTime);
            var after := Load(w'.store, later);
            && r == Ok(ConfirmationRequired(ConfirmMessage(req.path, t), t, expiry))
            && w'.fs == w.fs
            && (later < expiry ==> t in after && after[t] == Pending(req.path, req.recursive, expiry))
            && (forall k :: k in before && k != t && before[k].expiry > later ==> k in after && after[k] == before[k])
            && (forall k :: k in after ==> k == t || k in before)
  {
    var t := NewToken(h.entropy);
    var expiry := h.requestTime + ConfirmationTtlSeconds;
    var before := Load(w.store, h.loadTime);
    LoadAfterSave(before[t := Pending(req.path, req.recursive, expiry)], w.store, later);
  }

  /** A token that was never issued, was consumed, or expired before the load
      is rejected and nothing changes. */
  lemma UnknownTokenRejected(env: Env, w: World, req: DeleteRequest, h: Host)
    requires NormalizePath(env, req.path).Ok?
    requires TokenGiven(req.confirmationToken)
    requires req.confirmationToken.value !in Load(w.store, h.loadTime)
    ensures DeletePath(env, w, req, h) == (Err(InvalidToken), w)
  {
  }

  /** A token found at load time but past its expiry at request time is
      removed from the store and rejected. */
  lemma ExpiredTokenRemoved(env: Env, w: World, req: DeleteRequest, h: Host, later: int)
    requires NormalizePath(env, req.path).Ok?
    requires TokenGiven(req.confirmationToken)
    requires req.confirmationToken.value in Load(w.store, h.loadTime)
    requires h.requestTime > Load(w.store, h.loadTime)[req.confirmationToken.value].expiry
    requires h.storeWrite == Written
    ensures DeletePath(env, w, req, h).0 == Err(TokenExpired)
    ensures DeletePath(env, w, req, h).1.fs == w.fs
    ensures req.confirmationToken.value !in Load(DeletePath(env, w, req, h).1.store, later)
  {
  }

  /** The expired-token branch needs the clock to move between the load and
      the request: with a single reading, `load` has already dropped every
      entry that the branch would reject. */
  lemma ExpiredNeedsClockAdvance(env: Env, w: World, req: DeleteRequest, h: Host)
    requires h.requestTime <= h.loadTime
    ensures DeletePath(env, w, req, h).0 != Err(TokenExpired)
  {
  }

  /** A live token presented with another path string or flag is rejected and
      retained: the store is left exactly as it was. */
  lemma MismatchRetainsToken(env: Env, w: World, req: DeleteRequest, h: Host)
    requires NormalizePath(env, req.path).Ok?
    requires TokenGiven(req.confirmationToken)
    requires req.confirmationToken.value in Load(w.store, h.loadTime)
    requires h.requestTime <= Load(w.store, h.loadTime)[req.confirmationToken.value].expiry
    requires var e := Load(w.store, h.loadTime)[req.confirmationToken.value];
             e.path != req.path || e.recursive != req.recursive
    ensures DeletePath(env, w, req, h) == (Err(ParameterMismatch), w)
  {
  }

  /** After a mismatch the same token still works with the parameters it was
      issued for: the retry reaches the deletion step. */
  lemma MismatchThenRetry(env: Env, w: World, req: DeleteRequest, h: Host, e: Pending)
    requires NormalizePath(env, req.path).Ok?
    requires TokenGiven(req.confirmationToken)
    requires req.confirmationToken.value in Load(w.store, h.loadTime)
    requires e == Load(w.store, h.loadTime)[req.confirmationToken.value]
    requires h.requestTime <= e.expiry
    requires e.path != req.path || e.recursive != req.recursive
    requires NormalizePath(env, e.path).Ok?
    ensures var (r1, w1) := DeletePath(env, w, req, h);
            var retry := DeleteRequest(e.path, e.recursive, req.confirmationToken);
            var (r2, _) := DeletePath(env, w1, retry, h);
            r1 == Err(ParameterMismatch)
            && (r2.Ok? || r2.error.DeletionFailed?)
  {
  }

  /** A matching token is consumed before the deletion is attempted: it is
      gone from the store whether or not the deletion succeeds, the reply
      follows the deletion step, and only the filesystem at the path changes. */
  lemma MatchingTokenConsumed(env: Env, w: World, req: DeleteRequest, h: Host, later: int)
    requires NormalizePath(env, req.path).Ok?
    requires TokenGiven(req.confirmationToken)
    requires req.confirmationToken.value in Load(w.store, h.loadTime)
    requires var e := Load(w.store, h.loadTime)[req.confirmationToken.value];
             h.requestTime <= e.expiry && e.path == req.path && e.recursive == req.recursive
    requires h.storeWrite == Written
    ensures var (r, w') := DeletePath(env, w, req, h);
            var p := NormalizePath(env, req.path).value;
            && req.confirmationToken.value !in Load(w'.store, later)
            && w'.fs == Execute(w.fs, p, req.recursive).1
            && (match Execute(w.fs, p, req.recursive).0
                case Err(c) => r == Err(DeletionFailed(c))
                case Ok(what) => r == Ok(Deleted(DeletedMessage(what, req.path), what)))
  {
  }

  /** A consumed token cannot be used again: the replay is rejected as unknown. */
  lemma ReplayRejected(env: Env, w: World, req: DeleteRequest, h: Host, h2: Host)
    requires NormalizePath(env, req.path).Ok?
    requires TokenGiven(req.confirmationToken)
    requires req.confirmationToken.value in Load(w.store, h.loadTime)
    requires var e := Load(w.store, h.loadTime)[req.confirmationToken.value];
             h.requestTime <= e.expiry && e.path == req.path && e.recursive == req.recursive
    requires h.storeWrite == Written
    ensures var (_, w') := DeletePath(env, w, req, h);
            DeletePath(env, w', req, h2) == (Err(InvalidToken), w')
  {
    var (_, w') := DeletePath(env, w, req, h);
    MatchingTokenConsumed(env, w, req, h, h2.loadTime);
    UnknownTokenRejected(env, w', req, h2);
  }

  /** A successful deletion removes the target and everything below it, and
      every path neither above nor below the target still denotes what it did. */
  lemma ExecuteEffect(fs: Node, p: Path, recursive: bool, q: Path)
    requires Execute(fs, p, recursive).0.Ok?
    ensures p <= q ==> Lookup(Execute(fs, p, recursive).1, q) == None
    ensures !(p <= q) && !(q <= p) ==> Lookup(Execute(fs, p, recursive).1, q) == Lookup(fs, q)
  {
    if p <= q {
      LookupBelowRemoved(fs, p, q);
    } else if !(q <= p) {
      LookupUnrelated(fs, p, None, q);
    }
  }

  /** The two-step cycle: a request without a token mints a token; presenting
      it with the same path string and flag before it expires runs the
      deletion step on the unchanged filesystem, and a third use is rejected. */
  lemma ConfirmationCycle(env: Env, w: World, req: DeleteRequest, h1: Host, h2: Host, h3: Host)
    requires NormalizePath(env, req.path).Ok?
    requires !TokenGiven(req.confirmationToken)
    requires Lookup(w.fs, NormalizePath(env, req.path).value).Some?
    requires h1.storeWrite == Written && h2.storeWrite == Written
    requires h2.loadTime < h1.requestTime + ConfirmationTtlSeconds
    requires h2.requestTime <= h1.requestTime + ConfirmationTtlSeconds
    ensures var (r1, w1) := DeletePath(env, w, req, h1);
            var t := NewToken(h1.entropy);
            var confirm := req.(confirmationToken := Some(t));
            var (r2, w2) := DeletePath(env, w1, confirm, h2);
            var p := NormalizePath(env, req.path).value;
            && r1.Ok? && r1.value.ConfirmationRequired? && r1.value.confirmationToken == t
            && (r2.Ok? <==> Execute(w.fs, p, req.recursive).0.Ok?)
            && w2.fs == Execute(w.fs, p, req.recursive).1
            && DeletePath(env, w2, confirm, h3) == (Err(InvalidToken), w2)
  {
    var (r1, w1) := DeletePath(env, w, req, h1);
    var t := NewToken(h1.entropy);
    var confirm := req.(confirmationToken := Some(t));
    IssueConfirmation(env, w, req, h1, h2.loadTime);
    assert TokenGiven(confirm.confirmationToken);
    MatchingTokenConsumed(env, w1, confirm, h2, h3.loadTime);
    ReplayRejected(env, w1, confirm, h2, h3);
  }

  /** A token whose lifetime has run out by the time the store is loaded
      fails exactly like one that was never issued. */
  lemma TokenAfterTtlIsUnknown(env: Env, w: World, req: DeleteRequest, h1: Host, h2: Host)
    requires NormalizePath(env, req.path).Ok?
    requires !TokenGiven(req.confirmationToken)
    requires Lookup(w.fs, NormalizePath(env, req.path).value).Some?
    requires h1.storeWrite == Written
    requires h2.loadTime >= h1.requestTime + ConfirmationTtlSeconds
    ensures var (_, w1) := DeletePath(env, w, req, h1);
            var confirm := req.(confirmationToken := Some(NewToken(h1.entropy)));
            DeletePath(env, w1, confirm, h2) == (Err(InvalidToken), w1)
  {
    var (_, w1) := DeletePath(env, w, req, h1);
    var confirm := req.(confirmationToken := Some(NewToken(h1.entropy)));
    assert TokenGiven(confirm.confirmationToken);
    UnknownTokenRejected(env, w1, confirm, h2);
  }

  /** A restart wipes the store: afterwards every token is unknown. */
  lemma RestartInvalidatesTokens(env: Env, s: Snapshot, fs: Node, req: DeleteRequest, h: Host)
    requires NormalizePath(env, req.path).Ok?
    requires TokenGiven(req.confirmationToken)
    ensures var w := World(Cleanup(s, true), fs);
            DeletePath(env, w, req, h) == (Err(InvalidToken), w)
  {
    CleanupForgetsAll(s, h.loadTime);
  }

  /** The host's move primitive (`shutil.move`) fails with a permission error
      or with some other error. */
  datatype HostFailure = PermissionFailure | OtherFailure

  /** What the move primitive leaves: its failure, if any, and the tree after
      it ran. Across filesystems it copies and then deletes, so a failure can
      leave a partial copy at the destination: a failed move need not leave
      the tree as it was. */
  datatype Moved = Moved(failure: Option<HostFailure>, after: Node)

  /** The error responses of `move_path`. */
  datatype MoveError =
    | MoveDenied(denial: Denial)
    | MovePermissionDenied
    | MoveFailed(sourceMissing: bool)

  /** The HTTP status of each error; the source-missing 404 is raised inside the
      `try` block and turned into a 500 by its `except Exception` clause. */
  function MoveStatus(e: MoveError): (code: int)
    ensures code == 500 <==> e.MoveFailed?
    ensures code == 403 <==> e.MoveDenied? || e.MovePermissionDenied?
  {
    match e
    case MoveDenied(_) => 403
    case MovePermissionDenied => 403
    case MoveFailed(_) => 500
  }

  /** `move_path`: both paths are validated, source first, before the source's
      existence is checked and the host's move primitive runs. */
  function MovePath(env: Env, fs: Node, source: string, destination: string,
                    hostMove: (Node, Path, Path) -> Moved): (r: (Result<string, MoveError>, Node))
    ensures NormalizePath(env, source).Err? ==> r == (Err(MoveDenied(NormalizePath(env, source).error)), fs)
    ensures NormalizePath(env, source).Ok? && NormalizePath(env, destination).Err? ==>
              r == (Err(MoveDenied(NormalizePath(env, destination).error)), fs)
    ensures NormalizePath(env, source).Ok? && NormalizePath(env, destination).Ok? ==>
              var (src, dst) := (NormalizePath(env, source).value, NormalizePath(env, destination).value);
              && (Lookup(fs, src).None? ==> r == (Err(MoveFailed(true)), fs))
              && (Lookup(fs, src).Some? ==>
                    && r.1 == hostMove(fs, src, dst).after
                    && (r.0.Ok? <==> hostMove(fs, src, dst).failure.None?)
                    && (hostMove(fs, src, dst).failure == Some(PermissionFailure) ==> r.0 == Err(MovePermissionDenied))
                    && (hostMove(fs, src, dst).failure == Some(OtherFailure) ==> r.0 == Err(MoveFailed(false))))
  {
    match NormalizePath(env, source)
    case Err(d) => (Err(MoveDenied(d)), fs)
    case Ok(src) =>
      match NormalizePath(env, destination)
      case Err(d) => (Err(MoveDenied(d)), fs)
      case Ok(dst) =>
        if Lookup(fs, src).None? then (Err(MoveFailed(true)), fs)
        else
          var m := hostMove(fs, src, dst);
          match m.failure
          case Some(PermissionFailure) => (Err(MovePermissionDenied), m.after)
          case Some(OtherFailure) => (Err(MoveFailed(false)), m.after)
          case None => (Ok("Successfully moved '" + source + "' to '" + destination + "'"), m.after)
  }

  /** The tree changes only where the move primitive ran: after both paths
      passed the gate and the source was found. Then it is whatever the
      primitive left, on success and on failure alike. */
  lemma MoveChangesOnlyThroughPrimitive(env: Env, fs: Node, source: string, destination: string,
                                        hostMove: (Node, Path, Path) -> Moved)
    requires MovePath(env, fs, source, destination, hostMove).1 != fs
    ensures NormalizePath(env, source).Ok? && NormalizePath(env, destination).Ok?
    ensures Lookup(fs, NormalizePath(env, source).value).Some?
    ensures MovePath(env, fs, source, destination, hostMove).1
            == hostMove(fs, NormalizePath(env, source).value, NormalizePath(env, destination).value).after
  {
  }

  /** Both paths pass the gate before anything else happens: a denial of
      either (the source's first) leaves the filesystem as it was and does not
      depend on the move primitive, which is therefore never consulted. */
  lemma MoveGatesBothPathsFirst(env: Env, fs: Node, source: string, destination: string,
                                m1: (Node, Path, Path) -> Moved, m2: (Node, Path, Path) -> Moved)
    requires NormalizePath(env, source).Err? || NormalizePath(env, destination).Err?
    ensures MovePath(env, fs, source, destination, m1) == MovePath(env, fs, source, destination, m2)
    ensures MovePath(env, fs, source, destination, m1).1 == fs
    ensures MovePath(env, fs, source, destination, m1).0
            == Err(MoveDenied(if NormalizePath(env, source).Err? then NormalizePath(env, source).error
                              else NormalizePath(env, destination).error))
  {
  }

  /** A missing source is reported (as a 500) before the move primitive runs. */
  lemma MoveMissingSource(env: Env, fs: Node, source: string, destination: string,
                          m1: (Node, Path, Path) -> Moved, m2: (Node, Path, Path) -> Moved)
    requires NormalizePath(env, source).Ok? && NormalizePath(env, destination).Ok?
    requires Lookup(fs, NormalizePath(env, source).value).None?
    ensures MovePath(env, fs, source, destination, m1) == MovePath(env, fs, source, destination, m2)
    ensures MovePath(env, fs, source, destination, m1) == (Err(MoveFailed(true)), fs)
    ensures MoveStatus(MovePath(env, fs, source, destination, m1).0.error) == 500
  {
  }
}

=== FILE: text.dfy ===
/** String helpers with the semantics of the Python `str` methods the servers
    call: `lower`, `in`, `startswith`, `replace(old, new, 1)`, `strip` and
    line iteration over a text file. Lower-casing is restricted to ASCII. */
module Text {
  import opened Basics

  /** ASCII lower-casing of one character; every other character is kept. */
  function Lower(c: char): char
  {
    if 'A' <= c <= 'Z' then (c as int + 32) as char else c
  }

  /** `s.lower()`, character by character. */
  function LowerStr(s: string): (r: string)
    ensures |r| == |s|
    ensures forall i :: 0 <= i < |s| ==> r[i] == Lower(s[i])
  {
    if s == [] then [] else [Lower(s[0])] + LowerStr(s[1..])
  }

  /** Lower-casing an already lower-cased string changes nothing. */
  lemma LowerStrIdempotent(s: string)
    ensures LowerStr(LowerStr(s)) == LowerStr(s)
  {
  }

  /** A string without ASCII capitals is its own lower-case form. */
  lemma LowerStrNoUpper(s: string)
    requires forall i :: 0 <= i < |s| ==> !('A' <= s[i] <= 'Z')
    ensures LowerStr(s) == s
  {
  }

  /** Lower-casing respects prefixes. */
  lemma LowerStrPrefix(p: string, s: string)
    requires p <= s
    ensures LowerStr(p) <= LowerStr(s)
  {
  }

  /** `sub` sits in `s` starting at index `i`. */
  predicate OccursAt(s: string, sub: string, i: int)
  {
    0 <= i && i + |sub| <= |s| && s[i..i + |sub|] == sub
  }

  /** Python's `sub in s`. */
  predicate Contains(s: string, sub: string)
  {
    exists i :: 0 <= i <= |s| && OccursAt(s, sub, i)
  }

  /** `i` is the leftmost index at which `sub` occurs in `s`. */
  predicate IsFirstOccurrence(s: string, sub: string, i: int)
  {
    OccursAt(s, sub, i) && forall j :: 0 <= j < i ==> !OccursAt(s, sub, j)
  }

  /** The empty string occurs in every string, at index 0. */
  lemma EmptyOccursFirst(s: string)
    ensures IsFirstOccurrence(s, "", 0)
    ensures Contains(s, "")
  {
    assert OccursAt(s, "", 0);
  }

  /** Leftmost occurrence of `sub` at or after index `k`. */
  function FindFrom(s: string, sub: string, k: nat): (r: Option<nat>)
    ensures r.Some? ==> k <= r.value && OccursAt(s, sub, r.value)
    ensures r.Some? ==> forall j :: k <= j < r.value ==> !OccursAt(s, sub, j)
    ensures r.None? ==> forall j :: k <= j ==> !OccursAt(s, sub, j)
    decreases |s| - k
  {
    if k + |sub| > |s| then None
    else if s[k..k + |sub|] == sub then Some(k)
    else FindFrom(s, sub, k + 1)
  }

  /** `s.find(sub)`, as an option: the leftmost occurrence, if any. */
  function FindFirst(s: string, sub: string): (r: Option<nat>)
    ensures r.Some? <==> Contains(s, sub)
    ensures r.Some? ==> IsFirstOccurrence(s, sub, r.value)
  {
    FindFrom(s, sub, 0)
  }

  /** Two first occurrences are the same occurrence. */
  lemma FirstOccurrenceUnique(s: string, sub: string, i: int, j: int)
    requires IsFirstOccurrence(s, sub, i) && IsFirstOccurrence(s, sub, j)
    ensures i == j
  {
  }

  /** `s.replace(old, new, 1)` guarded by `old in s`: `None` when `target`
      does not occur, otherwise `s` with its leftmost `target` replaced by
      `replacement`. */
  function ReplaceFirst(s: string, target: string, replacement: string): (r: Option<string>)
    ensures r.None? <==> !Contains(s, target)
    ensures r.Some? ==> |r.value| == |s| - |target| + |replacement|
    ensures r.Some? ==> exists i :: IsFirstOccurrence(s, target, i)
                                 && r.value[..i] == s[..i]
                                 && r.value[i..i + |replacement|] == replacement
                                 && r.value[i + |replacement|..] == s[i + |target|..]
  {
    match FindFirst(s, target)
    case None => None
    case Some(i) =>
      var t := s[..i] + replacement + s[i + |target|..];
      assert t[..i] == s[..i] && t[i..i + |replacement|] == replacement && t[i + |replacement|..] == s[i + |target|..];
      Some(t)
  }

  /** Knowing the first occurrence pins down the replaced text. */
  lemma ReplaceFirstAt(s: string, target: string, replacement: string, i: int)
    requires IsFirstOccurrence(s, target, i)
    ensures ReplaceFirst(s, target, replacement) == Some(s[..i] + replacement + s[i + |target|..])
  {
    assert Contains(s, target);
    var j := FindFirst(s, target).value;
    FirstOccurrenceUnique(s, target, i, j);
  }

  /** Whitespace as Python's `str.isspace` sees it. */
  predicate IsSpace(c: char)
  {
    var n := c as int;
    (9 <= n <= 13) || (28 <= n <= 32) || n == 0x85 || n == 0xA0 || n == 0x1680
    || (0x2000 <= n <= 0x200A) || n == 0x2028 || n == 0x2029 || n == 0x202F
    || n == 0x205F || n == 0x3000
  }

  /** Where `lstrip` starts cutting nothing more: the first position from
      `i` on that does not hold whitespace, or `|s|`. */
  function TrimStart(s: string, i: nat): (n: nat)
    requires i <= |s|
    ensures i <= n <= |s|
    ensures forall k :: i <= k < n ==> IsSpace(s[k])
    ensures n < |s| ==> !IsSpace(s[n])
    decreases |s| - i
  {
    if i < |s| && IsSpace(s[i]) then TrimStart(s, i + 1) else i
  }

  /** Where `rstrip` stops cutting, never going below `lo`: the end of the
      last character in `s[lo..j]` that is not whitespace, or `lo`. */
  function TrimEnd(s: string, lo: nat, j: nat): (n: nat)
    requires lo <= j <= |s|
    ensures lo <= n <= j
    ensures forall k :: n <= k < j ==> IsSpace(s[k])
    ensures n > lo ==> !IsSpace(s[n - 1])
    decreases j
  {
    if j > lo && IsSpace(s[j - 1]) then TrimEnd(s, lo, j - 1) else j
  }

  /** `s.strip()`: `lstrip` then `rstrip`, the slice left between the two
      cuts. */
  function Strip(s: string): string
  {
    var i := TrimStart(s, 0);
    s[i..TrimEnd(s, i, |s|)]
  }

  /** `r` is `s[i..j]` and everything cut from either end is whitespace. */
  predicate TrimmedAt(s: string, r: string, i: int, j: int)
  {
    0 <= i <= j <= |s| && r == s[i..j]
    && (forall k :: 0 <= k < i ==> IsSpace(s[k]))
    && (forall k :: j <= k < |s| ==> IsSpace(s[k]))
  }

  /** `strip` keeps a slice of `s` whose removed ends are all whitespace and
      whose own ends are not. */
  lemma StripIsTrim(s: string)
    ensures exists i, j :: TrimmedAt(s, Strip(s), i, j)
    ensures var r := Strip(s); r != [] ==> !IsSpace(r[0]) && !IsSpace(r[|r| - 1])
  {
    var i := TrimStart(s, 0);
    var j := TrimEnd(s, i, |s|);
    assert TrimmedAt(s, Strip(s), i, j);
    if i < j {
      assert Strip(s)[0] == s[i] && Strip(s)[j - i - 1] == s[j - 1];
    }
  }

  /** Joins a sequence of strings with nothing between them. */
  function Concat(parts: seq<string>): string
  {
    if parts == [] then [] else parts[0] + Concat(parts[1..])
  }

  /** Iterating a text file yields its lines: each ends with its newline,
      except possibly the last one; an empty text has no lines. */
  function SplitLines(s: string): (lines: seq<string>)
    ensures forall i :: 0 <= i < |lines| ==> lines[i] != []
    ensures forall i :: 0 <= i < |lines| - 1 ==> lines[i][|lines[i]| - 1] == '\n'
    ensures forall i, k :: 0 <= i < |lines| && 0 <= k < |lines[i]| - 1 ==> lines[i][k] != '\n'
    decreases |s|
  {
    if s == [] then []
    else match FindFirst(s, "\n")
      case None =>
        assert forall k :: 0 <= k < |s| ==> !OccursAt(s, "\n", k);
        assert forall k :: 0 <= k < |s| ==> s[k] != '\n' by {
          forall k | 0 <= k < |s| ensures s[k] != '\n' {
            assert !OccursAt(s, "\n", k);
            assert s[k..k + 1] == [s[k]];
          }
        }
        [s]
      case Some(i) =>
        assert s[i..i + 1] == "\n";
        assert forall k :: 0 <= k < i ==> s[k] != '\n' by {
          forall k | 0 <= k < i ensures s[k] != '\n' {
            assert !OccursAt(s, "\n", k);
            assert s[k..k + 1] == [s[k]];
          }
        }
        [s[..i + 1]] + SplitLines(s[i + 1..])
  }

  /** Gluing the lines back together restores the text. */
  lemma {:induction false} ConcatSplitLines(s: string)
    ensures Concat(SplitLines(s)) == s
    decreases |s|
  {
    if s != [] {
      match FindFirst(s, "\n")
      case None =>
        assert Concat([s]) == s + Concat([]);
      case Some(i) =>
        var lines := SplitLines(s);
        assert lines == [s[..i + 1]] + SplitLines(s[i + 1..]);
        assert lines[1..] == SplitLines(s[i + 1..]);
        ConcatSplitLines(s[i + 1..]);
        assert s == s[..i + 1] + s[i + 1..];
    }
  }

  /** Universal-newline translation, which reading in text mode applies:
      every "\r\n" and every lone "\r" (one at the very end included)
      becomes "\n". */
  function Universal(s: string): (r: string)
    ensures '\r' !in r
    ensures |r| <= |s|
    decreases |s|
  {
    if s == [] then []
    else if s[0] == '\r' then "\n" + Universal(if |s| > 1 && s[1] == '\n' then s[2..] else s[1..])
    else [s[0]] + Universal(s[1..])
  }

  /** The translation changes a text exactly when it holds a carriage
      return, so translating twice is translating once. */
  lemma {:induction false} UniversalKeepsPlain(s: string)
    ensures Universal(s) == s <==> '\r' !in s
    ensures Universal(Universal(s)) == Universal(s)
    decreases |s|
  {
    if s != [] && s[0] != '\r' {
      UniversalKeepsPlain(s[1..]);
      assert '\r' !in s <==> '\r' !in s[1..] by {
        assert s == [s[0]] + s[1..];
      }
    }
    if '\r' !in Universal(s) {
      UniversalPlain(Universal(s));
    }
  }

  /** Text without carriage returns is left as it is. */
  lemma {:induction false} UniversalPlain(s: string)
    requires '\r' !in s
    ensures Universal(s) == s
    decreases |s|
  {
    if s != [] {
      assert s == [s[0]] + s[1..];
      UniversalPlain(s[1..]);
    }
  }

  /** A Windows line end and an old Mac one both read as "\n". */
  lemma UniversalExamples()
    ensures Universal("a\r\nb") == "a\nb"
    ensures Universal("a\rb\r") == "a\nb\n"
  {
    assert Universal("\n") == "\n" by {
      assert "\n"[1..] == [];
    }
    assert "a\r\nb"[1..] == "\r\nb" && "\r\nb"[2..] == "b" && "b"[1..] == [];
    assert Universal("b") == "b";
    assert Universal("\r\nb") == "\nb";
    assert "a\rb\r"[1..] == "\rb\r" && "\rb\r"[1..] == "b\r" && "b\r"[1..] == "\r" && "\r"[1..] == [];
    assert Universal("\r") == "\n";
    assert Universal("b\r") == "b\n";
    assert Universal("\rb\r") == "\nb\n";
  }
}
